=== FILE: README.md ===
# Docuvi compliance and certificate core, in Dafny

Docuvi is a document-compliance portal. A reviewer (`revisor`) assigns document
requirements to client companies. Clients upload versioned documents against
those requirements, and the reviewer approves or rejects each upload. Once a
client's mandatory requirements are fulfilled, the reviewer issues a
certificate. The certificate carries a hash and a public verification code,
can be revoked, and expires. Expiry notices reach clients as in-app
notifications and WhatsApp messages. Every action is recorded in an audit
table.

This project models the rule logic of that system as pure Dafny functions over
immutable tables. It covers:

- certificate verification, issuance (with its compensating delete) and revocation;
- the document upload, approve and reject operations and their listings;
- the compliance statistics and the per-client response times;
- the expiry classification of dates;
- the file-name, path, text and hash helpers, and the PDF's string work;
- the notification-preference form;
- the expiry-notice API route and the scheduled edge function;
- the WhatsApp route and the route guard of the middleware;
- the retry policy and the two authentication-error classifiers;
- the toast store, the inactivity detector and the logout countdown;
- the notification and audit services;
- the decision logic of the reviewer and client pages.

Conventions of the model:

- **Tables.** A table is a `seq` of row datatypes (`Tablas`). A query is a filter
  and a sort over it (`Sorting`). An update is a pointwise replacement.
- **Dates.** A `yyyy-mm-dd` column is a `Day`, an integer day number. A timestamp is
  an `Instant` in milliseconds. Comparing ISO date strings is comparing these
  integers.
- **Inputs passed in.** Everything the code cannot see is a parameter: the clock,
  random ids, the answers of stored procedures, the SHA-256 digest, and the
  outcomes of storage, insert and HTTP calls.
- **Percentages and averages.** These are exact integers in tenths, rounded half
  up as `Math.round` does on the exact quotient. The one exception is the
  dashboard percentage, which is rounded to a whole percent.
- **Modules.** Each module follows one source file. `Base`, `Text`, `Sorting` and
  `Tablas` hold the shared vocabulary.

## Model

| member | source | states |
|---|---|---|
| Certificados.ObtenerPorCodigo | src/services/certificados.service.ts:119-152 | the lookup answers a certificate exactly when one row has the code (`.single()`); that row is in the table with that code; no match gives none |
| Certificados.Verificar | src/services/certificados.service.ts:305-347 | no certificate is "not found", not valid, with no certificate; a revoked one is reported revoked with its reason whatever its dates; otherwise `hasta < hoy` is expired and `desde > hoy` not yet valid; valid iff not revoked and `desde <= hoy <= hasta` |
| Certificados.VerificarCertificado | src/services/certificados.service.ts:305-313 | a reported certificate is the table's row with that code; "not found" iff the code does not match exactly one row |
| Certificados.AprobadoMasReciente | src/services/certificados.service.ts:197-205 | the document chosen for a requirement is an approved, non-deleted version of it with the highest version among those; none only when no such version exists |
| Certificados.Detalle | src/services/certificados.service.ts:207-215 | the snapshot row of one requirement; with no approved document the fallbacks are `Desconocido`, the issuance time, no expiry and the issuer; with one, its name and expiry, its approval time or else the issuance time, and its approver when non-empty or else the issuer |
| Certificados.Obligatorios | src/services/certificados.service.ts:179-188 | exactly the client's mandatory requirements |
| Certificados.Detalles | src/services/certificados.service.ts:195-217 | one detail per mandatory requirement, in order, each the snapshot of that requirement |
| Certificados.Codigo | src/services/certificados.service.ts:175-176 | the generator's code when it answers one, otherwise a code starting `CERT-` |
| Certificados.GenerarCertificado | src/services/certificados.service.ts:157-271 | a failed compliance gate writes nothing; a failed certificate insert writes nothing; a failed detail insert followed by a successful delete leaves the state unchanged, and one followed by a failed delete leaves the new `activo` certificate in place with no details; success appends one `activo` certificate with the given fields and the compliance counters, plus one detail per mandatory requirement |
| Certificados.Cumple | src/services/certificados.service.ts:165-172 | the gate fails for an absent or empty answer; otherwise it is the first row's `cumple`, later rows ignored |
| Certificados.SinHuerfano | src/services/certificados.service.ts:264-268 | the compensating delete of a row just appended under a fresh id restores the table |
| Certificados.EmitidoEsValido | src/services/certificados.service.ts:230-271 | a certificate just issued under a fresh code verifies as valid on every day of its validity window |
| Certificados.UnicoAlFinal | src/services/certificados.service.ts:119-152 | a row appended under a code no other row has is found by that code |
| Certificados.RevocarCertificado | src/services/certificados.service.ts:276-300 | a failed update changes nothing and answers none; otherwise revocation sets exactly the state, the reason, who and when on the rows with that id, whatever their prior state, and every other row and field is unchanged; a certificate is answered iff the update succeeded and exactly one row has the id (`.single()`), and it is that revoked row |
| Certificados.RevocadoSeInformaRevocado | src/services/certificados.service.ts:315-322 | after revocation, verification on any day reports revoked with the given reason |
| Certificados.ProximosVencer | src/services/certificados.service.ts:367-388 | exactly the `activo` certificates with `hoy <= hasta <= hoy + dias` (30 by default), each as often as in the table, soonest end first |
| Documentos.ObtenerDocumentos | src/services/documentos.service.ts:12-27 | exactly the requirement's non-deleted documents, each as often as in the table, by descending version |
| Documentos.ObtenerPendientes | src/services/documentos.service.ts:68-96 | exactly the pending, non-deleted documents, each as often as in the table, oldest upload first |
| Documentos.ObtenerVencidos | src/services/documentos.service.ts:288-305 | exactly the approved, non-deleted documents whose expiry day is before today, each as often as in the table, earliest expiry first |
| Documentos.FiltrarDocumentos | src/services/documentos.service.ts:310-356 | exactly the non-deleted rows that pass each criterion that is set (state unless absent or `todos`, inclusive upload bounds), each as often as in the table, latest upload first |
| Documentos.FiltrosIgnorados | src/services/documentos.service.ts:310-356 | the client and document-type criteria do not change the result, and `todos` filters like no state |
| Documentos.SubirDocumento | src/services/documentos.service.ts:101-155 | the version is the RPC's or 1, and the path is `cliente/tipo/version/unique-name`; a failed upload creates no row; a failed insert creates no row and removes the stored file when the removal succeeds, otherwise the file stays; success adds one `pendiente` row with the original name and the given expiry, and one stored path |
| Documentos.Guardar | src/services/documentos.service.ts:123-152 | a rejected upload or a taken path leaves the state as it was; a failed insert leaves the rows as they were and removes the stored file again when the removal succeeds, otherwise the file stays behind without a row; success adds exactly the row and its path |
| Documentos.SubidaSinHuerfanos | src/services/documentos.service.ts:128-152 | an upload outcome leaves a stored file without its row only when both the insert and the removal after it fail |
| Documentos.HuerfanoSiFallaLaLimpieza | src/services/documentos.service.ts:148-152 | when the insert and the removal after it both fail, the stored file stays with no row pointing at it |
| Documentos.SubidoQuedaPendiente | src/services/documentos.service.ts:101-155 | a document just uploaded appears among the pending ones |
| Documentos.RutaSubida | src/services/documentos.service.ts:117-121 | the path is the version's folder `cliente/tipo/version/` followed by the unique name |
| Documentos.RutaSubidaUnica | src/services/documentos.service.ts:117-121 | two uploads of one version at different clock readings get different paths, whatever the file names |
| Documentos.Actualizar | src/services/documentos.service.ts:168-185 | rows with the id are replaced by the change, the others are kept; the answer exists iff exactly one row matched |
| Documentos.AprobarDocumento | src/services/documentos.service.ts:160-192 | on a successful update, approval sets the state, the approver and the time, and the expiry only when one is given, with nothing else changed; a failed update changes nothing; the answer (`.single()`) exists iff the update succeeded and exactly one row has the id, and is then that row, approved |
| Documentos.RechazarDocumento | src/services/documentos.service.ts:197-218 | on a successful update, rejection sets only the state and the reason; a failed update changes nothing; the answer exists iff the update succeeded and exactly one row has the id, and is then that row, rejected with the reason |
| Documentos.AprobadoSaleDePendientes | src/services/documentos.service.ts:87-89 | an approved document no longer appears among the pending ones |
| RequerimientosPage.UltimoDocumento | src/app/cliente/requerimientos/page.tsx:98-102 | none for an absent or empty list, or when every document is deleted; otherwise a non-deleted document of the list with the highest version among non-deleted ones |
| RequerimientosPage.HandleFileChange | src/app/cliente/requerimientos/page.tsx:72-82 | a file over 10 MiB is refused with a notice and the previous choice is kept; any other file is selected |
| RequerimientosPage.HandleSubir | src/app/cliente/requerimientos/page.tsx:84-90 | the upload starts iff a file is chosen; otherwise the user is asked to choose one |
| RequerimientosPage.Mutacion | src/app/cliente/requerimientos/page.tsx:49-60 | the upload request exists iff file, requirement and client are present; it carries their ids, with an empty date sent as absent |
| RequerimientosPage.CerrarModal | src/app/cliente/requerimientos/page.tsx:92-96 | closing clears the selection, the file and the date, so a submit afterwards starts nothing |
| RequerimientosPage.VencimientoBadge | src/app/cliente/requerimientos/page.tsx:117-131 | no badge without a date; otherwise success, warning or danger for `vigente`, `proximo` or `vencido`, never neutral |
| RequerimientosPage.BadgeRojoSiVencido | src/app/cliente/requerimientos/page.tsx:117-131 | the badge is danger iff the expiry day's midnight is in the past |
| Estadisticas.Decimas | src/services/estadisticas.service.ts:77-83 | a ratio as tenths of a percent, rounded half up: between 0 and 1000 when `0 <= c <= t`, 1000 for a full ratio and 0 for none |
| Estadisticas.RequerimientosConAprobado | src/services/estadisticas.service.ts:62-75 | an id is counted iff some approved, non-deleted document is on it |
| Estadisticas.ObtenerCumplimientoTotal | src/services/estadisticas.service.ts:46-88 | the total is the number of requirement rows; fulfilled is the number of distinct requirement ids among approved, non-deleted documents; the percentage is 0 with no requirements and otherwise the rounded ratio |
| Estadisticas.TotalAcotado | src/services/estadisticas.service.ts:62-83 | when every document belongs to a listed requirement, fulfilled is at most the total and the percentage is within 0..100 |
| Estadisticas.CumplimientoDe | src/services/estadisticas.service.ts:114-135 | a client's entry counts its requirements and those with an approved, non-deleted document; fulfilled is at most the total; with requirements, the percentage is the ratio in tenths of a percent rounded half up (so within 0..100, 0 when nothing counts and 100 when all do); 0 without requirements |
| Estadisticas.ObtenerCumplimientoPorCliente | src/services/estadisticas.service.ts:90-141 | one entry per active client (and only those), highest percentage first |
| Estadisticas.EntradasAcotadas | src/services/estadisticas.service.ts:119-134 | every entry has fulfilled at most total and a percentage within 0..100 |
| Estadisticas.DiasAprobacion | src/services/estadisticas.service.ts:182-186 | whole days from upload to approval, rounded down |
| Estadisticas.AcumularCorrecto | src/services/estadisticas.service.ts:175-197 | the loop's map has one entry per client with a counted row, holding that client's number of documents and sum of days; rows without a client are skipped |
| Estadisticas.Promedio | src/services/estadisticas.service.ts:199-207 | the average in tenths of a day, rounded half up |
| Estadisticas.TiemposPorCliente | src/services/estadisticas.service.ts:175-207 | each line's document count is the client's number of counted rows (at least 1), its average is their rounded mean, clients are distinct, and every client with a counted row has a line |
| Estadisticas.ObtenerClientesMasRapidos | src/services/estadisticas.service.ts:146-211 | lowest average first; exactly `limite` lines (5 by default) or all when fewer, with `slice` semantics for a negative limit; the lines are drawn from the clients' lines without repetition, and every line left out has an average no lower than every line kept |
| Estadisticas.ObtenerClientesMasLentos | src/services/estadisticas.service.ts:216-281 | highest average first; exactly `limite` lines (5 by default) or all when fewer, with `slice` semantics for a negative limit; the lines are drawn from the clients' lines without repetition, and every line left out has an average no higher than every line kept |
| Estadisticas.RapidosYLentos | src/services/estadisticas.service.ts:210-280 | with a limit that covers all clients, both lists hold the same lines, one ascending and one descending |
| Estadisticas.ObtenerDocumentosVencidos | src/services/estadisticas.service.ts:286-333 | one line per overdue document, in expiry order; each expiry is before today and `dias_vencido` is at least 1 and is the whole days since the expiry's midnight |
| ClienteDashboard.CumplidoIff | src/app/cliente/page.tsx:48-62 | a requirement is fulfilled iff some document on it is approved and not deleted |
| ClienteDashboard.DocumentosPendientes | src/app/cliente/page.tsx:48-54 | 0 when the list is absent; otherwise the number of requirements with no approved, non-deleted document |
| ClienteDashboard.DocumentosAprobados | src/app/cliente/page.tsx:56-62 | 0 when the list is absent; otherwise the number of requirements with an approved, non-deleted document |
| ClienteDashboard.Particion | src/app/cliente/page.tsx:48-62 | pending plus fulfilled equals the number of requirements |
| ClienteDashboard.RedondearPorcentaje | src/app/cliente/page.tsx:67-68 | the percentage is the nearest integer of the ratio, halves up; within 0..100 when `0 <= c <= t`; 100 when all are fulfilled |
| ClienteDashboard.PorcentajeCumplimiento | src/app/cliente/page.tsx:65-68 | 0 when there are no requirements; otherwise the fulfilled share in percent rounded to the nearest integer, halves up (absent fulfilled counts as 0); so within 0..100 when fulfilled is at most total, and 100 when they are equal |
| ClienteDashboard.TiempoRespuesta | src/app/cliente/page.tsx:94 | `N/A` iff the average is absent or zero; otherwise the number followed by ` días`, which reads back as the number |
| Fechas.TruncDiv | src/lib/fechas.ts:51-59 | integer division truncating toward zero |
| Fechas.DiasRestantes | src/lib/fechas.ts:51-59 | 0 for an invalid date; otherwise at least 1 iff a whole day or more remains, at most -1 iff a whole day or more has passed, and the whole days to the date truncated toward zero, ahead and past alike |
| Fechas.EstaVencido | src/lib/fechas.ts:64-72 | expired iff the date is valid and before now |
| Fechas.EstaProximoVencer | src/lib/fechas.ts:77-84 | true iff between 1 and `limite` whole days remain |
| Fechas.ObtenerEstadoVencimiento | src/lib/fechas.ts:97-105 | `sin_fecha` iff there is no date; `vencido` iff it is valid and past; `proximo` iff 1 to 30 whole days remain; `vigente` otherwise, including invalid dates |
| Fechas.ColorDe | src/lib/fechas.ts:110-125 | the colour mapping is a bijection: neutral, success, warning and danger for `sin_fecha`, `vigente`, `proximo` and `vencido` |
| Fechas.ObtenerColorVencimiento | src/lib/fechas.ts:110-125 | neutral iff there is no date; danger iff the date is expired |
| Fechas.ProximoIffDias | src/lib/fechas.ts:77-81 | `proximo` iff `0 < diasRestantes <= 30`; an expired date is `vencido` and has no positive count |
| Fechas.MenosDeUnDiaEsVigente | src/lib/fechas.ts:51-58 | a date less than one whole day ahead has 0 days left and is `vigente` |
| Fechas.InvalidaEsVigente | src/lib/fechas.ts:54-67 | an invalid date counts 0 days, is not expired and is `vigente` |
| Fechas.VencidoEsPermanente | src/lib/fechas.ts:64-72 | once expired, a date stays expired at every later instant |
| Utils.GuionarEspacios | src/lib/utils.ts:21 | the result has no whitespace, and every character is a hyphen or comes from the input; a blank-free input is kept |
| Utils.GuionarTramo | src/lib/utils.ts:21 | a blank run between a non-blank end and a non-blank start gives exactly one `-`, the two sides hyphenated on their own; with the blank-free case this fixes the result |
| Utils.SoloPermitidos | src/lib/utils.ts:22 | only `[a-z0-9.-]` remains, and the input is kept when it is already clean; one character is kept iff it is allowed |
| Utils.SoloPermitidosConcatena | src/lib/utils.ts:22 | filtering two strings joined is joining what each keeps, so exactly the allowed characters are kept, in order |
| Utils.FormatearNombreArchivo | src/lib/utils.ts:18-23 | only `[a-z0-9.-]` characters, and a dot only when the input had one; a name without whitespace gives exactly its allowed lower-cased characters |
| Utils.FormatearTramo | src/lib/utils.ts:18-23 | a blank run between a non-blank end and a non-blank start gives one `-` between the two sides formatted on their own |
| Utils.FormatearIdempotente | src/lib/utils.ts:18-23 | formatting a formatted name changes nothing |
| Utils.ObtenerExtension | src/lib/utils.ts:28-31 | `''` without a dot; otherwise a dot and the last segment, which ends the name |
| Utils.GenerarNombreUnicoArchivo | src/lib/utils.ts:51-58 | the unique name is the timestamp, `_`, the formatted name with the first occurrence of its extension removed, and the extension; so it keeps the original's extension and starts with the timestamp that `parseInt` reads back |
| Utils.ConstruirRutaStorage | src/lib/utils.ts:63-70 | the path starts with the client and a `/`, ends with a `/` and the file name, and is the four parts plus three separators long |
| Utils.RutaRecuperable | src/lib/utils.ts:63-70 | splitting the path on `/` recovers the client, the type, the version and the name when they hold no `/` |
| Utils.ValidarTelefono | src/lib/utils.ts:83-87 | valid iff 8 to 20 characters, each a digit, whitespace, `-`, `(`, `)` or `+` |
| Utils.TelefonosDeEjemplo | src/lib/utils.ts:83-87 | typical local and international numbers pass; one with a letter or of 7 characters fails |
| Utils.TruncarTexto | src/lib/utils.ts:92-95 | the text itself when it fits; otherwise a prefix of `longitud` characters (none for a negative length) followed by `...` |
| Utils.Capitalizar | src/lib/utils.ts:100-103 | same length; an upper-case first letter and lower-case rest on ASCII letters; the same text up to case |
| Utils.CapitalizarIdempotente | src/lib/utils.ts:100-103 | capitalising twice is capitalising once |
| Utils.ObtenerIniciales | src/lib/utils.ts:148-154 | one word gives its first two characters upper-cased; several give the upper-cased first letters of the first and last words |
| Utils.InicialesCorrectas | src/lib/utils.ts:148-154 | the split-based initials equal the characterisation by the first character and the start of the trailing word |
| Utils.HexEncode | src/lib/utils.ts:111-113 | two lower-case hex digits per byte |
| Utils.HexRoundTrip | src/lib/utils.ts:111-113 | decoding the hex string gives the bytes back, so distinct digests give distinct hashes |
| Utils.GenerarHash | src/lib/utils.ts:108-114 | the hash of a 32-byte digest is 64 lower-case hex characters from which the digest reads back |
| Pdf.LineasHash | src/lib/generarPDF.ts:290-293 | the two lines joined are the first 64 characters of the hash, 32 each for a full hash |
| Pdf.LineasDeUnHashCompleto | src/lib/generarPDF.ts:290-293 | a generated hash is printed whole across the two lines |
| Pdf.UrlVerificacion | src/lib/generarPDF.ts:263 | the URL starts with the configured base, or `http://localhost:3000`, and ends with `/verificar/<codigo>` |
| Pdf.UrlVisibleSinEsquema | src/lib/generarPDF.ts:301 | an `http://` URL is displayed without its scheme |
| Pdf.LimpiarNombreEmpresa | src/lib/generarPDF.ts:343-346 | 1 to 30 characters from `[A-Za-z0-9_]`: the company name (or `Certificado`) with every other character replaced by `_` |
| Pdf.LimpiarIdempotente | src/lib/generarPDF.ts:343-346 | cleaning a clean name changes nothing |
| Pdf.NombreArchivoPdf | src/lib/generarPDF.ts:347 | the file is `Certificado_<codigo>_...` with extension `.pdf` |
| Pdf.GenerarCertificadoPdf | src/lib/generarPDF.ts:237-305 | the count is the number of details (0 when absent); the authenticity box is present iff the QR step succeeded, and it carries the hash lines and the verification URL |
| Pdf.QrNoInterrumpe | src/lib/generarPDF.ts:262-305 | a QR failure changes nothing but the authenticity box |
| ConfigNotificaciones.FormularioInicial | src/components/clientes/ConfiguracionNotificaciones.tsx:25-29 | number `''` when absent, notify true unless explicitly false, days 7 when absent or zero |
| ConfigNotificaciones.InternacionalEsTelefono | src/components/clientes/ConfiguracionNotificaciones.tsx:63-69 | a number in the international format also passes the looser general phone check |
| ConfigNotificaciones.Validar | src/components/clientes/ConfiguracionNotificaciones.tsx:51-76 | missing number iff notify is on and the number is empty; bad format iff a non-empty number is not `+` and 10 to 15 digits; bad days iff outside 1..90; no error iff all three hold |
| ConfigNotificaciones.Enviar | src/components/clientes/ConfiguracionNotificaciones.tsx:78-83 | the update is sent iff there is no error, with the empty number sent as null and the fields as entered |
| ConfigNotificaciones.AjustarDias | src/components/clientes/ConfiguracionNotificaciones.tsx:172-175 | always within 1..90; a non-number gives 1; a number below 1 gives 1; an in-range number is kept; a larger one gives 90 |
| ConfigNotificaciones.AjustarDiasValido | src/components/clientes/ConfiguracionNotificaciones.tsx:172-175 | a value from the numeric input never fails the days check, and typed numbers in range read back |
| CheckVencimientos.NotificadosRecientes | src/app/api/notificaciones/check-vencimientos/route.ts:73-82 | an id is recent iff a `documento_proximo_vencer` row for it was created in the last 24 hours |
| CheckVencimientos.Preparar | src/app/api/notificaciones/check-vencimientos/route.ts:102-114 | the queued notification goes to the client's user, for that document, with its type and days |
| CheckVencimientos.PendientesCorrectos | src/app/api/notificaciones/check-vencimientos/route.ts:85-115 | a notification is queued for a row iff its client exists with a user, it is within the notice (7 by default) and it was not notified in the last day; one per row |
| CheckVencimientos.ProcesarDocumentos | src/app/api/notificaciones/check-vencimientos/route.ts:84-115 | the loop builds exactly the reference queue, never for a recently notified document |
| CheckVencimientos.Post | src/app/api/notificaciones/check-vencimientos/route.ts:11-150 | 401 iff no user and 403 iff not a reviewer, before any work; 500 on an RPC error; `diasLimite` defaults to 30; otherwise 200, with the number of rows the RPC returned as found, the queue of `Pendientes` over them as processed and as the inserted batch (none when empty), and the created count equal to the queue's length when the insert succeeded and 0 when it failed |
| CheckVencimientos.SinDuplicados | src/app/api/notificaciones/check-vencimientos/route.ts:96-99 | a document notified in the last 24 hours is not notified again |
| CheckVencimientos.DiasLimiteGet | src/app/api/notificaciones/check-vencimientos/route.ts:182 | absent or empty gives 30; digits give their value |
| EdgeVencimientos.SecretoAusenteAceptado | supabase/functions/check-vencimientos/index.ts:38-49 | with no secret configured, the header `Bearer undefined` passes the check as written |
| EdgeVencimientos.AutorizadoCorrige | supabase/functions/check-vencimientos/index.ts:38-49 | the intended check agrees with the written one whenever a secret is configured, and admits nothing otherwise |
| EdgeVencimientos.ProcesarUno | supabase/functions/check-vencimientos/index.ts:91-174 | nothing for an unknown client or one beyond its notice (7 by default); otherwise a notification when the client has a user and a WhatsApp message when it opted in, has a number and Twilio is configured, always to a `whatsapp:` address |
| EdgeVencimientos.Procesar | supabase/functions/check-vencimientos/index.ts:87-175 | counters never exceed the number of documents |
| EdgeVencimientos.ProcesarConcatena | supabase/functions/check-vencimientos/index.ts:91-175 | the loop over two batches is the sum of the loops over each, so a failed send does not affect later documents |
| EdgeVencimientos.SoloDentroDelAviso | supabase/functions/check-vencimientos/index.ts:92-100 | every attempted action is for a document within its client's notice |
| EdgeVencimientos.Atender | supabase/functions/check-vencimientos/index.ts:30-202 | OPTIONS answers the preflight; an unauthorised POST gets 401; an RPC error gets 500; an authorised POST with rows reports how many were found and the summary of processing them in order (an empty or absent answer gives zero counts); counters are bounded by the documents found |
| EdgeVencimientos.AtenderTalCual | supabase/functions/check-vencimientos/index.ts:38-49 | the handler as written rejects whatever fails the written check, lets `Bearer undefined` through without a secret, and is the intended handler when a secret is set |
| WhatsApp.ToWhatsApp | src/app/api/notificaciones/whatsapp/route.ts:30 | the result has the `whatsapp:` prefix, added only when it is missing |
| WhatsApp.ToWhatsAppIdempotente | supabase/functions/check-vencimientos/index.ts:141-143 | normalising twice is normalising once |
| WhatsApp.PeticionTwilio | src/app/api/notificaciones/whatsapp/route.ts:20-58 | a request is built iff all credentials are set; it goes to the normalised number with the message |
| WhatsApp.Post | src/app/api/notificaciones/whatsapp/route.ts:60-158 | 401 iff no user; 403 iff not a reviewer; 500 when the body is not valid JSON; 400 iff `to` or `message` is missing or the client check fails; after those checks, 500 iff Twilio is not configured or rejects the message; a message is sent iff the checks pass (client opted in, registered number equal to `to` when present) and Twilio is configured; 200 and an audit row iff Twilio accepted it |
| WhatsApp.ClienteRechazado | src/app/api/notificaciones/whatsapp/route.ts:100-121 | a named client that did not opt in, or whose registered number differs from `to`, gives 400 and sends nothing |
| WhatsApp.Get | src/app/api/notificaciones/whatsapp/route.ts:160-171 | `configured` iff all three Twilio settings are set |
| Middleware.Usuario | src/lib/supabase/middleware.ts:38-50 | a timeout or an error counts as no user |
| Middleware.Decidir | src/lib/supabase/middleware.ts:9-118 | a signed-in user with a profile is sent from the access pages to their area; no user on a protected path goes to sign-in with `redirect`; a non-reviewer (or no profile) on `/revisor` goes to `/cliente`; a non-client on `/cliente` goes to `/revisor`; everything else passes iff none of these applies |
| Middleware.RedirigeUnaVez | src/lib/supabase/middleware.ts:52-114 | following a redirect does not redirect again, for a visitor or a user with a profile |
| Middleware.SinPerfilRebota | src/lib/supabase/middleware.ts:88-114 | a signed-in user without a profile row bounces between `/revisor` and `/cliente` |
| Providers.Reintentar | src/contexts/Providers.tsx:23-36 | authentication errors (case-sensitive `JWT`, `expired`, `invalid`, or 401) are never retried; others iff fewer than 2 failures |
| Providers.ComoMaximoDosReintentos | src/contexts/Providers.tsx:23-36 | no retry once two failures have already happened (the third failure), so at most three attempts; every error the query option refuses to retry is also one `handleAuthError` acts on |
| Providers.RetryDelay | src/contexts/Providers.tsx:38-41 | `min(1000 * 2^i, 4000)`: between 1000 and 4000 |
| Providers.RetryDelayMonotone | src/contexts/Providers.tsx:38-41 | the delay never decreases |
| Providers.ReintentarMutacion | src/contexts/Providers.tsx:45-46 | mutations are never retried |
| AuthErrorHandler.HandleAuthError | src/hooks/useAuthErrorHandler.ts:14-46 | acts iff the case-sensitive session test holds, with an error toast, sign-out and a redirect to sign-in, in that order; otherwise does nothing |
| AuthErrorHandler.SesionImplicaAutenticacion | src/hooks/useAuthErrorHandler.ts:16-65 | every error `handleAuthError` acts on is an authentication error for `isAuthenticationError` |
| AuthErrorHandler.SinDistincionDeMayusculas | src/hooks/useAuthErrorHandler.ts:52 | `isAuthenticationError` ignores the case of the message |
| AuthErrorHandler.SoloSesion | src/hooks/useAuthErrorHandler.ts:16-65 | a message that only says `session` is an authentication error, yet `handleAuthError` does nothing with it |
| ToastStore.AddToast | src/store/toastStore.ts:18-29 | one toast with the drawn id appended at the end; earlier toasts unchanged |
| ToastStore.RemoveToast | src/store/toastStore.ts:32-36 | no toast with that id remains and every other toast stays; an absent id changes nothing; a one-toast list keeps its toast iff the id differs |
| ToastStore.RemoveToastConcat | src/store/toastStore.ts:32-36 | removing from two lists joined is joining what is left of each; with the one-toast case this fixes the result, order included |
| ToastStore.RemoveAfterAdd | src/store/toastStore.ts:18-36 | removing a toast just added under a fresh id gives the list back |
| ToastStore.ClearAll | src/store/toastStore.ts:38-40 | the list is empty |
| ToastStore.Notificar | src/store/toastStore.ts:44-57 | each helper appends one toast of its own type with the message and duration |
| Inactividad.Reiniciar | src/hooks/useInactivityDetector.ts:49-76 | both flags cleared and the logout timer off; the warning timer is armed with its delay iff the hook is enabled |
| Inactividad.Paso | src/hooks/useInactivityDetector.ts:49-125 | reset and cancel re-arm; activity re-arms only while no warning shows; the warning sets both flags and only then arms the logout; the logout fires `onLogout` |
| Inactividad.PasoCoherente | src/hooks/useInactivityDetector.ts:49-80 | every event keeps the flags and timers coherent |
| Inactividad.EjecutarCoherente | src/hooks/useInactivityDetector.ts:49-125 | over any run, each `onLogout` is preceded by its own warning |
| Inactividad.DeshabilitadoNoAvisa | src/hooks/useInactivityDetector.ts:62 | a disabled hook never calls back |
| Inactividad.ActividadDuranteAviso | src/hooks/useInactivityDetector.ts:98-102 | activity during the warning changes nothing; only cancel ends it |
| Inactividad.AvisoRetiradoTalCual | src/hooks/useInactivityDetector.ts:82-125 | as written, the warning's flag change re-runs the effect, which resets the timers and withdraws the warning |
| Inactividad.NuncaCierraTalCual | src/hooks/useInactivityDetector.ts:65-125 | as written, no run from a state without a pending logout ever logs out |
| Inactividad.AvisoLuegoCierre | src/hooks/useInactivityDetector.ts:65-73 | the intended hook shows the warning and logs out when the logout delay expires |
| CuentaRegresiva.Tick | src/components/auth/InactivityWarningModal.tsx:36-45 | from at most 1 the tick logs out and yields 0; otherwise it yields one less; never negative |
| CuentaRegresiva.JsRem | src/components/auth/InactivityWarningModal.tsx:50-54 | JavaScript's `%`: the Euclidean remainder for a non-negative dividend, minus the remainder of the magnitude for a negative one, strictly between `-b` and `b` |
| CuentaRegresiva.FormatTime | src/components/auth/InactivityWarningModal.tsx:50-54 | for a non-negative time, the text before the last three characters reads as the minutes, then a colon, then two characters that read as the seconds below 60 |
| CuentaRegresiva.AlCambiarApertura | src/components/auth/InactivityWarningModal.tsx:30-33 | closing resets the remaining time to `countdown` |
| CuentaRegresiva.CierreEnElTickV | src/components/auth/InactivityWarningModal.tsx:36-45 | from `v` seconds the logout fires on tick `v` exactly once |
| CuentaRegresiva.FormatTimeRoundTrip | src/components/auth/InactivityWarningModal.tsx:50-54 | `m:ss` with two-digit seconds below 60, and `m * 60 + ss` is the time |
| RevisorCertificados.CerrarModalGenerar | src/app/revisor/certificados/page.tsx:133-140 | the issue modal closes and every form field is empty; the rest of the page is kept |
| RevisorCertificados.CerrarModalRevocar | src/app/revisor/certificados/page.tsx:142-146 | the revoke modal closes with no selection and no reason |
| RevisorCertificados.Generar | src/app/revisor/certificados/page.tsx:57-100 | no user or a non-compliant client fails before the service is called; otherwise the state is the service's; an issued certificate closes the modal and reports success, then the PDF outcome; a failure keeps the modal with an error |
| RevisorCertificados.PdfNoRevierte | src/app/revisor/certificados/page.tsx:84-95 | a PDF failure changes only the last notice; the issued certificate stands |
| RevisorCertificados.Revocar | src/app/revisor/certificados/page.tsx:102-131 | no selection, a blank reason or no user changes nothing and shows an error; otherwise the table is the service's result; when the service answers the revoked certificate the modal closes and success is shown, and when the update fails or `.single()` finds no single row the modal stays open with an error |
| RevisorCertificados.OfrecidoNoRevocado | src/app/revisor/certificados/page.tsx:277-288 | the revoke action is offered only for `activo` certificates, which the public verification never reports revoked, with any reason |
| RevisorCertificados.EstadoBadge | src/app/revisor/certificados/page.tsx:148-159 | success iff `activo`, danger iff `revocado`, never warning, and an unknown state is neutral with its own text |
| RevisorCertificados.BadgePorEstado | src/app/revisor/certificados/page.tsx:148-159 | the stored states map to success, danger and neutral |
| RevisorRevision.CerrarModal | src/app/revisor/revision/page.tsx:85-90 | all four fields are reset |
| RevisorRevision.HandleAprobar | src/app/revisor/revision/page.tsx:36-72 | no selection does nothing; no user fails; otherwise approval with the date only when the field is non-empty; the modal closes with a success notice iff the service answered a row, and an update error or a `.single()` mismatch keeps the page with an error notice |
| RevisorRevision.FechaVaciaConserva | src/app/revisor/revision/page.tsx:66-72 | an empty date field keeps every row's expiry |
| RevisorRevision.HandleRechazar | src/app/revisor/revision/page.tsx:51-83 | no selection or a blank reason fails without a call; otherwise rejection with the reason as typed; the modal closes with a success notice iff the service answered a row, otherwise the page stays with an error notice |
| RevisorRevision.MotivoEnBlancoNoRechaza | src/app/revisor/revision/page.tsx:74-83 | a whitespace-only reason changes no row |
| Notificaciones.ObtenerNotificaciones | src/services/notificaciones.service.ts:11-34 | exactly the user's rows, only unread ones when asked, newest first |
| Notificaciones.ObtenerCantidadNoLeidas | src/services/notificaciones.service.ts:39-53 | the number of the user's unread rows, 0 iff there are none |
| Notificaciones.MarcarComoLeida | src/services/notificaciones.service.ts:58-76 | on a successful update, the row with the id becomes read at that time with nothing else changed; other rows unchanged; a failed update changes nothing; the answer exists iff the update succeeded and exactly one row matched, and is then that row, read |
| Notificaciones.MarcarTodasComoLeidas | src/services/notificaciones.service.ts:81-96 | only the user's unread rows change, to read at that time |
| Notificaciones.MarcarTodasEsIdempotente | src/services/notificaciones.service.ts:81-96 | afterwards the unread count is 0, and repeating it at any later time changes nothing |
| Notificaciones.EliminarNotificacion | src/services/notificaciones.service.ts:101-109 | exactly the rows with that id go; an absent id changes nothing; a single row stays iff its id differs |
| Notificaciones.EliminarConcatena | src/services/notificaciones.service.ts:101-109 | deleting from two tables joined is joining what is left of each, so the remaining rows keep their order |
| Notificaciones.CrearNotificacion | src/services/notificaciones.service.ts:144-174 | one unread row appended with the given fields, `datos` defaulting to `{}` and empty links to null |
| Notificaciones.CrearSumaUnaNoLeida | src/services/notificaciones.service.ts:144-174 | creating raises the recipient's unread count by one and leaves everyone else's unchanged |
| Auditoria.ObtenerLogsAuditoria | src/services/auditoria.service.ts:11-28 | rows `offset .. offset + limite - 1` (100 and 0 by default) of the newest-first table, at most `limite` of them |
| Auditoria.FiltrarLogs | src/services/auditoria.service.ts:94-142 | each filter applies only when given; without a non-zero limit the result is the full listing of matching rows newest first; with one it is the page `offset .. offset + limite - 1` of that listing (offset 0 by default), empty past its end |
| Auditoria.Coincidentes | src/services/auditoria.service.ts:94-127 | the listing holds each matching row with its multiplicity in the table and no other row, newest first |
| Auditoria.ObtenerLogsPorActor | src/services/auditoria.service.ts:56-70 | exactly the actor's rows, each as often as in the table, newest first |
| Auditoria.ObtenerLogsPorAccion | src/services/auditoria.service.ts:75-89 | exactly the rows of the action, each as often as in the table, newest first |
| Auditoria.ObtenerLogsEntidad | src/services/auditoria.service.ts:33-51 | exactly the rows of the entity, each as often as in the table, newest first |
| Auditoria.PorActorEsFiltro | src/services/auditoria.service.ts:56-70 | listing by actor is the general filter with only the actor set |
| Auditoria.PorAccionEsFiltro | src/services/auditoria.service.ts:75-89 | listing by action is the general filter with only the action set |
| Auditoria.ObtenerActividadReciente | src/services/auditoria.service.ts:205-219 | the `limite` newest rows (20 by default): none left out is newer than one kept |
| Auditoria.RegistrarAuditoria | src/services/auditoria.service.ts:147-173 | one row appended with `datos` defaulting to `{}`; existing rows untouched |
| Auditoria.ContarCorrecto | src/services/auditoria.service.ts:191-197 | the summary has exactly the actions that occur, each with its number of occurrences |
| Auditoria.ContarSuma | src/services/auditoria.service.ts:191-197 | the counts add up to the number of rows |
| Auditoria.ObtenerResumenActividad | src/services/auditoria.service.ts:178-200 | the keys are the actions of the actor's rows; each count is the number of the actor's rows with that action (so at least 1); the counts add up to the actor's number of rows |
| Auditoria.OcurrenciasEnFilas | src/services/auditoria.service.ts:178-200 | an action occurs in the summary's input iff some row of the actor has it |
| Auditoria.OcurrenciasCuentan | src/services/auditoria.service.ts:178-200 | an action occurs among the actor's actions as often as the actor has rows with it |

## Left out

- Backend access is not modelled: the Supabase client, storage and auth SDK calls, and the realtime subscription (`suscribirseNotificaciones`). Tables are immutable sequences and a query is a filter and a sort. Reads always succeed. The outcomes of these steps are inputs: uploads, the document and certificate inserts, the approval, rejection, mark-read and revocation updates, the compensating delete and file removal, `.single()` matches, the expiry-notification batch insert, RPC errors, the WhatsApp request body's JSON parse and Twilio replies. The other writes are modelled as always succeeding; each is listed below.
- The stored procedures are not modelled (compliance, certificate code, next version, documents about to expire, expired-certificate update). Their answers are parameters because their bodies are not part of the source.
- SHA-256 is not modelled; the digest is a 32-byte parameter. Only its hex encoding is modelled.
- Floating point is not modelled. Percentages and averages are exact integers in tenths, rounded as `Math.round` rounds the exact quotient. `formatearBytes` and the progress-bar width are left out.
- Time zones are not modelled. Days are UTC day numbers, and a date column is read at its midnight.
- Date rendering (date-fns, `toLocaleDateString`) and the texts of messages and toasts are not modelled. Toasts are reduced to their type.
- `Date.now()`, timers and `Math.random` ids are not modelled. They are parameters or discrete events (the inactivity detector and the countdown).
- React rendering, the query cache and PDF layout and QR drawing are not modelled. Only the string work of the PDF and the QR outcome are.
- Unicode case mapping is not modelled. Case conversion covers ASCII letters only; JavaScript also maps a few non-ASCII letters onto ASCII ones.
- `Notificaciones.CrearNotificacion`: the insert is modelled as always succeeding. In the source an insert error throws and no row is added.
- `Notificaciones.MarcarTodasComoLeidas`: the update is modelled as always succeeding. In the source an error throws and changes nothing.
- `Notificaciones.EliminarNotificacion`: the delete is modelled as always succeeding. In the source an error throws and deletes nothing.
- `Auditoria.RegistrarAuditoria`: the insert is modelled as always succeeding. In the source an insert error throws and no row is added. (The WhatsApp endpoint's own audit insert ignores its error, as modelled.)
- `Auditoria.ObtenerLogsAuditoria`: `limite` and `offset` are natural numbers, so negative arguments are not modelled.
- `Auditoria.ObtenerActividadReciente`: `limite` is a natural number, so a negative limit is not modelled.
- `Auditoria.ObtenerResumenActividad`: the summary is a Dafny `map`, so every action string counts alike. The source folds into a plain JavaScript object, where an action named like an `Object.prototype` member (`constructor`, `toString`, `valueOf`, ...) starts from the inherited function and yields a string, not a count, and `__proto__` never becomes a key. Those action names are not modelled.
- `Certificados.GenerarCertificado`: the requirement and document reads before the certificate insert are infallible, so their thrown errors are not modelled. The compliance answer of the page and that of the service are separate inputs, because each calls the RPC.
- `Estadisticas.TotalAcotado`: fulfilled ≤ total is proved only when every document belongs to a listed requirement. The code counts every requirement row but every approved document's requirement, so an orphaned document could push the ratio above 100%.
- `RevisorCertificados.Generar`: the success notices imply one appended certificate, but not the reverse. A failed issuance reports a single error.
- `EdgeVencimientos.Procesar`: the counters are bounded by the number of documents. Their exact values depend on the insert and send outcomes, which are parameters.
- `Inactividad.Paso`: the event listeners, `useEffect` cleanup and timer cancellation are condensed into discrete events. The effect re-run that the hook as written performs is modelled separately (see Findings).
- `Utils.TruncarTexto`: lengths and cut points count characters (Unicode code points, Dafny's `char`). JavaScript's `length` and `substring` count UTF-16 code units, so on text with characters outside the Basic Multilingual Plane the cut falls elsewhere and may split a surrogate pair.
- `Utils.ObtenerIniciales`: the first one or two characters are code points. JavaScript's `[0]` and `substring(0, 2)` take UTF-16 code units, so a word starting with a character outside the Basic Multilingual Plane yields half of its surrogate pair.
- `Pdf.LimpiarNombreEmpresa`: `Pdf.Subrayar` replaces each non-alphanumeric code point by one `_`. The regex has no `u` flag and so works on UTF-16 code units: a character outside the Basic Multilingual Plane becomes `__` in JavaScript, and the 30-character cut counts code units.
- The `utils.ts` helpers `cn`, `validarCorreo`, `esperar`, `debounce` and `parsearParametrosBusqueda` are not modelled. They are styling, timing or URL plumbing, outside the compliance core.

## Findings

| source | as written | input that shows it | evidently intended | confidence | as-written member | corrected member |
|---|---|---|---|---|---|---|
| supabase/functions/check-vencimientos/index.ts:38-49 | the request is authorised when the header equals `Bearer ${cronSecret}`, and an unset secret renders as `undefined` | `CRON_SECRET` unset and header `Authorization: Bearer undefined` is accepted | reject every request while no secret is configured | high (not executed) | EdgeVencimientos.AtenderTalCual | EdgeVencimientos.Atender |
| src/hooks/useInactivityDetector.ts:65-125 | the effect that installs the listeners depends on `showWarning` and calls `resetTimers()` on every run, so when the warning sets `showWarning` the effect re-runs, clears the logout timer and hides the warning | enabled hook, no activity: the warning fires, then the logout timeout never fires and the warning disappears | the warning stays up and the logout fires after `logoutTimeout` unless the user cancels | medium (not executed) | Inactividad.NuncaCierraTalCual | Inactividad.AvisoLuegoCierre |

=== FILE: auditoria.dfy ===
/** The audit service (src/services/auditoria.service.ts) over an immutable,
    append-only `auditoria` table: paged and filtered listings, the
    per-action activity summary, and recording. */
module Auditoria {
  import opened Base
  import opened Tablas
  import Sorting

  function CreadoEn(a: Auditoria): int { a.creadoEn }

  /** The table newest first (`order('creado_en', { ascending: false })`). */
  function Ordenados(tabla: seq<Auditoria>): (r: seq<Auditoria>)
    ensures Sorting.SortedDescBy(r, CreadoEn)
    ensures multiset(r) == multiset(tabla)
  {
    Sorting.SortDescBy(tabla, CreadoEn)
  }

  /** `obtenerLogsAuditoria` (`limite` 100 and `offset` 0 by default): rows
      `offset .. offset + limite - 1` of the newest-first table. */
  function ObtenerLogsAuditoria(tabla: seq<Auditoria>, limite: Option<nat>, offset: Option<nat>): (r: seq<Auditoria>)
    ensures var l := limite.GetOr(100);
      var o := offset.GetOr(0);
      |r| <= l
      && (o <= |tabla| ==> r == Ordenados(tabla)[o..if o + l <= |tabla| then o + l else |tabla|])
      && (o > |tabla| ==> r == [])
    ensures Sorting.SortedDescBy(r, CreadoEn)
  {
    var o := Ordenados(tabla);
    var r := Sorting.Range(o, offset.GetOr(0), limite.GetOr(100));
    assert forall i :: 0 <= i < |r| ==> r[i] == o[offset.GetOr(0) + i];
    r
  }

  /** The optional criteria of `filtrarLogs`; an empty string is no criterion. */
  datatype Filtros = Filtros(
    entidad: Option<string>,
    accion: Option<string>,
    actorId: Option<string>,
    fechaDesde: Option<Instant>,
    fechaHasta: Option<Instant>,
    limite: Option<nat>,
    offset: Option<nat>)

  const SinFiltros: Filtros := Filtros(None, None, None, None, None, None, None)

  /** Each criterion, applied only when given (inclusive date bounds). */
  predicate PasaFiltros(f: Filtros, a: Auditoria) {
    (NonEmpty(f.entidad).Some? ==> a.entidad == f.entidad.value)
    && (NonEmpty(f.accion).Some? ==> a.accion == f.accion.value)
    && (NonEmpty(f.actorId).Some? ==> a.actorId == f.actorId)
    && (f.fechaDesde.Some? ==> a.creadoEn >= f.fechaDesde.value)
    && (f.fechaHasta.Some? ==> a.creadoEn <= f.fechaHasta.value)
  }

  /** Every matching row, with its multiplicity, newest first: the listing
      `filtrarLogs` pages through. */
  function Coincidentes(tabla: seq<Auditoria>, f: Filtros): (r: seq<Auditoria>)
    ensures forall a :: multiset(r)[a] == if PasaFiltros(f, a) then multiset(tabla)[a] else 0
    ensures forall a :: a in r <==> a in tabla && PasaFiltros(f, a)
    ensures Sorting.SortedDescBy(r, CreadoEn)
  {
    var p := (a: Auditoria) => PasaFiltros(f, a);
    var filtrados := Sorting.Filter(tabla, p);
    var r := Sorting.SortDescBy(filtrados, CreadoEn);
    Sorting.FilterMultiset(tabla, p);
    Sorting.FilterMembers(tabla, p);
    Sorting.SortMembers(filtrados, r);
    r
  }

  /** `filtrarLogs`: the matching rows newest first, paged only when a
      non-zero `limite` is given (the offset then defaults to 0). */
  function FiltrarLogs(tabla: seq<Auditoria>, f: Filtros): (r: seq<Auditoria>)
    ensures forall a :: a in r ==> a in tabla && PasaFiltros(f, a)
    ensures f.limite.None? || f.limite.value == 0 ==> r == Coincidentes(tabla, f)
    ensures f.limite.Some? && f.limite.value != 0 ==>
      var c := Coincidentes(tabla, f);
      var o := f.offset.GetOr(0);
      var l := f.limite.value;
      |r| <= l
      && (o <= |c| ==> r == c[o..if o + l <= |c| then o + l else |c|])
      && (o > |c| ==> r == [])
    ensures Sorting.SortedDescBy(r, CreadoEn)
  {
    var o := Coincidentes(tabla, f);
    if f.limite.Some? && f.limite.value != 0 then
      Sorting.RangeOfSortedDesc(o, CreadoEn, f.offset.GetOr(0), f.limite.value);
      var r := Sorting.Range(o, f.offset.GetOr(0), f.limite.value);
      assert forall a :: a in r ==> a in o;
      r
    else o
  }

  /** `obtenerLogsPorActor`: the actor's rows newest first. */
  function ObtenerLogsPorActor(tabla: seq<Auditoria>, actorId: string): (r: seq<Auditoria>)
    ensures forall a :: a in r <==> a in tabla && a.actorId == Some(actorId)
    ensures forall a :: multiset(r)[a] == if a.actorId == Some(actorId) then multiset(tabla)[a] else 0
    ensures Sorting.SortedDescBy(r, CreadoEn)
  {
    var p := (a: Auditoria) => a.actorId == Some(actorId);
    var f := Sorting.Filter(tabla, p);
    Sorting.FilterMultiset(tabla, p);
    var r := Sorting.SortDescBy(f, CreadoEn);
    Sorting.FilterMembers(tabla, p);
    Sorting.SortMembers(f, r);
    r
  }

  /** `obtenerLogsPorAccion`: the rows of one action newest first. */
  function ObtenerLogsPorAccion(tabla: seq<Auditoria>, accion: string): (r: seq<Auditoria>)
    ensures forall a :: a in r <==> a in tabla && a.accion == accion
    ensures forall a :: multiset(r)[a] == if a.accion == accion then multiset(tabla)[a] else 0
    ensures Sorting.SortedDescBy(r, CreadoEn)
  {
    var p := (a: Auditoria) => a.accion == accion;
    var f := Sorting.Filter(tabla, p);
    Sorting.FilterMultiset(tabla, p);
    var r := Sorting.SortDescBy(f, CreadoEn);
    Sorting.FilterMembers(tabla, p);
    Sorting.SortMembers(f, r);
    r
  }

  /** `obtenerLogsEntidad`: the rows of one entity newest first. */
  function ObtenerLogsEntidad(tabla: seq<Auditoria>, entidad: string, entidadId: string): (r: seq<Auditoria>)
    ensures forall a :: a in r <==> a in tabla && a.entidad == entidad && a.entidadId == Some(entidadId)
    ensures forall a :: multiset(r)[a] == if a.entidad == entidad && a.entidadId == Some(entidadId) then multiset(tabla)[a] else 0
    ensures Sorting.SortedDescBy(r, CreadoEn)
  {
    var p := (a: Auditoria) => a.entidad == entidad && a.entidadId == Some(entidadId);
    var f := Sorting.Filter(tabla, p);
    Sorting.FilterMultiset(tabla, p);
    var r := Sorting.SortDescBy(f, CreadoEn);
    Sorting.FilterMembers(tabla, p);
    Sorting.SortMembers(f, r);
    r
  }

  /** `obtenerLogsPorActor` is `filtrarLogs` with only the actor set. */
  lemma PorActorEsFiltro(tabla: seq<Auditoria>, actorId: string)
    requires actorId != ""
    ensures ObtenerLogsPorActor(tabla, actorId) == FiltrarLogs(tabla, SinFiltros.(actorId := Some(actorId)))
  {
    var f := SinFiltros.(actorId := Some(actorId));
    var p := (a: Auditoria) => a.actorId == Some(actorId);
    var q := (a: Auditoria) => PasaFiltros(f, a);
    assert forall a :: p(a) == q(a);
    Sorting.FilterCongruent(tabla, p, q);
  }

  /** `obtenerLogsPorAccion` is `filtrarLogs` with only the action set. */
  lemma PorAccionEsFiltro(tabla: seq<Auditoria>, accion: string)
    requires accion != ""
    ensures ObtenerLogsPorAccion(tabla, accion) == FiltrarLogs(tabla, SinFiltros.(accion := Some(accion)))
  {
    var f := SinFiltros.(accion := Some(accion));
    var p := (a: Auditoria) => a.accion == accion;
    var q := (a: Auditoria) => PasaFiltros(f, a);
    assert forall a :: p(a) == q(a);
    Sorting.FilterCongruent(tabla, p, q);
  }

  /** `obtenerActividadReciente` (`limite` 20 by default): the newest rows. */
  function ObtenerActividadReciente(tabla: seq<Auditoria>, limite: Option<nat>): (r: seq<Auditoria>)
    ensures |r| == if limite.GetOr(20) < |tabla| then limite.GetOr(20) else |tabla|
    ensures r == Ordenados(tabla)[..|r|]
    ensures forall a, b :: a in r && b in tabla && b !in r ==> a.creadoEn >= b.creadoEn
  {
    var o := Ordenados(tabla);
    var r := Sorting.Take(o, limite.GetOr(20));
    forall a, b | a in r && b in tabla && b !in r ensures a.creadoEn >= b.creadoEn {
      var i :| 0 <= i < |r| && r[i] == a;
      assert b in multiset(o);
      var j :| 0 <= j < |o| && o[j] == b;
      assert forall k :: 0 <= k < |r| ==> o[k] in r;
    }
    r
  }

  /** `registrarAuditoria`: one row appended with `datos` defaulting to `{}`;
      the rows already recorded are never changed (the service offers no
      update or delete). */
  function RegistrarAuditoria(tabla: seq<Auditoria>, actorId: string, accion: string, entidad: string, entidadId: string,
                              datos: Option<Datos>, nuevoId: string, ahora: Instant): (r: seq<Auditoria>)
    ensures |r| == |tabla| + 1 && r[..|tabla|] == tabla
    ensures r[|tabla|] == Auditoria(nuevoId, Some(actorId), accion, entidad, Some(entidadId),
                                    if datos.Some? then datos.value else map[], ahora)
  {
    tabla + [Auditoria(nuevoId, Some(actorId), accion, entidad, Some(entidadId), datos.GetOr(map[]), ahora)]
  }

  // ---------------------------------------------------------------------
  // Activity summary
  // ---------------------------------------------------------------------

  /** The `reduce` of `obtenerResumenActividad` over the actions of some rows. */
  function Contar(acciones: seq<string>): map<string, nat>
  {
    if |acciones| == 0 then map[]
    else
      var m := Contar(acciones[..|acciones| - 1]);
      var a := acciones[|acciones| - 1];
      m[a := (if a in m then m[a] else 0) + 1]
  }

  /** How many times an action occurs. */
  function Ocurrencias(acciones: seq<string>, a: string): nat
  {
    if |acciones| == 0 then 0
    else Ocurrencias(acciones[..|acciones| - 1], a) + (if acciones[|acciones| - 1] == a then 1 else 0)
  }

  /** The actions in order of first appearance, each once. */
  function Claves(acciones: seq<string>): (ks: seq<string>)
    ensures forall i, j :: 0 <= i < j < |ks| ==> ks[i] != ks[j]
    ensures forall a :: a in ks <==> a in acciones
  {
    if |acciones| == 0 then []
    else
      var previo := acciones[..|acciones| - 1];
      var a := acciones[|acciones| - 1];
      var c := Claves(previo);
      assert acciones == previo + [a];
      if a in c then c else c + [a]
  }

  /** The sum of the values of `m` at the keys `ks` (0 for a missing key). */
  function SumaSobre(m: map<string, nat>, ks: seq<string>): int
  {
    if |ks| == 0 then 0
    else SumaSobre(m, ks[..|ks| - 1]) + (if ks[|ks| - 1] in m then m[ks[|ks| - 1]] else 0)
  }

  /** Changing the value of a key listed once changes the sum by the difference. */
  lemma {:induction false} SumaSobreAsignar(m: map<string, nat>, ks: seq<string>, a: string, v: nat)
    requires forall i, j :: 0 <= i < j < |ks| ==> ks[i] != ks[j]
    ensures SumaSobre(m[a := v], ks) == SumaSobre(m, ks) + (if a in ks then v - (if a in m then m[a] else 0) else 0)
  {
    if |ks| > 0 {
      var previo := ks[..|ks| - 1];
      SumaSobreAsignar(m, previo, a, v);
      assert ks == previo + [ks[|ks| - 1]];
      assert ks[|ks| - 1] == a ==> a !in previo;
    }
  }

  /** The summary has exactly the actions that occur, each with its number
      of occurrences (so at least 1). */
  lemma {:induction false} ContarCorrecto(acciones: seq<string>)
    ensures forall a :: a in Contar(acciones) <==> Ocurrencias(acciones, a) > 0
    ensures forall a :: a in Contar(acciones) ==> Contar(acciones)[a] == Ocurrencias(acciones, a) >= 1
  {
    if |acciones| > 0 {
      ContarCorrecto(acciones[..|acciones| - 1]);
    }
  }

  /** The counts, taken once per action, add up to the number of rows. */
  lemma {:induction false} ContarSuma(acciones: seq<string>)
    ensures forall a :: a in Contar(acciones) <==> a in Claves(acciones)
    ensures SumaSobre(Contar(acciones), Claves(acciones)) == |acciones|
    decreases |acciones|, 1
  {
    if |acciones| > 0 {
      ContarSumaPaso(acciones);
    }
  }

  lemma {:induction false} ContarSumaPaso(acciones: seq<string>)
    requires |acciones| > 0
    ensures forall a :: a in Contar(acciones) <==> a in Claves(acciones)
    ensures SumaSobre(Contar(acciones), Claves(acciones)) == |acciones|
    decreases |acciones|, 0
  {
    var previo := acciones[..|acciones| - 1];
    var a := acciones[|acciones| - 1];
    ContarSuma(previo);
    var m := Contar(previo);
    var ks := Claves(previo);
    var v := (if a in m then m[a] else 0) + 1;
    assert Contar(acciones) == m[a := v];
    if a in ks {
      assert Claves(acciones) == ks;
      SumaUnaMas(m, ks, a, v);
    } else {
      assert Claves(acciones) == ks + [a];
      SumaClaveNueva(m, ks, a, v);
    }
  }

  /** Adding one to the count of a listed action adds one to the sum. */
  lemma SumaUnaMas(m: map<string, nat>, ks: seq<string>, a: string, v: nat)
    requires forall i, j :: 0 <= i < j < |ks| ==> ks[i] != ks[j]
    requires a in ks && a in m && v == m[a] + 1
    ensures SumaSobre(m[a := v], ks) == SumaSobre(m, ks) + 1
  {
    SumaSobreAsignar(m, ks, a, v);
  }

  /** Listing a new action with its count adds that count to the sum. */
  lemma SumaClaveNueva(m: map<string, nat>, ks: seq<string>, a: string, v: nat)
    requires forall i, j :: 0 <= i < j < |ks| ==> ks[i] != ks[j]
    requires a !in ks
    ensures SumaSobre(m[a := v], ks + [a]) == SumaSobre(m, ks) + v
  {
    SumaSobreAsignar(m, ks, a, v);
    var ks2 := ks + [a];
    assert ks2[..|ks2| - 1] == ks;
  }

  /** The actions of some rows, in order. */
  function Acciones(filas: seq<Auditoria>): (acciones: seq<string>)
    ensures |acciones| == |filas|
    ensures forall i :: 0 <= i < |filas| ==> acciones[i] == filas[i].accion
  {
    seq(|filas|, i requires 0 <= i < |filas| => filas[i].accion)
  }

  lemma AccionesConcat(a: seq<Auditoria>, b: seq<Auditoria>)
    ensures Acciones(a + b) == Acciones(a) + Acciones(b)
  {
  }

  /** The actions of the actor's rows, in table order. */
  function AccionesDe(tabla: seq<Auditoria>, actorId: string): (acciones: seq<string>)
    ensures |acciones| == Sorting.Count(tabla, (x: Auditoria) => x.actorId == Some(actorId))
  {
    Acciones(Sorting.Filter(tabla, (x: Auditoria) => x.actorId == Some(actorId)))
  }

  /** `obtenerResumenActividad`: per action, the number of the actor's rows
      with it; summed once per action, the counts give the number of the
      actor's rows. */
  function ObtenerResumenActividad(tabla: seq<Auditoria>, actorId: string): (r: map<string, nat>)
    ensures forall a :: a in r ==> r[a] >= 1
    ensures forall a :: a in r <==> exists i :: 0 <= i < |tabla| && tabla[i].actorId == Some(actorId) && tabla[i].accion == a
    ensures forall a :: a in r <==> a in Claves(AccionesDe(tabla, actorId))
    ensures forall a :: a in r ==>
      r[a] == |set k: nat | k < |tabla| && tabla[k].actorId == Some(actorId) && tabla[k].accion == a|
    ensures SumaSobre(r, Claves(AccionesDe(tabla, actorId))) == Sorting.Count(tabla, (x: Auditoria) => x.actorId == Some(actorId))
  {
    var acciones := AccionesDe(tabla, actorId);
    ContarCorrecto(acciones);
    ContarSuma(acciones);
    OcurrenciasEnFilas(tabla, actorId, acciones);
    forall a | a in Contar(acciones)
      ensures Contar(acciones)[a] == |set k: nat | k < |tabla| && tabla[k].actorId == Some(actorId) && tabla[k].accion == a|
    {
      OcurrenciasSonFilas(tabla, actorId, a);
    }
    Contar(acciones)
  }

  /** The rows of the actor with action `a`. */
  predicate DeActorConAccion(actorId: string, a: string, x: Auditoria) {
    x.actorId == Some(actorId) && x.accion == a
  }

  /** Adding a row adds its action to the actor's actions when it is the actor's. */
  lemma AccionesDeSnoc(tabla: seq<Auditoria>, x: Auditoria, actorId: string)
    ensures AccionesDe(tabla + [x], actorId) == AccionesDe(tabla, actorId) + (if x.actorId == Some(actorId) then [x.accion] else [])
  {
    var q := (y: Auditoria) => y.actorId == Some(actorId);
    var f := Sorting.Filter(tabla, q);
    var g := Sorting.Filter([x], q);
    Sorting.FilterAppend(tabla, [x], q);
    assert [x][1..] == [];
    assert g == if q(x) then [x] else [];
    AccionesConcat(f, g);
  }

  lemma OcurrenciasSnoc(acciones: seq<string>, b: string, a: string)
    ensures Ocurrencias(acciones + [b], a) == Ocurrencias(acciones, a) + (if b == a then 1 else 0)
  {
    assert (acciones + [b])[..|acciones|] == acciones;
  }

  /** Adding a row adds one occurrence of `a` iff the row is the actor's with action `a`. */
  lemma OcurrenciasPaso(t: seq<Auditoria>, fila: Auditoria, actorId: string, a: string)
    ensures Ocurrencias(AccionesDe(t + [fila], actorId), a)
      == Ocurrencias(AccionesDe(t, actorId), a) + (if DeActorConAccion(actorId, a, fila) then 1 else 0)
  {
    var previas := AccionesDe(t, actorId);
    AccionesDeSnoc(t, fila, actorId);
    if fila.actorId == Some(actorId) {
      OcurrenciasSnoc(previas, fila.accion, a);
    } else {
      assert AccionesDe(t + [fila], actorId) == previas + [];
      assert previas + [] == previas;
    }
  }

  /** An action occurs among the actor's actions as often as the actor has
      rows with it. */
  lemma {:induction false} OcurrenciasCuentan(tabla: seq<Auditoria>, actorId: string, a: string)
    ensures Ocurrencias(AccionesDe(tabla, actorId), a) == Sorting.Count(tabla, (x: Auditoria) => DeActorConAccion(actorId, a, x))
  {
    if |tabla| > 0 {
      var t := tabla[..|tabla| - 1];
      var fila := tabla[|tabla| - 1];
      assert tabla == t + [fila];
      OcurrenciasCuentan(t, actorId, a);
      Sorting.CountSnoc(t, fila, (x: Auditoria) => DeActorConAccion(actorId, a, x));
      OcurrenciasPaso(t, fila, actorId, a);
    }
  }

  /** The same count, as the number of table positions. */
  lemma OcurrenciasSonFilas(tabla: seq<Auditoria>, actorId: string, a: string)
    ensures Ocurrencias(AccionesDe(tabla, actorId), a)
      == |set k: nat | k < |tabla| && tabla[k].actorId == Some(actorId) && tabla[k].accion == a|
  {
    var p := (x: Auditoria) => DeActorConAccion(actorId, a, x);
    OcurrenciasCuentan(tabla, actorId, a);
    Sorting.CountPositions(tabla, p);
    assert Sorting.Positions(tabla, p) == set k: nat | k < |tabla| && tabla[k].actorId == Some(actorId) && tabla[k].accion == a;
  }

  /** An action occurs among the actor's actions iff some row of the actor has it. */
  lemma OcurrenciasEnFilas(tabla: seq<Auditoria>, actorId: string, acciones: seq<string>)
    requires var filas := Sorting.Filter(tabla, (x: Auditoria) => x.actorId == Some(actorId));
      acciones == seq(|filas|, i requires 0 <= i < |filas| => filas[i].accion)
    ensures forall a :: Ocurrencias(acciones, a) > 0 <==>
      exists i :: 0 <= i < |tabla| && tabla[i].actorId == Some(actorId) && tabla[i].accion == a
  {
    forall a ensures Ocurrencias(acciones, a) > 0 <==>
      exists i :: 0 <= i < |tabla| && tabla[i].actorId == Some(actorId) && tabla[i].accion == a
    {
      OcurreSiPertenece(acciones, a);
      AccionEnFilas(tabla, actorId, acciones, a);
    }
  }

  /** An action is among the actor's actions iff some row of the actor has it. */
  lemma AccionEnFilas(tabla: seq<Auditoria>, actorId: string, acciones: seq<string>, a: string)
    requires var filas := Sorting.Filter(tabla, (x: Auditoria) => x.actorId == Some(actorId));
      acciones == seq(|filas|, i requires 0 <= i < |filas| => filas[i].accion)
    ensures a in acciones <==> exists i :: 0 <= i < |tabla| && tabla[i].actorId == Some(actorId) && tabla[i].accion == a
  {
    var p := (x: Auditoria) => x.actorId == Some(actorId);
    var filas := Sorting.Filter(tabla, p);
    Sorting.FilterMembers(tabla, p);
    if a in acciones {
      var k :| 0 <= k < |acciones| && acciones[k] == a;
      AccionDeFila(tabla, actorId, filas, k);
    }
    if exists i :: 0 <= i < |tabla| && tabla[i].actorId == Some(actorId) && tabla[i].accion == a {
      var i :| 0 <= i < |tabla| && tabla[i].actorId == Some(actorId) && tabla[i].accion == a;
      assert tabla[i] in filas;
      var k :| 0 <= k < |filas| && filas[k] == tabla[i];
      assert acciones[k] == a;
    }
  }

  /** Every filtered row is a row of the actor in the table. */
  lemma AccionDeFila(tabla: seq<Auditoria>, actorId: string, filas: seq<Auditoria>, k: nat)
    requires filas == Sorting.Filter(tabla, (x: Auditoria) => x.actorId == Some(actorId))
    requires k < |filas|
    ensures exists i :: 0 <= i < |tabla| && tabla[i].actorId == Some(actorId) && tabla[i].accion == filas[k].accion
  {
    assert filas[k] in tabla;
    var i :| 0 <= i < |tabla| && tabla[i] == filas[k];
  }

  lemma {:induction false} OcurreSiPertenece(acciones: seq<string>, a: string)
    ensures Ocurrencias(acciones, a) > 0 <==> a in acciones
  {
    if |acciones| > 0 {
      var previo := acciones[..|acciones| - 1];
      OcurreSiPertenece(previo, a);
      assert acciones == previo + [acciones[|acciones| - 1]];
    }
  }
}

=== FILE: autherrors.dfy ===
/** Recognising authentication failures (src/hooks/useAuthErrorHandler.ts):
    the case-insensitive `isAuthenticationError` and the narrower,
    case-sensitive check inside `handleAuthError` with what it then does. */
module AuthErrorHandler {
  import opened Base
  import opened Text

  /** The fields of a thrown error the checks read; each may be missing. */
  datatype ErrorApi = ErrorApi(message: Option<string>, code: Option<string>, status: Option<int>)

  /** `s?.includes(sub)` on an optional string: false when absent. */
  predicate Incluye(s: Option<string>, sub: string) {
    s.Some? && Contains(s.value, sub)
  }

  /** `isAuthenticationError`: a missing error is not one; otherwise the
      lower-cased message mentions jwt, token, expired, invalid, auth or
      session, or the lower-cased code is `pgrst301`, or the status is 401. */
  predicate IsAuthenticationError(error: Option<ErrorApi>) {
    error.Some? &&
    var m := Lower(error.value.message.GetOr(""));
    var c := Lower(error.value.code.GetOr(""));
    Contains(m, "jwt") || Contains(m, "token") || Contains(m, "expired")
    || Contains(m, "invalid") || Contains(m, "auth") || Contains(m, "session")
    || c == "pgrst301" || error.value.status == Some(401)
  }

  /** The test at the start of `handleAuthError`: case-sensitive substrings,
      no `session`, and the exact code `PGRST301`. */
  predicate EsErrorDeSesion(error: Option<ErrorApi>) {
    error.Some? &&
    var m := error.value.message;
    Incluye(m, "JWT") || Incluye(m, "token") || Incluye(m, "expired")
    || Incluye(m, "invalid") || Incluye(m, "auth")
    || error.value.code == Some("PGRST301") || error.value.status == Some(401)
  }

  /** The effects `handleAuthError` performs, in order. */
  datatype Accion = ToastError(mensaje: string) | CerrarSesion | Redirigir(ruta: string)

  const MensajeSesionExpirada: string := "Tu sesión ha expirado. Por favor, inicia sesión nuevamente."

  /** `handleAuthError`: for a recognised error, an error toast, sign-out and
      a redirect to the login page, answering true; otherwise nothing. */
  function HandleAuthError(error: Option<ErrorApi>): (r: (bool, seq<Accion>))
    ensures r.0 <==> EsErrorDeSesion(error)
    ensures r.0 ==> r.1 == [ToastError(MensajeSesionExpirada), CerrarSesion, Redirigir("/iniciar-sesion")]
    ensures !r.0 ==> r.1 == []
    ensures r.0 ==> IsAuthenticationError(error)
  {
    if EsErrorDeSesion(error) then
      SesionImplicaAutenticacion(error);
      (true, [ToastError(MensajeSesionExpirada), CerrarSesion, Redirigir("/iniciar-sesion")])
    else (false, [])
  }

  /** Every error `handleAuthError` acts on is also an authentication error
      for `isAuthenticationError`. */
  lemma SesionImplicaAutenticacion(error: Option<ErrorApi>)
    requires EsErrorDeSesion(error)
    ensures IsAuthenticationError(error)
  {
    var e := error.value;
    var m := e.message.GetOr("");
    if Incluye(e.message, "JWT") {
      MencionEnMinusculas(m, "JWT", "jwt");
    } else if Incluye(e.message, "token") {
      MencionEnMinusculas(m, "token", "token");
    } else if Incluye(e.message, "expired") {
      MencionEnMinusculas(m, "expired", "expired");
    } else if Incluye(e.message, "invalid") {
      MencionEnMinusculas(m, "invalid", "invalid");
    } else if Incluye(e.message, "auth") {
      MencionEnMinusculas(m, "auth", "auth");
    } else if e.code == Some("PGRST301") {
      assert Lower("PGRST301") == "pgrst301";
    }
  }

  /** A message mentioning `sub` mentions, once lower-cased, its lower-case form. */
  lemma MencionEnMinusculas(m: string, sub: string, low: string)
    requires Contains(m, sub) && Lower(sub) == low
    ensures Contains(Lower(m), low)
  {
    ContainsLower(m, sub);
  }

  /** The message is compared without regard to ASCII case. */
  lemma SinDistincionDeMayusculas(e: ErrorApi, m: string)
    ensures IsAuthenticationError(Some(e.(message := Some(Upper(m)))))
        == IsAuthenticationError(Some(e.(message := Some(m))))
  {
    LowerOfUpper(m);
  }

  /** A message that only says `session`: an authentication error for
      `isAuthenticationError`, but `handleAuthError` does not act on it. */
  lemma SoloSesion()
    ensures var e := Some(ErrorApi(Some("session"), None, None));
      IsAuthenticationError(e) && !EsErrorDeSesion(e) && HandleAuthError(e) == (false, [])
  {
    var s := "session";
    assert OccursAt(Lower(s), "session", 0);
    MissingCharNotContained(s, "JWT", 0);
    MissingCharNotContained(s, "token", 0);
    MissingCharNotContained(s, "expired", 1);
    MissingCharNotContained(s, "invalid", 2);
    MissingCharNotContained(s, "auth", 0);
  }
}

=== FILE: base.dfy ===
/** Shared value types: optional values and the time units every module uses. */
module Base {

  /** A value that may be absent: JavaScript's `null`/`undefined`. */
  datatype Option<+T> = None | Some(value: T) {

    /** Returns the value, or `default` when absent (the `??` operator). */
    function GetOr(default: T): (r: T)
      ensures Some? ==> r == value
      ensures None? ==> r == default
    {
      match this
      case Some(v) => v
      case None => default
    }
  }

  /** A calendar date `yyyy-mm-dd`, as a day number. ISO date strings compare
      lexicographically in the same order as these numbers. */
  type Day = int

  /** A timestamp, as milliseconds since the epoch (`Date.getTime()`). */
  type Instant = int

  /** Milliseconds in one day: `1000 * 60 * 60 * 24`. */
  const MsPerDay: int := 86_400_000

  /** The instant a date-only ISO string denotes when parsed (its midnight). */
  function StartOfDay(d: Day): Instant
  {
    d * MsPerDay
  }

  /** The date `toISOString().split('T')[0]` yields for an instant. */
  function DayOf(t: Instant): (d: Day)
    ensures d * MsPerDay <= t < (d + 1) * MsPerDay
  {
    t / MsPerDay
  }

  /** Multiplying by a positive number keeps the order. */
  lemma MulMonotona(b: int, x: int, y: int)
    requires b > 0
    ensures x <= y ==> b * x <= b * y
  {
    assert b * y - b * x == b * (y - x);
  }

  /** Floor division by a positive divisor, and the bounds it inherits: a
      dividend below `(m + 1)` divisors gives at most `m`, one of at least
      `m` divisors gives at least `m`. */
  lemma CocienteEntre(a: int, b: int, m: int)
    requires b > 0
    ensures b * (a / b) <= a < b * (a / b + 1)
    ensures 0 <= a ==> 0 <= a / b
    ensures a < (m + 1) * b ==> a / b <= m
    ensures m * b <= a ==> m <= a / b
  {
    var q := a / b;
    assert b * q + a % b == a;
    assert b * (q + 1) == b * q + b;
    MulMonotona(b, q, -1);
    MulMonotona(b, m + 1, q);
    MulMonotona(b, q + 1, m);
  }
}

=== FILE: certificados.dfy ===
/** The certificate service (src/services/certificados.service.ts) over
    immutable `certificados` and `certificados_detalle` tables: lookup by
    code, the public verification, issuance with its compliance gate and
    compensating delete, revocation, and the "expiring soon" query. */
module Certificados {
  import opened Base
  import opened Text
  import opened Tablas
  import Sorting

  datatype Estado = Estado(certificados: seq<Certificado>, detalles: seq<CertificadoDetalle>)

  // ---------------------------------------------------------------------
  // Lookup and verification
  // ---------------------------------------------------------------------

  /** `obtenerCertificadoPorCodigo`: the one certificate with that code;
      none when no row or several rows match (`PGRST116`). */
  function ObtenerPorCodigo(tabla: seq<Certificado>, codigo: string): (r: Option<Certificado>)
    ensures r.Some? ==> r.value in tabla && r.value.codigo == codigo
    ensures r.Some? <==> Sorting.Count(tabla, (c: Certificado) => c.codigo == codigo) == 1
    ensures (forall k :: 0 <= k < |tabla| ==> tabla[k].codigo != codigo) ==> r.None?
  {
    var p := (c: Certificado) => c.codigo == codigo;
    var m := Sorting.Filter(tabla, p);
    Sorting.FilterMembers(tabla, p);
    if |m| == 1 then
      assert m[0] in m;
      Some(m[0])
    else
      assert |m| > 0 ==> m[0] in tabla;
      None
  }

  /** The message of a verification. */
  datatype Veredicto = NoEncontrado | Revocado_(motivo: Option<string>) | Vencido_ | AunNoValido | Valido

  datatype Verificacion = Verificacion(valido: bool, veredicto: Veredicto, certificado: Option<Certificado>)

  /** The checks of `verificarCertificado` on a looked-up certificate: revoked
      first, whatever the dates; then expired; then not yet valid. */
  function Verificar(cert: Option<Certificado>, hoy: Day): (v: Verificacion)
    ensures cert.None? <==> v.veredicto == NoEncontrado
    ensures cert.None? ==> !v.valido && v.certificado.None?
    ensures cert.Some? ==> v.certificado == cert
    ensures cert.Some? && cert.value.estado == Revocado ==> v == Verificacion(false, Revocado_(cert.value.motivoRevocacion), cert)
    ensures v.veredicto == Vencido_ <==> cert.Some? && cert.value.estado != Revocado && cert.value.fechaValidezHasta < hoy
    ensures v.veredicto == AunNoValido <==>
      cert.Some? && cert.value.estado != Revocado && cert.value.fechaValidezHasta >= hoy && cert.value.fechaValidezDesde > hoy
    ensures v.valido <==> v.veredicto == Valido
    ensures v.valido <==>
      cert.Some? && cert.value.estado != Revocado && cert.value.fechaValidezDesde <= hoy <= cert.value.fechaValidezHasta
  {
    match cert
    case None => Verificacion(false, NoEncontrado, None)
    case Some(c) =>
      if c.estado == Revocado then Verificacion(false, Revocado_(c.motivoRevocacion), cert)
      else if c.fechaValidezHasta < hoy then Verificacion(false, Vencido_, cert)
      else if c.fechaValidezDesde > hoy then Verificacion(false, AunNoValido, cert)
      else Verificacion(true, Valido, cert)
  }

  /** `verificarCertificado`. */
  function VerificarCertificado(tabla: seq<Certificado>, codigo: string, hoy: Day): (v: Verificacion)
    ensures v.certificado.Some? ==> v.certificado.value in tabla && v.certificado.value.codigo == codigo
    ensures v.veredicto == NoEncontrado <==> Sorting.Count(tabla, (c: Certificado) => c.codigo == codigo) != 1
  {
    Verificar(ObtenerPorCodigo(tabla, codigo), hoy)
  }

  // ---------------------------------------------------------------------
  // Issuance
  // ---------------------------------------------------------------------

  /** A row of the compliance RPC's answer. */
  datatype Cumplimiento = Cumplimiento(cumple: bool, requerimientosCumplidos: int, totalRequerimientos: int)

  /** The compliance gate: a non-empty answer whose first row complies. */
  function Cumple(cumplimiento: Option<seq<Cumplimiento>>): (ok: bool)
    ensures cumplimiento.None? || cumplimiento.value == [] ==> !ok
    ensures cumplimiento.Some? && cumplimiento.value != [] ==> ok == cumplimiento.value[0].cumple
  {
    cumplimiento.Some? && |cumplimiento.value| > 0 && cumplimiento.value[0].cumple
  }

  function Version(d: Documento): int { d.version }

  /** The newest approved, non-deleted version for a requirement
      (`order(version desc).limit(1).single()`), or none. */
  function AprobadoMasReciente(documentos: seq<Documento>, requerimientoId: string): (r: Option<Documento>)
    ensures r.Some? ==> (r.value in documentos && r.value.requerimientoId == requerimientoId
      && r.value.estado == Aprobado && !r.value.eliminado)
    ensures r.None? ==> forall d :: d in documentos && d.requerimientoId == requerimientoId ==> d.estado != Aprobado || d.eliminado
    ensures r.Some? ==> forall d :: (d in documentos && d.requerimientoId == requerimientoId && d.estado == Aprobado && !d.eliminado)
                                     ==> d.version <= r.value.version
  {
    var p := (d: Documento) => d.requerimientoId == requerimientoId && d.estado == Aprobado && !d.eliminado;
    var f := Sorting.Filter(documentos, p);
    var o := Sorting.SortDescBy(f, Version);
    Sorting.FilterMembers(documentos, p);
    Sorting.SortMembers(f, o);
    if |o| == 0 then None
    else
      assert o[0] in o;
      assert forall d :: d in o ==> d.version <= o[0].version by {
        forall d | d in o ensures d.version <= o[0].version {
          var k :| 0 <= k < |o| && o[k] == d;
          assert k == 0 || Version(o[0]) >= Version(o[k]);
        }
      }
      Some(o[0])
  }

  /** The detail row recorded for one mandatory requirement, with the
      fallbacks `Desconocido`, the issuance time, no expiry and the issuer. */
  function Detalle(req: Requerimiento, doc: Option<Documento>, emisorId: string, ahora: Instant, certificadoId: string): (d: CertificadoDetalle)
    ensures d.requerimientoId == req.id && d.certificadoId == certificadoId
    ensures d.documentoId == (if doc.Some? then Some(doc.value.id) else None)
    ensures d.tipoDocumentoNombre == (if NonEmpty(req.tipoDocumentoNombre).Some? then req.tipoDocumentoNombre.value else "Desconocido")
    ensures doc.None? ==> d.fechaAprobacion == ahora && d.fechaVencimiento.None? && d.aprobadoPor == emisorId
    ensures doc.Some? && doc.value.fechaAprobacion.Some? ==> d.fechaAprobacion == doc.value.fechaAprobacion.value
    ensures doc.Some? && doc.value.fechaAprobacion.None? ==> d.fechaAprobacion == ahora
    ensures doc.Some? ==> d.fechaVencimiento == doc.value.fechaVencimiento
    ensures doc.Some? && NonEmpty(doc.value.aprobadoPor).Some? ==> d.aprobadoPor == doc.value.aprobadoPor.value
    ensures doc.Some? && NonEmpty(doc.value.aprobadoPor).None? ==> d.aprobadoPor == emisorId
  {
    CertificadoDetalle(
      certificadoId,
      req.id,
      if doc.Some? then Some(doc.value.id) else None,
      if NonEmpty(req.tipoDocumentoNombre).Some? then req.tipoDocumentoNombre.value else "Desconocido",
      if doc.Some? && doc.value.fechaAprobacion.Some? then doc.value.fechaAprobacion.value else ahora,
      if doc.Some? then doc.value.fechaVencimiento else None,
      if doc.Some? && NonEmpty(doc.value.aprobadoPor).Some? then doc.value.aprobadoPor.value else emisorId)
  }

  /** The client's mandatory requirements. */
  function Obligatorios(requerimientos: seq<Requerimiento>, clienteId: string): (r: seq<Requerimiento>)
    ensures forall q :: q in r <==> q in requerimientos && q.clienteId == clienteId && q.obligatorio
  {
    var p := (q: Requerimiento) => q.clienteId == clienteId && q.obligatorio;
    Sorting.FilterMembers(requerimientos, p);
    Sorting.Filter(requerimientos, p)
  }

  /** One detail per mandatory requirement, in order. */
  function Detalles(reqs: seq<Requerimiento>, documentos: seq<Documento>, emisorId: string, ahora: Instant, certificadoId: string): (ds: seq<CertificadoDetalle>)
    ensures |ds| == |reqs|
    ensures forall i :: 0 <= i < |reqs| ==>
      ds[i] == Detalle(reqs[i], AprobadoMasReciente(documentos, reqs[i].id), emisorId, ahora, certificadoId)
  {
    seq(|reqs|, i requires 0 <= i < |reqs| => Detalle(reqs[i], AprobadoMasReciente(documentos, reqs[i].id), emisorId, ahora, certificadoId))
  }

  datatype Fallo = NoCumple | ErrorCertificado | ErrorDetalles

  datatype Emision = Emitido(certificado: Certificado) | Fallido(fallo: Fallo)

  /** The code of a new certificate: the generator's, or `CERT-<ms>`. */
  function Codigo(codigoRpc: Option<string>, ahora: Instant): (c: string)
    ensures NonEmpty(codigoRpc).Some? ==> c == codigoRpc.value
    ensures NonEmpty(codigoRpc).None? ==> StartsWith(c, "CERT-")
  {
    if NonEmpty(codigoRpc).Some? then codigoRpc.value
    else
      var c := "CERT-" + IntToDecimal(ahora);
      assert c[..5] == "CERT-";
      c
  }

  /** `generarCertificado`. The RPC answers (`cumplimiento`, `codigoRpc`),
      the hash of the payload, the new row's id, the time, the two insert
      outcomes and that of the compensating delete (`borradoOk`, whose error
      the service ignores) are inputs; requirements and documents are read
      from their tables. */
  function GenerarCertificado(s: Estado, requerimientos: seq<Requerimiento>, documentos: seq<Documento>,
                              clienteId: string, emisorId: string, desde: Day, hasta: Day,
                              cumplimiento: Option<seq<Cumplimiento>>, codigoRpc: Option<string>, hash: string,
                              nuevoId: string, ahora: Instant, certOk: bool, detallesOk: bool, borradoOk: bool): (r: (Estado, Emision))
    ensures !Cumple(cumplimiento) ==> r == (s, Fallido(NoCumple))
    ensures Cumple(cumplimiento) && !certOk ==> r == (s, Fallido(ErrorCertificado))
    ensures Cumple(cumplimiento) && certOk && !detallesOk ==> r.1 == Fallido(ErrorDetalles) && r.0.detalles == s.detalles
    ensures (r.1.Fallido? && (r.1.fallo == ErrorDetalles ==> borradoOk)
             && (forall k :: 0 <= k < |s.certificados| ==> s.certificados[k].id != nuevoId)) ==> r.0 == s
    ensures Cumple(cumplimiento) && certOk && !detallesOk && !borradoOk ==>
      |r.0.certificados| == |s.certificados| + 1 && r.0.certificados[..|s.certificados|] == s.certificados
      && r.0.certificados[|s.certificados|].id == nuevoId && r.0.certificados[|s.certificados|].estado == Activo
      && r.0.detalles == s.detalles
    ensures r.1.Emitido? <==> Cumple(cumplimiento) && certOk && detallesOk
    ensures r.1.Emitido? ==>
      var c := r.1.certificado;
      var obligatorios := Obligatorios(requerimientos, clienteId);
      c.estado == Activo && c.id == nuevoId && c.codigo == Codigo(codigoRpc, ahora) && c.hash == hash
      && c.clienteId == clienteId && c.emitidoPor == emisorId
      && c.fechaValidezDesde == desde && c.fechaValidezHasta == hasta
      && c.datos == DatosCertificado(cumplimiento.value[0].requerimientosCumplidos, cumplimiento.value[0].totalRequerimientos)
      && r.0.certificados == s.certificados + [c]
      && r.0.detalles == s.detalles + Detalles(obligatorios, documentos, emisorId, ahora, nuevoId)
      && |r.0.detalles| == |s.detalles| + |obligatorios|
  {
    if !Cumple(cumplimiento) then (s, Fallido(NoCumple))
    else
      var codigo := Codigo(codigoRpc, ahora);
      var obligatorios := Obligatorios(requerimientos, clienteId);
      var c0 := cumplimiento.value[0];
      var cert := Certificado(nuevoId, codigo, hash, clienteId, emisorId, ahora, desde, hasta, Activo,
                              None, None, None, DatosCertificado(c0.requerimientosCumplidos, c0.totalRequerimientos));
      if !certOk then (s, Fallido(ErrorCertificado))
      else
        var conCert := s.(certificados := s.certificados + [cert]);
        SinHuerfano(s.certificados, cert);
        if !detallesOk && borradoOk then
          // the certificate just inserted is deleted again by its id
          (s.(certificados := Sorting.Filter(conCert.certificados, (x: Certificado) => x.id != nuevoId)), Fallido(ErrorDetalles))
        else if !detallesOk then
          // the delete failed: the certificate stays without its details
          (conCert, Fallido(ErrorDetalles))
        else
          (conCert.(detalles := s.detalles + Detalles(obligatorios, documentos, emisorId, ahora, nuevoId)), Emitido(cert))
  }

  /** Deleting by id a row just appended under an id no other row has gives
      the table back. */
  lemma SinHuerfano(tabla: seq<Certificado>, c: Certificado)
    ensures (forall k :: 0 <= k < |tabla| ==> tabla[k].id != c.id) ==>
      Sorting.Filter(tabla + [c], (x: Certificado) => x.id != c.id) == tabla
  {
    var p := (x: Certificado) => x.id != c.id;
    Sorting.FilterAppend(tabla, [c], p);
    assert Sorting.Filter([c], p) == [];
    Sorting.FilterAll(tabla, p);
  }

  /** A certificate just issued under a fresh code verifies as valid on every
      day of its validity window. */
  lemma EmitidoEsValido(s: Estado, requerimientos: seq<Requerimiento>, documentos: seq<Documento>,
                        clienteId: string, emisorId: string, desde: Day, hasta: Day,
                        cumplimiento: Option<seq<Cumplimiento>>, codigoRpc: Option<string>, hash: string,
                        nuevoId: string, ahora: Instant, hoy: Day)
    requires Cumple(cumplimiento)
    requires forall k :: 0 <= k < |s.certificados| ==> s.certificados[k].codigo != Codigo(codigoRpc, ahora)
    requires desde <= hoy <= hasta
    ensures var r := GenerarCertificado(s, requerimientos, documentos, clienteId, emisorId, desde, hasta,
                                        cumplimiento, codigoRpc, hash, nuevoId, ahora, true, true, true);
      VerificarCertificado(r.0.certificados, Codigo(codigoRpc, ahora), hoy).valido
  {
    var r := GenerarCertificado(s, requerimientos, documentos, clienteId, emisorId, desde, hasta,
                                cumplimiento, codigoRpc, hash, nuevoId, ahora, true, true, true);
    UnicoAlFinal(s.certificados, r.1.certificado);
  }

  /** A row appended under a code no other row has is found by that code. */
  lemma UnicoAlFinal(tabla: seq<Certificado>, c: Certificado)
    requires forall k :: 0 <= k < |tabla| ==> tabla[k].codigo != c.codigo
    ensures ObtenerPorCodigo(tabla + [c], c.codigo) == Some(c)
  {
    var t := tabla + [c];
    Sorting.FilterSingle(t, |tabla|, (x: Certificado) => x.codigo == c.codigo);
  }

  // ---------------------------------------------------------------------
  // Revocation
  // ---------------------------------------------------------------------

  /** `revocarCertificado`: exactly the state, the reason, who and when; no
      check of the previous state. The update answers the revoked row only
      when exactly one row has the id (`.single()`) and the update itself
      succeeded (`updateOk`); otherwise the service throws. A failed update
      changes nothing. */
  function RevocarCertificado(tabla: seq<Certificado>, id: string, motivo: string, revocadoPor: string, ahora: Instant,
                              updateOk: bool): (r: (seq<Certificado>, Option<Certificado>))
    ensures !updateOk ==> r == (tabla, None)
    ensures updateOk ==> |r.0| == |tabla|
    ensures updateOk ==> forall i :: 0 <= i < |tabla| && tabla[i].id != id ==> r.0[i] == tabla[i]
    ensures updateOk ==> forall i :: 0 <= i < |tabla| && tabla[i].id == id ==>
      r.0[i].estado == Revocado && r.0[i].motivoRevocacion == Some(motivo)
      && r.0[i].revocadoPor == Some(revocadoPor) && r.0[i].revocadoEn == Some(ahora)
      && r.0[i].(estado := tabla[i].estado, motivoRevocacion := tabla[i].motivoRevocacion,
                 revocadoPor := tabla[i].revocadoPor, revocadoEn := tabla[i].revocadoEn) == tabla[i]
    ensures r.1.Some? <==> updateOk && Sorting.Count(tabla, (c: Certificado) => c.id == id) == 1
    ensures r.1.Some? ==> r.1.value in r.0 && r.1.value.id == id && r.1.value.estado == Revocado
  {
    if !updateOk then (tabla, None)
    else
      var p := (c: Certificado) => c.id == id;
      var nueva := Sorting.UpdateWhere(tabla, p, Revocacion(motivo, revocadoPor, ahora));
      var coincidencias := Sorting.Filter(tabla, p);
      if |coincidencias| == 1 then
        assert coincidencias[0] in tabla;
        var k :| 0 <= k < |tabla| && tabla[k] == coincidencias[0];
        assert nueva[k] == Revocacion(motivo, revocadoPor, ahora)(coincidencias[0]);
        (nueva, Some(nueva[k]))
      else (nueva, None)
  }

  /** The change `revocarCertificado` makes to a row. */
  function Revocacion(motivo: string, revocadoPor: string, ahora: Instant): Certificado -> Certificado {
    (c: Certificado) => c.(estado := Revocado, motivoRevocacion := Some(motivo), revocadoPor := Some(revocadoPor), revocadoEn := Some(ahora))
  }

  /** Once revoked, a certificate verifies as revoked with its reason, on any day. */
  lemma RevocadoSeInformaRevocado(tabla: seq<Certificado>, k: nat, motivo: string, revocadoPor: string, ahora: Instant, hoy: Day)
    requires k < |tabla|
    requires forall j :: 0 <= j < |tabla| && j != k ==> tabla[j].codigo != tabla[k].codigo
    ensures var r := RevocarCertificado(tabla, tabla[k].id, motivo, revocadoPor, ahora, true).0;
      var v := VerificarCertificado(r, tabla[k].codigo, hoy);
      !v.valido && v.veredicto == Revocado_(Some(motivo))
  {
    var r := RevocarCertificado(tabla, tabla[k].id, motivo, revocadoPor, ahora, true).0;
    var codigo := tabla[k].codigo;
    var p := (c: Certificado) => c.codigo == codigo;
    assert forall j :: 0 <= j < |r| ==> r[j].codigo == tabla[j].codigo;
    Sorting.FilterSingle(r, k, p);
  }

  // ---------------------------------------------------------------------
  // Expiring soon
  // ---------------------------------------------------------------------

  function Hasta(c: Certificado): int { c.fechaValidezHasta }

  /** `obtenerCertificadosProximosVencer`: active certificates whose validity
      ends between today and `diasLimite` days from now (default 30, only
      when the argument is omitted), soonest first. */
  function ProximosVencer(tabla: seq<Certificado>, hoy: Day, diasLimite: Option<int>): (r: seq<Certificado>)
    ensures var dias := if diasLimite.Some? then diasLimite.value else 30;
      forall c :: c in r <==> c in tabla && c.estado == Activo && hoy <= c.fechaValidezHasta <= hoy + dias
    ensures var dias := if diasLimite.Some? then diasLimite.value else 30;
      forall c :: multiset(r)[c] == if c.estado == Activo && hoy <= c.fechaValidezHasta <= hoy + dias then multiset(tabla)[c] else 0
    ensures Sorting.SortedBy(r, Hasta)
  {
    var dias := if diasLimite.Some? then diasLimite.value else 30;
    var p := (c: Certificado) => c.estado == Activo && hoy <= c.fechaValidezHasta <= hoy + dias;
    var f := Sorting.Filter(tabla, p);
    Sorting.FilterMultiset(tabla, p);
    var r := Sorting.SortBy(f, Hasta);
    Sorting.FilterMembers(tabla, p);
    Sorting.SortMembers(f, r);
    r
  }
}

=== FILE: checkvencimientos.dfy ===
/** The expiry-notification endpoint
    (src/app/api/notificaciones/check-vencimientos/route.ts): which of the
    documents the expiry RPC reports get a notification, the 24-hour
    de-duplication, the counts it answers with, and the GET defaulting. */
module CheckVencimientos {
  import opened Base
  import opened Text
  import opened Tablas
  import Sorting

  const TipoProximoVencer: string := "documento_proximo_vencer"

  /** Default look-ahead of the RPC, in days. */
  const DiasLimitePorDefecto: int := 30

  /** Default notice a client gets, in days. */
  const AnticipacionPorDefecto: int := 7

  /** A row returned by `obtener_documentos_proximos_vencer`. */
  datatype DocProximo = DocProximo(documentoId: string, clienteId: string, diasRestantes: int,
                                   tipoDocumento: string, clienteNombre: string, fechaVencimiento: Day)

  /** The client columns the endpoint reads. `diasAnticipacion` is absent or
      0 when the client has not set it. */
  datatype ClienteAviso = ClienteAviso(usuarioId: Option<string>, diasAnticipacion: Option<int>)

  /** A queued notification. */
  datatype Nueva = Nueva(usuarioId: string, tipo: string, documentoId: string, diasRestantes: int,
                         fechaVencimiento: Day, clienteNombre: string, tipoDocumento: string)

  /** The documents notified about in the last 24 hours: rows of type
      `documento_proximo_vencer` created at or after `now - 24h`. */
  function NotificadosRecientes(notificaciones: seq<Notificacion>, now: Instant): (ids: set<string>)
    ensures forall id :: id in ids <==>
      exists k :: 0 <= k < |notificaciones| && notificaciones[k].tipo == TipoProximoVencer
        && notificaciones[k].documentoId == Some(id) && notificaciones[k].creadoEn >= now - MsPerDay
  {
    set k | 0 <= k < |notificaciones| && notificaciones[k].tipo == TipoProximoVencer
              && notificaciones[k].documentoId.Some? && notificaciones[k].creadoEn >= now - MsPerDay
          :: notificaciones[k].documentoId.value
  }

  /** A document is notified when its client exists and has a user, it is
      within that client's notice, and it was not notified in the last day. */
  predicate Califica(clientes: map<string, ClienteAviso>, notificados: set<string>, d: DocProximo) {
    d.clienteId in clientes && NonEmpty(clientes[d.clienteId].usuarioId).Some?
    && d.diasRestantes <= OrDefault(clientes[d.clienteId].diasAnticipacion, AnticipacionPorDefecto)
    && d.documentoId !in notificados
  }

  /** The notification queued for a qualifying document. */
  function Preparar(clientes: map<string, ClienteAviso>, d: DocProximo): (n: Nueva)
    requires d.clienteId in clientes && clientes[d.clienteId].usuarioId.Some?
    ensures n.usuarioId == clientes[d.clienteId].usuarioId.value && n.documentoId == d.documentoId
    ensures n.tipo == TipoProximoVencer && n.diasRestantes == d.diasRestantes
  {
    Nueva(clientes[d.clienteId].usuarioId.value, TipoProximoVencer, d.documentoId, d.diasRestantes,
          d.fechaVencimiento, d.clienteNombre, d.tipoDocumento)
  }

  /** The reference definition: one notification per qualifying row, in order. */
  function Pendientes(clientes: map<string, ClienteAviso>, notificados: set<string>, docs: seq<DocProximo>): (ns: seq<Nueva>)
    ensures |ns| <= |docs|
    decreases |docs|
  {
    if |docs| == 0 then []
    else
      var last := docs[|docs| - 1];
      var init := Pendientes(clientes, notificados, docs[..|docs| - 1]);
      if Califica(clientes, notificados, last) then init + [Preparar(clientes, last)] else init
  }

  /** Every queued notification comes from a qualifying row, and every
      qualifying row is queued. */
  lemma {:induction false} PendientesCorrectos(clientes: map<string, ClienteAviso>, notificados: set<string>, docs: seq<DocProximo>)
    ensures forall n :: n in Pendientes(clientes, notificados, docs) ==>
      exists i :: 0 <= i < |docs| && Califica(clientes, notificados, docs[i]) && n == Preparar(clientes, docs[i])
    ensures forall i :: 0 <= i < |docs| && Califica(clientes, notificados, docs[i]) ==>
      Preparar(clientes, docs[i]) in Pendientes(clientes, notificados, docs)
    ensures |Pendientes(clientes, notificados, docs)| == Sorting.Count(docs, d => Califica(clientes, notificados, d))
    decreases |docs|
  {
    if |docs| > 0 {
      var init := docs[..|docs| - 1];
      var last := docs[|docs| - 1];
      PendientesCorrectos(clientes, notificados, init);
      assert docs == init + [last];
      Sorting.FilterAppend(init, [last], d => Califica(clientes, notificados, d));
      forall n | n in Pendientes(clientes, notificados, docs)
        ensures exists i :: 0 <= i < |docs| && Califica(clientes, notificados, docs[i]) && n == Preparar(clientes, docs[i])
      {
        if n in Pendientes(clientes, notificados, init) {
          var i :| 0 <= i < |init| && Califica(clientes, notificados, init[i]) && n == Preparar(clientes, init[i]);
          assert docs[i] == init[i];
        } else {
          assert docs[|docs| - 1] == last;
        }
      }
      forall i | 0 <= i < |docs| && Califica(clientes, notificados, docs[i])
        ensures Preparar(clientes, docs[i]) in Pendientes(clientes, notificados, docs)
      {
        if i < |init| {
          assert init[i] == docs[i];
        }
      }
    }
  }

  /** The loop of the handler: one pass over the rows, skipping a row whose
      client is unknown or has no user, a row beyond the client's notice, and
      a row already notified in the last 24 hours. */
  method ProcesarDocumentos(clientes: map<string, ClienteAviso>, notificados: set<string>, docs: seq<DocProximo>)
    returns (pendientes: seq<Nueva>)
    ensures pendientes == Pendientes(clientes, notificados, docs)
    ensures forall k :: 0 <= k < |pendientes| ==> pendientes[k].documentoId !in notificados
  {
    pendientes := [];
    var i := 0;
    while i < |docs|
      invariant 0 <= i <= |docs|
      invariant pendientes == Pendientes(clientes, notificados, docs[..i])
      invariant forall k :: 0 <= k < |pendientes| ==> pendientes[k].documentoId !in notificados
    {
      var doc := docs[i];
      assert docs[..i + 1][..i] == docs[..i];
      if doc.clienteId !in clientes || NonEmpty(clientes[doc.clienteId].usuarioId).None? {
        i := i + 1;
        continue;
      }
      var cliente := clientes[doc.clienteId];
      var diasAnticipacion := OrDefault(cliente.diasAnticipacion, AnticipacionPorDefecto);
      if doc.diasRestantes > diasAnticipacion {
        i := i + 1;
        continue;
      }
      if doc.documentoId in notificados {
        i := i + 1;
        continue;
      }
      pendientes := pendientes + [Preparar(clientes, doc)];
      i := i + 1;
    }
    assert docs[..|docs|] == docs;
  }

  /** What the RPC answered. */
  datatype Rpc = RpcError | RpcOk(filas: Option<seq<DocProximo>>)

  /** The POST's answer. `insertado` is the batch it inserted (if any). */
  datatype RespuestaPost = RespuestaPost(status: int, diasLimite: int, documentosEncontrados: nat,
                                         notificacionesCreadas: nat, documentosProcesados: nat,
                                         insertado: Option<seq<Nueva>>)

  /** `POST`. `diasLimite` is the body's field (absent when the body does not
      parse); `rpc` the RPC's answer for the resolved limit; `insertOk` the
      outcome of the batch insert should there be one. */
  function Post(usuario: Option<string>, perfil: Option<Rol>, diasLimite: Option<int>, rpc: Rpc,
                clientes: map<string, ClienteAviso>, notificaciones: seq<Notificacion>, now: Instant,
                insertOk: bool): (r: RespuestaPost)
    ensures r.status == 401 <==> usuario.None?
    ensures r.status == 403 <==> usuario.Some? && perfil != Some(Revisor)
    ensures r.status == 500 <==> usuario.Some? && perfil == Some(Revisor) && rpc.RpcError?
    ensures r.status != 200 ==> r.insertado.None? && r.notificacionesCreadas == 0
    ensures r.status == 200 ==> r.diasLimite == OrDefault(diasLimite, DiasLimitePorDefecto)
    ensures r.insertado.Some? ==> |r.insertado.value| > 0 && r.documentosProcesados == |r.insertado.value|
    ensures r.status == 200 ==>
      r.documentosProcesados <= r.documentosEncontrados
      && (r.notificacionesCreadas == 0 || r.notificacionesCreadas == r.documentosProcesados)
      && (r.notificacionesCreadas > 0 ==> insertOk)
    ensures usuario.Some? && perfil == Some(Revisor) && rpc.RpcOk? ==>
      var docs := if rpc.filas.None? then [] else rpc.filas.value;
      var p := Pendientes(clientes, NotificadosRecientes(notificaciones, now), docs);
      r.status == 200 && r.documentosEncontrados == |docs| && r.documentosProcesados == |p|
      && (r.insertado.Some? <==> |p| > 0)
      && (|p| > 0 ==> r.insertado == Some(p))
      && r.notificacionesCreadas == (if insertOk then |p| else 0)
  {
    if usuario.None? then RespuestaPost(401, 0, 0, 0, 0, None)
    else if perfil != Some(Revisor) then RespuestaPost(403, 0, 0, 0, 0, None)
    else
      var limite := OrDefault(diasLimite, DiasLimitePorDefecto);
      match rpc
      case RpcError => RespuestaPost(500, 0, 0, 0, 0, None)
      case RpcOk(filas) =>
        if filas.None? || |filas.value| == 0 then RespuestaPost(200, limite, 0, 0, 0, None)
        else
          var docs := filas.value;
          var pendientes := Pendientes(clientes, NotificadosRecientes(notificaciones, now), docs);
          if |pendientes| == 0 then RespuestaPost(200, limite, |docs|, 0, 0, None)
          else RespuestaPost(200, limite, |docs|, if insertOk then |pendientes| else 0, |pendientes|, Some(pendientes))
  }

  /** A document notified within the last 24 hours is not notified again. */
  lemma SinDuplicados(usuario: string, diasLimite: Option<int>, docs: seq<DocProximo>,
                      clientes: map<string, ClienteAviso>, notificaciones: seq<Notificacion>, now: Instant,
                      insertOk: bool, k: nat)
    requires k < |notificaciones| && notificaciones[k].tipo == TipoProximoVencer
    requires notificaciones[k].documentoId.Some? && notificaciones[k].creadoEn >= now - MsPerDay
    ensures var r := Post(Some(usuario), Some(Revisor), diasLimite, RpcOk(Some(docs)), clientes, notificaciones, now, insertOk);
      r.insertado.Some? ==> forall n :: n in r.insertado.value ==> n.documentoId != notificaciones[k].documentoId.value
  {
    var notificados := NotificadosRecientes(notificaciones, now);
    assert notificaciones[k].documentoId.value in notificados;
    PendientesCorrectos(clientes, notificados, docs);
  }

  /** `parseInt(searchParams.get('diasLimite') || '30', 10)`. */
  function DiasLimiteGet(param: Option<string>): (r: Option<int>)
    ensures param.None? || param == Some("") ==> r == Some(DiasLimitePorDefecto)
    ensures param.Some? && |param.value| > 0 && AllDigits(param.value) ==> r == Some(DecimalValue(param.value))
  {
    var texto := if param.Some? && param.value != "" then param.value else "30";
    assert AllDigits("30") && DecimalValue("30") == 30 by {
      assert "30"[..1] == "3";
    }
    ParseInt(texto)
  }
}

=== FILE: clientedashboard.dfy ===
/** The client dashboard (src/app/cliente/page.tsx): the fulfilled/pending
    split of the client's requirements, the compliance percentage and the
    response-time label. */
module ClienteDashboard {
  import opened Base
  import opened Text
  import opened Tablas
  import Sorting

  /** A requirement as the dashboard receives it, with its documents (the
      embedded list may be absent). */
  datatype ConDocumentos = ConDocumentos(requerimiento: Requerimiento, documentos: Option<seq<Documento>>)

  predicate AprobadoVigente(d: Documento) {
    d.estado == Aprobado && !d.eliminado
  }

  /** A requirement counts as fulfilled when some document on it is approved and not deleted. */
  predicate Cumplido(r: ConDocumentos) {
    r.documentos.Some? && Sorting.Count(r.documentos.value, AprobadoVigente) > 0
  }

  lemma CumplidoIff(r: ConDocumentos)
    ensures Cumplido(r) <==>
      r.documentos.Some? && exists k :: 0 <= k < |r.documentos.value| && AprobadoVigente(r.documentos.value[k])
  {
    if r.documentos.Some? {
      var ds := r.documentos.value;
      var f := Sorting.Filter(ds, AprobadoVigente);
      if |f| > 0 {
        assert f[0] in ds;
        var k :| 0 <= k < |ds| && ds[k] == f[0];
        assert AprobadoVigente(ds[k]);
      }
      if exists k :: 0 <= k < |ds| && AprobadoVigente(ds[k]) {
        var k :| 0 <= k < |ds| && AprobadoVigente(ds[k]);
        assert ds[k] in f;
      }
    }
  }

  /** `documentosPendientes`: requirements with no approved, non-deleted document. */
  function DocumentosPendientes(reqs: Option<seq<ConDocumentos>>): (n: nat)
    ensures reqs.None? ==> n == 0
    ensures reqs.Some? ==> n == |set k: nat | k < |reqs.value| && !Cumplido(reqs.value[k])|
  {
    if reqs.None? then 0
    else
      var p := (r: ConDocumentos) => !Cumplido(r);
      Sorting.CountPositions(reqs.value, p);
      assert Sorting.Positions(reqs.value, p) == set k: nat | k < |reqs.value| && !Cumplido(reqs.value[k]);
      Sorting.Count(reqs.value, p)
  }

  /** `documentosAprobados`: requirements with at least one. */
  function DocumentosAprobados(reqs: Option<seq<ConDocumentos>>): (n: nat)
    ensures reqs.None? ==> n == 0
    ensures reqs.Some? ==> n == |set k: nat | k < |reqs.value| && Cumplido(reqs.value[k])|
  {
    if reqs.None? then 0
    else
      Sorting.CountPositions(reqs.value, Cumplido);
      assert Sorting.Positions(reqs.value, Cumplido) == set k: nat | k < |reqs.value| && Cumplido(reqs.value[k]);
      Sorting.Count(reqs.value, Cumplido)
  }

  /** Every requirement is in exactly one of the two groups. */
  lemma Particion(reqs: seq<ConDocumentos>)
    ensures DocumentosPendientes(Some(reqs)) + DocumentosAprobados(Some(reqs)) == |reqs|
  {
    Sorting.CountComplement(reqs, Cumplido, (r: ConDocumentos) => !Cumplido(r));
  }

  /** `Math.round(c / t * 100)` on the exact quotient: the nearest integer,
      halves rounded up. */
  function RedondearPorcentaje(c: int, t: int): (p: int)
    requires t > 0
    ensures 2 * t * p <= 200 * c + t < 2 * t * (p + 1)
    ensures 0 <= c <= t ==> 0 <= p <= 100
    ensures c == t ==> p == 100
  {
    var p := (200 * c + t) / (2 * t);
    CocienteEntre(200 * c + t, 2 * t, 100);
    p
  }

  /** `porcentajeCumplimiento`: 0 with no requirements (absent counts are 0),
      otherwise the fulfilled share of the total in percent, rounded to the
      nearest integer with halves up. */
  function PorcentajeCumplimiento(totalRequerimientos: Option<int>, requerimientosCumplidos: Option<int>): (p: int)
    ensures (totalRequerimientos.None? || totalRequerimientos.value <= 0) ==> p == 0
    ensures totalRequerimientos.Some? && totalRequerimientos.value > 0 ==>
      var t := totalRequerimientos.value;
      var c := OrDefault(requerimientosCumplidos, 0);
      2 * t * p <= 200 * c + t < 2 * t * (p + 1)
    ensures totalRequerimientos.Some? && totalRequerimientos.value > 0 ==>
      var c := OrDefault(requerimientosCumplidos, 0);
      0 <= c <= totalRequerimientos.value ==> 0 <= p <= 100
    ensures totalRequerimientos.Some? && totalRequerimientos.value > 0 && requerimientosCumplidos == totalRequerimientos ==> p == 100
  {
    var t := OrDefault(totalRequerimientos, 0);
    var c := OrDefault(requerimientosCumplidos, 0);
    if t > 0 then RedondearPorcentaje(c, t) else 0
  }

  /** The response-time card: `N/A` when the average is absent or zero. */
  function TiempoRespuesta(t: Option<int>): (s: string)
    ensures s == "N/A" <==> t.None? || t.value == 0
    ensures t.Some? && t.value != 0 ==> EndsWith(s, " días") && ParseInt(s) == t
  {
    if t.Some? && t.value != 0 then
      var n := IntToDecimal(t.value);
      var s := n + " días";
      assert s[|s| - 5..] == " días";
      assert s != "N/A" by { assert |s| >= 6; }
      ParseIntThen(t.value, " días");
      s
    else "N/A"
  }
}

=== FILE: confignotificaciones.dfy ===
/** The notification-preferences form
    (src/components/clientes/ConfiguracionNotificaciones.tsx): its initial
    values, the validation on submit, the update it sends and the clamp of
    the numeric day input. */
module ConfigNotificaciones {
  import opened Base
  import opened Text
  import Utils
  import Tablas

  /** Default notice, in days, when the client has none. */
  const DiasPorDefecto: int := 7
  const DiasMinimo: int := 1
  const DiasMaximo: int := 90

  /** The client's stored preferences (each column nullable). */
  datatype Preferencias = Preferencias(whatsappContacto: Option<string>, notificarWhatsapp: Option<bool>,
                                       diasAnticipacion: Option<int>)

  datatype Formulario = Formulario(whatsappContacto: string, notificarWhatsapp: bool, diasAnticipacion: int)

  /** The form's initial state: an absent number is `''`, an absent flag is
      `true` (`??`), an absent or zero notice is 7 (`||`). */
  function FormularioInicial(c: Preferencias): (f: Formulario)
    ensures f.whatsappContacto == (if c.whatsappContacto.Some? then c.whatsappContacto.value else "")
    ensures f.notificarWhatsapp <==> c.notificarWhatsapp != Some(false)
    ensures f.diasAnticipacion == (if c.diasAnticipacion.Some? && c.diasAnticipacion.value != 0 then c.diasAnticipacion.value else DiasPorDefecto)
    ensures f.diasAnticipacion != 0
  {
    Formulario(if c.whatsappContacto.Some? then c.whatsappContacto.value else "",
               if c.notificarWhatsapp.Some? then c.notificarWhatsapp.value else true,
               Tablas.OrDefault(c.diasAnticipacion, DiasPorDefecto))
  }

  /** `/^\+\d{10,15}$/`: a plus sign and 10 to 15 ASCII digits, nothing else. */
  predicate FormatoInternacional(s: string) {
    11 <= |s| <= 16 && s[0] == '+' && AllDigits(s[1..])
  }

  /** An internationally formatted number also passes the looser
      `validarTelefono` of the utilities. */
  lemma InternacionalEsTelefono(s: string)
    requires FormatoInternacional(s)
    ensures Utils.ValidarTelefono(s)
  {
    forall i | 0 <= i < |s| ensures Utils.CaracterTelefono(s[i]) {
      if i > 0 { assert s[i] == s[1..][i - 1]; }
    }
  }

  /** The error on the number, if any: the format message overwrites the
      missing-number one, but the two never arise together. */
  datatype ErrorWhatsApp = Falta | Formato

  datatype Errores = Errores(whatsappContacto: Option<ErrorWhatsApp>, diasAnticipacion: bool)

  predicate SinErrores(e: Errores) {
    e.whatsappContacto.None? && !e.diasAnticipacion
  }

  /** The checks of `handleSubmit`. */
  function Validar(f: Formulario): (e: Errores)
    ensures e.whatsappContacto == Some(Falta) <==> f.notificarWhatsapp && f.whatsappContacto == ""
    ensures e.whatsappContacto == Some(Formato) <==> f.whatsappContacto != "" && !FormatoInternacional(f.whatsappContacto)
    ensures e.diasAnticipacion <==> !(DiasMinimo <= f.diasAnticipacion <= DiasMaximo)
    ensures SinErrores(e) <==>
      (f.whatsappContacto == "" ==> !f.notificarWhatsapp)
      && (f.whatsappContacto != "" ==> FormatoInternacional(f.whatsappContacto))
      && DiasMinimo <= f.diasAnticipacion <= DiasMaximo
  {
    var w :=
      if f.whatsappContacto != "" && !FormatoInternacional(f.whatsappContacto) then Some(Formato)
      else if f.notificarWhatsapp && f.whatsappContacto == "" then Some(Falta)
      else None;
    Errores(w, f.diasAnticipacion < DiasMinimo || f.diasAnticipacion > DiasMaximo)
  }

  /** The update sent to `actualizarCliente`. */
  datatype Actualizacion = Actualizacion(whatsappContacto: Option<string>, notificarWhatsapp: bool, diasAnticipacion: int)

  /** `handleSubmit`: the update is sent exactly when the form has no error,
      with an empty number sent as null. */
  function Enviar(f: Formulario): (r: Option<Actualizacion>)
    ensures r.Some? <==> SinErrores(Validar(f))
    ensures r.Some? ==> r.value.notificarWhatsapp == f.notificarWhatsapp && r.value.diasAnticipacion == f.diasAnticipacion
    ensures r.Some? ==> (r.value.whatsappContacto.None? <==> f.whatsappContacto == "")
    ensures r.Some? && r.value.whatsappContacto.Some? ==>
      r.value.whatsappContacto.value == f.whatsappContacto && FormatoInternacional(f.whatsappContacto)
    ensures r.Some? ==> DiasMinimo <= r.value.diasAnticipacion <= DiasMaximo
    ensures r.Some? && r.value.notificarWhatsapp ==> r.value.whatsappContacto.Some?
  {
    if SinErrores(Validar(f)) then
      Some(Actualizacion(if f.whatsappContacto == "" then None else Some(f.whatsappContacto),
                         f.notificarWhatsapp, f.diasAnticipacion))
    else None
  }

  /** The numeric input's `onChange`:
      `Math.min(90, Math.max(1, parseInt(value, 10) || 1))`. */
  function AjustarDias(valor: string): (d: int)
    ensures DiasMinimo <= d <= DiasMaximo
    ensures ParseInt(valor).None? ==> d == 1
    ensures ParseInt(valor).Some? && ParseInt(valor).value < DiasMinimo ==> d == DiasMinimo
    ensures ParseInt(valor).Some? && DiasMinimo <= ParseInt(valor).value <= DiasMaximo ==> d == ParseInt(valor).value
    ensures ParseInt(valor).Some? && ParseInt(valor).value > DiasMaximo ==> d == DiasMaximo
  {
    var n := ParseInt(valor);
    var v := Tablas.OrDefault(n, 1);
    var m := if v > 1 then v else 1;
    if m < 90 then m else 90
  }

  /** A value typed into the numeric input never makes the form fail on the
      notice, and a number written with its usual digits reads back. */
  lemma AjustarDiasValido(f: Formulario, valor: string, n: nat)
    requires f.diasAnticipacion == AjustarDias(valor)
    requires DiasMinimo <= n <= DiasMaximo
    ensures !Validar(f).diasAnticipacion
    ensures AjustarDias(NatToDecimal(n)) == n
  {
    ParseIntRoundTrip(n);
  }
}

=== FILE: cuentaregresiva.dfy ===
/** The countdown of the inactivity warning
    (src/components/auth/InactivityWarningModal.tsx): the per-second tick,
    the reset when the modal closes, and the `m:ss` display. */
module CuentaRegresiva {
  import opened Base
  import opened Text
  import Fechas
  import Utils

  /** Default countdown, in seconds. */
  const CuentaPorDefecto: int := 300

  /** One interval tick: the next remaining time, and whether `onLogout`
      fires (which also stops the interval). */
  function Tick(prev: int): (r: (int, bool))
    ensures r.0 >= 0
    ensures r.1 <==> prev <= 1
    ensures r.1 ==> r.0 == 0
    ensures !r.1 ==> r.0 == prev - 1 && r.0 >= 1
  {
    if prev <= 1 then (0, true) else (prev - 1, false)
  }

  /** The remaining time as the effect leaves it: back to `countdown`
      whenever the modal is closed, untouched while it is open. */
  function AlCambiarApertura(isOpen: bool, remaining: int, countdown: int): (r: int)
    ensures !isOpen ==> r == countdown
    ensures isOpen ==> r == remaining
  {
    if isOpen then remaining else countdown
  }

  /** `n` ticks of an open modal starting from `v`; the interval stops at
      the first logout. Returns the remaining time and how many logouts fired. */
  function Ticks(v: int, n: nat): (r: (int, nat))
    decreases n
  {
    if n == 0 then (v, 0)
    else
      var (w, fin) := Tick(v);
      if fin then (w, 1) else
        var (x, k) := Ticks(w, n - 1);
        (x, k)
  }

  /** From `v` seconds (at least 1) the logout fires exactly on the `v`-th
      tick, not before, and exactly once. */
  lemma {:induction false} CierreEnElTickV(v: int, n: nat)
    requires v >= 1
    ensures n < v ==> Ticks(v, n) == (v - n, 0)
    ensures n >= v ==> Ticks(v, n) == (0, 1)
    decreases n
  {
    if n > 0 && v > 1 {
      CierreEnElTickV(v - 1, n - 1);
    }
  }

  /** JavaScript's `%` on integers: the remainder takes the sign of the dividend. */
  function JsRem(a: int, b: int): (r: int)
    requires b > 0
    ensures a >= 0 ==> r == a % b
    ensures a < 0 ==> r == -((-a) % b)
    ensures -b < r < b
  {
    a - b * Fechas.TruncDiv(a, b)
  }

  /** `r` shows `m` minutes and `ss` seconds: the text before the last three
      characters reads as `m`, then a colon, then two characters that read as `ss`. */
  ghost predicate Muestra(r: string, m: int, ss: int) {
    |r| >= 4 && r[|r| - 3] == ':' && ParseInt(r[..|r| - 3]) == Some(m) && ParseInt(r[|r| - 2..]) == Some(ss)
  }

  /** `formatTime`: `Math.floor(s / 60)`, a colon, then `s % 60` padded to two digits. */
  function FormatTime(seconds: int): (r: string)
    ensures seconds >= 0 ==> Muestra(r, seconds / 60, seconds % 60)
  {
    var r := IntToDecimal(seconds / 60) + ":" + Utils.PadStart2(IntToDecimal(JsRem(seconds, 60)));
    if seconds >= 0 then FormatTimeLee(seconds, r); r else r
  }

  lemma FormatTimeLee(seconds: int, r: string)
    requires seconds >= 0
    requires r == IntToDecimal(seconds / 60) + ":" + Utils.PadStart2(IntToDecimal(JsRem(seconds, 60)))
    ensures Muestra(r, seconds / 60, seconds % 60)
  {
    var m := seconds / 60;
    var ss := seconds % 60;
    assert JsRem(seconds, 60) == ss;
    var a := IntToDecimal(m);
    var b := Utils.PadStart2(IntToDecimal(ss));
    DosDigitos(ss);
    ParseIntRoundTrip(m);
    Piezas(r, a, b, m, ss);
  }

  /** The minutes and the two-digit seconds, joined by a colon, read back. */
  lemma Piezas(r: string, a: string, b: string, m: int, ss: int)
    requires r == a + ":" + b
    requires |a| >= 1 && |b| == 2 && ParseInt(a) == Some(m) && ParseInt(b) == Some(ss)
    ensures Muestra(r, m, ss)
  {
    assert |r| == |a| + 3 && r[|a|] == ':';
    assert r[..|r| - 3] == a;
    assert r[|r| - 2..] == b;
    assert ParseInt(r[..|r| - 3]) == ParseInt(a);
    assert ParseInt(r[|r| - 2..]) == ParseInt(b);
  }

  /** For a non-negative time the display reads back: the part before the
      colon is the minutes, the two digits after it the seconds, and
      minutes * 60 + seconds is the time shown. */
  lemma FormatTimeRoundTrip(seconds: int)
    requires seconds >= 0
    ensures var parts := Split(FormatTime(seconds), ':');
      |parts| == 2 && |parts[1]| == 2
      && ParseInt(parts[0]).Some? && ParseInt(parts[1]).Some?
      && ParseInt(parts[0]).value * 60 + ParseInt(parts[1]).value == seconds
      && 0 <= ParseInt(parts[1]).value < 60
  {
    var m, ss := seconds / 60, seconds % 60;
    var a := IntToDecimal(m);
    var b := Utils.PadStart2(IntToDecimal(ss));
    assert JsRem(seconds, 60) == ss;
    ParseIntRoundTrip(m);
    DosDigitos(ss);
    assert ':' !in a;
    assert ':' !in b;
    PartesLeen(FormatTime(seconds), a, b);
  }

  /** Splitting `a:b` on the colon gives `a` and `b` back when neither holds one. */
  lemma PartesLeen(r: string, a: string, b: string)
    requires r == a + ":" + b
    requires ':' !in a && ':' !in b
    ensures var parts := Split(r, ':');
      |parts| == 2 && parts[0] == a && parts[1] == b
  {
    assert r == a + [':'] + b;
    SplitAfterFirst(a, ':', b);
  }

  /** `padStart(2, '0')` of a number below 60 is two digits that read back as it. */
  lemma DosDigitos(ss: nat)
    requires ss < 60
    ensures var b := Utils.PadStart2(IntToDecimal(ss));
      |b| == 2 && AllDigits(b) && ParseInt(b) == Some(ss)
  {
    var d := NatToDecimal(ss);
    var b := Utils.PadStart2(d);
    DecimalRoundTrip(ss);
    if ss < 10 {
      assert b == ['0'] + d;
      assert b[..1] == ['0'];
      assert DecimalValue(b) == DecimalValue(['0']) * 10 + DigitValue(d[0]);
      assert DecimalValue(d) == DigitValue(d[0]);
    } else {
      assert |NatToDecimal(ss / 10)| == 1;
    }
  }
}

=== FILE: documentos.dfy ===
/** The document service (src/services/documentos.service.ts) over an
    immutable `documentos` table and the set of stored file paths: upload,
    approval, rejection and the listing queries. */
module Documentos {
  import opened Base
  import opened Text
  import opened Tablas
  import Sorting
  import Utils

  /** The backend state the service touches. */
  datatype Estado = Estado(documentos: seq<Documento>, storage: set<string>)

  // ---------------------------------------------------------------------
  // Queries
  // ---------------------------------------------------------------------

  /** `obtenerDocumentos`: the requirement's non-deleted versions, newest first. */
  function ObtenerDocumentos(tabla: seq<Documento>, requerimientoId: string): (r: seq<Documento>)
    ensures forall d :: d in r <==> d in tabla && d.requerimientoId == requerimientoId && !d.eliminado
    ensures forall d :: multiset(r)[d] == if d.requerimientoId == requerimientoId && !d.eliminado then multiset(tabla)[d] else 0
    ensures Sorting.SortedDescBy(r, (d: Documento) => d.version)
  {
    var p := (d: Documento) => d.requerimientoId == requerimientoId && !d.eliminado;
    var f := Sorting.Filter(tabla, p);
    Sorting.FilterMultiset(tabla, p);
    var r := Sorting.SortDescBy(f, (d: Documento) => d.version);
    Sorting.FilterMembers(tabla, p);
    Sorting.SortMembers(f, r);
    r
  }

  /** `obtenerDocumentosPendientes`: the pending, non-deleted documents, oldest upload first. */
  function ObtenerPendientes(tabla: seq<Documento>): (r: seq<Documento>)
    ensures forall d :: d in r <==> d in tabla && d.estado == Pendiente && !d.eliminado
    ensures forall d :: multiset(r)[d] == if d.estado == Pendiente && !d.eliminado then multiset(tabla)[d] else 0
    ensures Sorting.SortedBy(r, (d: Documento) => d.fechaCarga)
  {
    var p := (d: Documento) => d.estado == Pendiente && !d.eliminado;
    var f := Sorting.Filter(tabla, p);
    Sorting.FilterMultiset(tabla, p);
    var r := Sorting.SortBy(f, (d: Documento) => d.fechaCarga);
    Sorting.FilterMembers(tabla, p);
    Sorting.SortMembers(f, r);
    r
  }

  /** The expiry day as a sort key (every row reaching the sort has one). */
  function DiaVencimiento(d: Documento): int {
    if d.fechaVencimiento.Some? then d.fechaVencimiento.value else 0
  }

  /** `obtenerDocumentosVencidosSimple`: approved, non-deleted documents whose
      expiry day is before `hoy`, earliest expiry first. */
  function ObtenerVencidos(tabla: seq<Documento>, hoy: Day): (r: seq<Documento>)
    ensures forall d :: d in r <==>
      d in tabla && d.estado == Aprobado && !d.eliminado && d.fechaVencimiento.Some? && d.fechaVencimiento.value < hoy
    ensures forall d ::
      multiset(r)[d] == if d.estado == Aprobado && !d.eliminado && d.fechaVencimiento.Some? && d.fechaVencimiento.value < hoy
                        then multiset(tabla)[d] else 0
    ensures Sorting.SortedBy(r, DiaVencimiento)
  {
    var p := (d: Documento) => d.estado == Aprobado && !d.eliminado && d.fechaVencimiento.Some? && d.fechaVencimiento.value < hoy;
    var f := Sorting.Filter(tabla, p);
    Sorting.FilterMultiset(tabla, p);
    var r := Sorting.SortBy(f, DiaVencimiento);
    Sorting.FilterMembers(tabla, p);
    Sorting.SortMembers(f, r);
    r
  }

  /** The `estado` column as the query strings name it. */
  function NombreEstado(e: EstadoDocumento): string {
    match e
    case Pendiente => "pendiente"
    case Aprobado => "aprobado"
    case Rechazado => "rechazado"
  }

  /** The criteria of `filtrarDocumentos`; the two ids are accepted and ignored. */
  datatype Filtros = Filtros(estado: Option<string>, clienteId: Option<string>, tipoDocumentoId: Option<string>,
                             fechaDesde: Option<Instant>, fechaHasta: Option<Instant>)

  /** A row passes the criteria that are set: the state unless absent, empty
      or `todos`, and the inclusive upload-time bounds. */
  predicate PasaFiltros(f: Filtros, d: Documento) {
    !d.eliminado
    && (NonEmpty(f.estado).Some? && f.estado.value != "todos" ==> NombreEstado(d.estado) == f.estado.value)
    && (f.fechaDesde.Some? ==> d.fechaCarga >= f.fechaDesde.value)
    && (f.fechaHasta.Some? ==> d.fechaCarga <= f.fechaHasta.value)
  }

  function FechaCarga(d: Documento): int { d.fechaCarga }

  /** `filtrarDocumentos`: the rows passing the criteria, latest upload first. */
  function FiltrarDocumentos(tabla: seq<Documento>, f: Filtros): (r: seq<Documento>)
    ensures forall d :: d in r <==> d in tabla && PasaFiltros(f, d)
    ensures forall d :: multiset(r)[d] == if PasaFiltros(f, d) then multiset(tabla)[d] else 0
    ensures Sorting.SortedDescBy(r, FechaCarga)
  {
    var p := (d: Documento) => PasaFiltros(f, d);
    var fl := Sorting.Filter(tabla, p);
    Sorting.FilterMultiset(tabla, p);
    var r := Sorting.SortDescBy(fl, FechaCarga);
    Sorting.FilterMembers(tabla, p);
    Sorting.SortMembers(fl, r);
    r
  }

  /** The client and document-type criteria have no effect on the result, and
      `todos` filters nothing more than no state at all. */
  lemma FiltrosIgnorados(tabla: seq<Documento>, f: Filtros, clienteId: Option<string>, tipoDocumentoId: Option<string>)
    ensures FiltrarDocumentos(tabla, f.(clienteId := clienteId, tipoDocumentoId := tipoDocumentoId)) == FiltrarDocumentos(tabla, f)
    ensures FiltrarDocumentos(tabla, f.(estado := Some("todos"))) == FiltrarDocumentos(tabla, f.(estado := None))
  {
    var g := f.(clienteId := clienteId, tipoDocumentoId := tipoDocumentoId);
    Sorting.FilterCongruent(tabla, (d: Documento) => PasaFiltros(g, d), (d: Documento) => PasaFiltros(f, d));
    var t := f.(estado := Some("todos"));
    var n := f.(estado := None);
    Sorting.FilterCongruent(tabla, (d: Documento) => PasaFiltros(t, d), (d: Documento) => PasaFiltros(n, d));
  }

  // ---------------------------------------------------------------------
  // Upload
  // ---------------------------------------------------------------------

  /** The path a new version is stored under: the version's folder, then the
      unique name. */
  function RutaSubida(clienteId: string, tipoDocumentoId: string, version: int, timestamp: nat, nombre: string): (r: string)
    ensures StartsWith(r, clienteId + "/" + tipoDocumentoId + "/" + IntToDecimal(version) + "/")
    ensures EndsWith(r, Utils.GenerarNombreUnicoArchivo(timestamp, nombre))
  {
    Utils.ConstruirRutaStorage(clienteId, tipoDocumentoId, version, Utils.GenerarNombreUnicoArchivo(timestamp, nombre))
  }

  /** Two uploads of the same version at different clock readings get
      different paths, whatever the file names (so only two uploads in the
      same millisecond can collide). */
  lemma RutaSubidaUnica(clienteId: string, tipoDocumentoId: string, version: int,
                        t1: nat, n1: string, t2: nat, n2: string)
    requires t1 != t2
    ensures RutaSubida(clienteId, tipoDocumentoId, version, t1, n1) != RutaSubida(clienteId, tipoDocumentoId, version, t2, n2)
  {
    var carpeta := clienteId + "/" + tipoDocumentoId + "/" + IntToDecimal(version) + "/";
    var a := Utils.GenerarNombreUnicoArchivo(t1, n1);
    var b := Utils.GenerarNombreUnicoArchivo(t2, n2);
    assert ParseInt(a) != ParseInt(b);
    assert RutaSubida(clienteId, tipoDocumentoId, version, t1, n1) == carpeta + a;
    assert RutaSubida(clienteId, tipoDocumentoId, version, t2, n2) == carpeta + b;
    assert (carpeta + a)[|carpeta|..] == a;
    assert (carpeta + b)[|carpeta|..] == b;
  }

  /** `subirDocumento`. `versionRpc` is the next-version RPC's answer,
      `timestamp` the clock read for the unique name, `nuevoId` and `ahora` the
      id and upload time the insert assigns; `uploadOk`, `insertOk` and
      `removeOk` the outcomes of the storage upload, the row insert and the
      removal of the file after a failed insert (whose error the service
      ignores). An upload onto a path already in use fails. */
  function SubirDocumento(s: Estado, nombre: string, requerimientoId: string, clienteId: string,
                          tipoDocumentoId: string, fechaVencimiento: Option<Day>,
                          versionRpc: Option<int>, timestamp: nat, nuevoId: string, ahora: Instant,
                          uploadOk: bool, insertOk: bool, removeOk: bool): (r: (Estado, Option<Documento>))
    ensures var version := OrDefault(versionRpc, 1);
      var ruta := RutaSubida(clienteId, tipoDocumentoId, version, timestamp, nombre);
      var subido := uploadOk && ruta !in s.storage;
      (!subido ==> r == (s, None))
      && (subido && !insertOk && removeOk ==> r == (s, None))
      && (subido && !insertOk && !removeOk ==> r == (Estado(s.documentos, s.storage + {ruta}), None))
      && (subido && insertOk ==>
            r.1.Some? && r.0 == Estado(s.documentos + [r.1.value], s.storage + {ruta})
            && r.1.value.version == version && r.1.value.url == ruta
            && r.1.value.estado == Pendiente && r.1.value.nombreArchivo == nombre
            && r.1.value.fechaVencimiento == fechaVencimiento && r.1.value.requerimientoId == requerimientoId
            && !r.1.value.eliminado && r.1.value.aprobadoPor.None? && r.1.value.fechaAprobacion.None?)
    ensures r.1.None? ==> r.0.documentos == s.documentos
    ensures r.1.None? && removeOk ==> r.0 == s
  {
    var version := OrDefault(versionRpc, 1);
    var ruta := RutaSubida(clienteId, tipoDocumentoId, version, timestamp, nombre);
    Guardar(s, ruta, Documento(nuevoId, requerimientoId, ruta, nombre, version, Pendiente, None, ahora,
                               fechaVencimiento, None, None, false), uploadOk, insertOk, removeOk)
  }

  /** The steps of an upload to `ruta`: the file is stored, then its row
      `doc` is inserted; when the insert fails the stored file is removed
      again. Both happen or neither, unless that removal fails too, which
      leaves the file stored without a row. */
  function Guardar(s: Estado, ruta: string, doc: Documento, uploadOk: bool, insertOk: bool, removeOk: bool): (r: (Estado, Option<Documento>))
    ensures !(uploadOk && ruta !in s.storage) ==> r == (s, None)
    ensures uploadOk && ruta !in s.storage && !insertOk && removeOk ==> r == (s, None)
    ensures uploadOk && ruta !in s.storage && !insertOk && !removeOk ==> r == (s.(storage := s.storage + {ruta}), None)
    ensures uploadOk && ruta !in s.storage && insertOk ==>
      r == (Estado(s.documentos + [doc], s.storage + {ruta}), Some(doc))
  {
    if !uploadOk || ruta in s.storage then (s, None)
    else
      var conArchivo := s.(storage := s.storage + {ruta});
      if !insertOk && removeOk then
        assert conArchivo.storage - {ruta} == s.storage;
        (conArchivo.(storage := conArchivo.storage - {ruta}), None)
      else if !insertOk then
        (conArchivo, None)
      else
        (conArchivo.(documentos := s.documentos + [doc]), Some(doc))
  }

  /** Every stored file keeps its row: when the state had a row for each
      stored path, it still does afterwards, unless the insert and then the
      removal of the just-stored file both failed. */
  lemma SubidaSinHuerfanos(s: Estado, nombre: string, requerimientoId: string, clienteId: string,
                           tipoDocumentoId: string, fechaVencimiento: Option<Day>,
                           versionRpc: Option<int>, timestamp: nat, nuevoId: string, ahora: Instant,
                           uploadOk: bool, insertOk: bool, removeOk: bool)
    requires forall p :: p in s.storage ==> exists d :: d in s.documentos && d.url == p
    ensures var t := SubirDocumento(s, nombre, requerimientoId, clienteId, tipoDocumentoId, fechaVencimiento,
                                    versionRpc, timestamp, nuevoId, ahora, uploadOk, insertOk, removeOk).0;
      (insertOk || removeOk) ==> forall p :: p in t.storage ==> exists d :: d in t.documentos && d.url == p
  {
    var version := OrDefault(versionRpc, 1);
    var ruta := RutaSubida(clienteId, tipoDocumentoId, version, timestamp, nombre);
    GuardarSinHuerfanos(s, ruta, Documento(nuevoId, requerimientoId, ruta, nombre, version, Pendiente, None, ahora,
                                           fechaVencimiento, None, None, false), uploadOk, insertOk, removeOk);
  }

  /** The same for the steps of one upload. */
  lemma GuardarSinHuerfanos(s: Estado, ruta: string, doc: Documento, uploadOk: bool, insertOk: bool, removeOk: bool)
    requires doc.url == ruta
    requires forall p :: p in s.storage ==> exists d :: d in s.documentos && d.url == p
    ensures var t := Guardar(s, ruta, doc, uploadOk, insertOk, removeOk).0;
      (insertOk || removeOk) ==> forall p :: p in t.storage ==> exists d :: d in t.documentos && d.url == p
  {
    var r := Guardar(s, ruta, doc, uploadOk, insertOk, removeOk);
    if r.1.Some? {
      var t := r.0;
      forall p | p in t.storage ensures exists d :: d in t.documentos && d.url == p {
        if p in s.storage {
          var d :| d in s.documentos && d.url == p;
          assert d in t.documentos;
        } else {
          assert doc in t.documentos;
        }
      }
    }
  }

  /** When the insert and the removal after it both fail, the new path is
      stored with no row pointing at it. */
  lemma HuerfanoSiFallaLaLimpieza(s: Estado, ruta: string, doc: Documento)
    requires ruta !in s.storage && forall d :: d in s.documentos ==> d.url != ruta
    ensures var t := Guardar(s, ruta, doc, true, false, false).0;
      ruta in t.storage && forall d :: d in t.documentos ==> d.url != ruta
  {
  }

  /** A successful upload is listed among the pending documents. */
  lemma SubidoQuedaPendiente(s: Estado, nombre: string, requerimientoId: string, clienteId: string,
                             tipoDocumentoId: string, fechaVencimiento: Option<Day>,
                             versionRpc: Option<int>, timestamp: nat, nuevoId: string, ahora: Instant,
                             uploadOk: bool, insertOk: bool, removeOk: bool)
    ensures var r := SubirDocumento(s, nombre, requerimientoId, clienteId, tipoDocumentoId, fechaVencimiento,
                                    versionRpc, timestamp, nuevoId, ahora, uploadOk, insertOk, removeOk);
      r.1.Some? ==> r.1.value in ObtenerPendientes(r.0.documentos)
  {
    var r := SubirDocumento(s, nombre, requerimientoId, clienteId, tipoDocumentoId, fechaVencimiento,
                            versionRpc, timestamp, nuevoId, ahora, uploadOk, insertOk, removeOk);
    if r.1.Some? {
      assert r.1.value in r.0.documentos;
    }
  }

  // ---------------------------------------------------------------------
  // Approval and rejection
  // ---------------------------------------------------------------------

  /** The rows whose id is `id`, each replaced by `cambio` of it; the update
      answers the updated row when exactly one row matched (`.single()`). */
  function Actualizar(tabla: seq<Documento>, id: string, cambio: Documento -> Documento): (r: (seq<Documento>, Option<Documento>))
    ensures |r.0| == |tabla|
    ensures forall i :: 0 <= i < |tabla| ==> r.0[i] == if tabla[i].id == id then cambio(tabla[i]) else tabla[i]
    ensures r.1.Some? <==> Sorting.Count(tabla, (d: Documento) => d.id == id) == 1
    ensures r.1.Some? ==> exists i :: 0 <= i < |tabla| && tabla[i].id == id && r.1.value == r.0[i]
  {
    var p := (d: Documento) => d.id == id;
    var nueva := Sorting.UpdateWhere(tabla, p, cambio);
    var coincidencias := Sorting.Filter(tabla, p);
    if |coincidencias| == 1 then
      assert coincidencias[0] in tabla && p(coincidencias[0]);
      var i :| 0 <= i < |tabla| && tabla[i] == coincidencias[0];
      assert nueva[i] == cambio(coincidencias[0]);
      (nueva, Some(cambio(coincidencias[0])))
    else (nueva, None)
  }

  /** The change `aprobarDocumento` makes to a row: the state, the approver
      and the approval time; the expiry day only when one is given. */
  function Aprobacion(aprobadoPor: string, fechaVencimiento: Option<Day>, ahora: Instant): Documento -> Documento {
    (d: Documento) => d.(estado := Aprobado, aprobadoPor := Some(aprobadoPor), fechaAprobacion := Some(ahora),
                          fechaVencimiento := if fechaVencimiento.Some? then fechaVencimiento else d.fechaVencimiento)
  }

  /** `aprobarDocumento`. `updateOk` is the outcome of the update request:
      on an error nothing changes and the call throws (no answer). */
  function AprobarDocumento(tabla: seq<Documento>, id: string, aprobadoPor: string,
                            fechaVencimiento: Option<Day>, ahora: Instant, updateOk: bool): (r: (seq<Documento>, Option<Documento>))
    ensures !updateOk ==> r == (tabla, None)
    ensures |r.0| == |tabla|
    ensures forall i :: 0 <= i < |tabla| && tabla[i].id != id ==> r.0[i] == tabla[i]
    ensures updateOk ==> forall i :: 0 <= i < |tabla| && tabla[i].id == id ==>
      r.0[i].estado == Aprobado && r.0[i].aprobadoPor == Some(aprobadoPor) && r.0[i].fechaAprobacion == Some(ahora)
      && (fechaVencimiento.Some? ==> r.0[i].fechaVencimiento == fechaVencimiento)
      && (fechaVencimiento.None? ==> r.0[i].fechaVencimiento == tabla[i].fechaVencimiento)
      && r.0[i].(estado := tabla[i].estado, aprobadoPor := tabla[i].aprobadoPor,
                 fechaAprobacion := tabla[i].fechaAprobacion, fechaVencimiento := tabla[i].fechaVencimiento) == tabla[i]
    ensures r.1.Some? <==> updateOk && Sorting.Count(tabla, (d: Documento) => d.id == id) == 1
    ensures r.1.Some? ==> (r.1.value.id == id && r.1.value.estado == Aprobado
      && r.1.value.aprobadoPor == Some(aprobadoPor) && r.1.value.fechaAprobacion == Some(ahora))
  {
    if updateOk then Actualizar(tabla, id, Aprobacion(aprobadoPor, fechaVencimiento, ahora)) else (tabla, None)
  }

  /** `rechazarDocumento`: only the state and the reason change; on an
      update error nothing changes and there is no answer. */
  function RechazarDocumento(tabla: seq<Documento>, id: string, motivoRechazo: string, updateOk: bool): (r: (seq<Documento>, Option<Documento>))
    ensures !updateOk ==> r == (tabla, None)
    ensures |r.0| == |tabla|
    ensures forall i :: 0 <= i < |tabla| && tabla[i].id != id ==> r.0[i] == tabla[i]
    ensures updateOk ==> forall i :: 0 <= i < |tabla| && tabla[i].id == id ==>
      r.0[i].estado == Rechazado && r.0[i].motivoRechazo == Some(motivoRechazo)
      && r.0[i].(estado := tabla[i].estado, motivoRechazo := tabla[i].motivoRechazo) == tabla[i]
    ensures r.1.Some? <==> updateOk && Sorting.Count(tabla, (d: Documento) => d.id == id) == 1
    ensures r.1.Some? ==> r.1.value.id == id && r.1.value.estado == Rechazado && r.1.value.motivoRechazo == Some(motivoRechazo)
  {
    if updateOk then Actualizar(tabla, id, (d: Documento) => d.(estado := Rechazado, motivoRechazo := Some(motivoRechazo)))
    else (tabla, None)
  }

  /** An approved document leaves the pending list. */
  lemma AprobadoSaleDePendientes(tabla: seq<Documento>, id: string, aprobadoPor: string,
                                 fechaVencimiento: Option<Day>, ahora: Instant)
    ensures forall d :: d in ObtenerPendientes(AprobarDocumento(tabla, id, aprobadoPor, fechaVencimiento, ahora, true).0) ==> d.id != id
  {
  }
}

=== FILE: edgevencimientos.dfy ===
/** The scheduled expiry job (supabase/functions/check-vencimientos/index.ts):
    the preflight answer, the cron-secret check, and for each document the
    platform notification and WhatsApp message it attempts. Insert and send
    outcomes are inputs, keyed by document id. */
module EdgeVencimientos {
  import opened Base
  import opened Text
  import opened Tablas
  import WhatsApp
  import CheckVencimientos

  /** The RPC look-ahead this job always uses, in days. */
  const DiasLimite: int := 30

  // ---------------------------------------------------------------------
  // Authorisation
  // ---------------------------------------------------------------------

  /** How a template literal renders an optional string: `undefined` when absent. */
  function Plantilla(s: Option<string>): string {
    if s.Some? then s.value else "undefined"
  }

  /** The check as written: the header must equal `Bearer ${CRON_SECRET}`. */
  predicate AutorizadoTalCual(authHeader: Option<string>, cronSecret: Option<string>) {
    authHeader == Some("Bearer " + Plantilla(cronSecret))
  }

  /** With `CRON_SECRET` unset, the literal header `Bearer undefined` passes. */
  lemma SecretoAusenteAceptado()
    ensures AutorizadoTalCual(Some("Bearer undefined"), None)
  {
    assert "Bearer " + "undefined" == "Bearer undefined";
  }

  /** The check as intended: a configured, non-empty secret, presented exactly. */
  predicate Autorizado(authHeader: Option<string>, cronSecret: Option<string>) {
    NonEmpty(cronSecret).Some? && authHeader == Some("Bearer " + cronSecret.value)
  }

  /** The intended check admits exactly the requests the written one admits
      while a secret is configured, and none while it is not. */
  lemma AutorizadoCorrige(authHeader: Option<string>, cronSecret: Option<string>)
    ensures NonEmpty(cronSecret).Some? ==> (Autorizado(authHeader, cronSecret) <==> AutorizadoTalCual(authHeader, cronSecret))
    ensures NonEmpty(cronSecret).None? ==> !Autorizado(authHeader, cronSecret)
    ensures Autorizado(authHeader, cronSecret) ==> AutorizadoTalCual(authHeader, cronSecret)
  {
  }

  // ---------------------------------------------------------------------
  // Per-document actions
  // ---------------------------------------------------------------------

  /** The client columns the job reads. */
  datatype ClienteEdge = ClienteEdge(whatsappContacto: Option<string>, notificarWhatsapp: Option<bool>,
                                     usuarioId: Option<string>, diasAnticipacion: Option<int>)

  /** What the job attempts for one document. */
  datatype Accion =
    | CrearNotificacion(usuarioId: string, documentoId: string, diasRestantes: int)
    | EnviarWhatsApp(to: string, documentoId: string)

  /** The attempts, and how many of each kind succeeded. */
  datatype Resumen = Resumen(acciones: seq<Accion>, notificacionesEnviadas: nat, whatsappEnviados: nat)

  predicate DentroDelAviso(clientes: map<string, ClienteEdge>, d: CheckVencimientos.DocProximo) {
    d.clienteId in clientes
    && d.diasRestantes <= OrDefault(clientes[d.clienteId].diasAnticipacion, CheckVencimientos.AnticipacionPorDefecto)
  }

  predicate QuiereWhatsApp(c: ClienteEdge) {
    c.notificarWhatsapp == Some(true) && NonEmpty(c.whatsappContacto).Some?
  }

  /** One document: nothing for an unknown client or one beyond its notice;
      otherwise a notification when the client has a user, and a WhatsApp
      message when the client opted in, has a number and Twilio is configured. */
  function ProcesarUno(clientes: map<string, ClienteEdge>, twilio: WhatsApp.Twilio,
                       insertOk: string -> bool, envioOk: string -> bool,
                       d: CheckVencimientos.DocProximo): (r: Resumen)
    ensures !DentroDelAviso(clientes, d) ==> r == Resumen([], 0, 0)
    ensures DentroDelAviso(clientes, d) ==>
      var c := clientes[d.clienteId];
      var notifica := NonEmpty(c.usuarioId).Some?;
      var envia := QuiereWhatsApp(c) && WhatsApp.Configurada(twilio);
      |r.acciones| == (if notifica then 1 else 0) + (if envia then 1 else 0)
      && (notifica ==> r.acciones[0] == CrearNotificacion(c.usuarioId.value, d.documentoId, d.diasRestantes))
      && (envia ==> r.acciones[|r.acciones| - 1] == EnviarWhatsApp(WhatsApp.ToWhatsApp(c.whatsappContacto.value), d.documentoId))
    ensures forall k :: 0 <= k < |r.acciones| ==> r.acciones[k].documentoId == d.documentoId
    ensures forall k :: 0 <= k < |r.acciones| && r.acciones[k].EnviarWhatsApp? ==> StartsWith(r.acciones[k].to, WhatsApp.Prefijo)
    ensures r.notificacionesEnviadas <= 1 && r.whatsappEnviados <= 1
    ensures r.notificacionesEnviadas == 1 <==> DentroDelAviso(clientes, d) && NonEmpty(clientes[d.clienteId].usuarioId).Some? && insertOk(d.documentoId)
    ensures r.whatsappEnviados == 1 <==>
      DentroDelAviso(clientes, d) && QuiereWhatsApp(clientes[d.clienteId]) && WhatsApp.Configurada(twilio) && envioOk(d.documentoId)
  {
    if !DentroDelAviso(clientes, d) then Resumen([], 0, 0)
    else
      var c := clientes[d.clienteId];
      var notif := if NonEmpty(c.usuarioId).Some? then [CrearNotificacion(c.usuarioId.value, d.documentoId, d.diasRestantes)] else [];
      var nOk: nat := if NonEmpty(c.usuarioId).Some? && insertOk(d.documentoId) then 1 else 0;
      var envia := QuiereWhatsApp(c) && WhatsApp.Configurada(twilio);
      var wa := if envia then [EnviarWhatsApp(WhatsApp.ToWhatsApp(c.whatsappContacto.value), d.documentoId)] else [];
      var wOk: nat := if envia && envioOk(d.documentoId) then 1 else 0;
      assert notif + wa == if |notif| == 0 then wa else [notif[0]] + wa;
      Resumen(notif + wa, nOk, wOk)
  }

  function Sumar(a: Resumen, b: Resumen): Resumen {
    Resumen(a.acciones + b.acciones, a.notificacionesEnviadas + b.notificacionesEnviadas, a.whatsappEnviados + b.whatsappEnviados)
  }

  /** The loop over every document; a failed insert or send is logged and the
      loop goes on. */
  function Procesar(clientes: map<string, ClienteEdge>, twilio: WhatsApp.Twilio,
                    insertOk: string -> bool, envioOk: string -> bool,
                    docs: seq<CheckVencimientos.DocProximo>): (r: Resumen)
    ensures r.notificacionesEnviadas <= |docs| && r.whatsappEnviados <= |docs|
    decreases |docs|
  {
    if |docs| == 0 then Resumen([], 0, 0)
    else Sumar(ProcesarUno(clientes, twilio, insertOk, envioOk, docs[0]),
               Procesar(clientes, twilio, insertOk, envioOk, docs[1..]))
  }

  /** No failure aborts the run: processing two batches one after the other
      is processing them together, so what a document gets does not depend on
      how any earlier attempt fared. */
  lemma {:induction false} ProcesarConcatena(clientes: map<string, ClienteEdge>, twilio: WhatsApp.Twilio,
                                             insertOk: string -> bool, envioOk: string -> bool,
                                             a: seq<CheckVencimientos.DocProximo>, b: seq<CheckVencimientos.DocProximo>)
    ensures Procesar(clientes, twilio, insertOk, envioOk, a + b)
      == Sumar(Procesar(clientes, twilio, insertOk, envioOk, a), Procesar(clientes, twilio, insertOk, envioOk, b))
    decreases |a|
  {
    if |a| == 0 {
      assert a + b == b;
    } else {
      assert (a + b)[1..] == a[1..] + b;
      assert (a + b)[0] == a[0];
      ProcesarConcatena(clientes, twilio, insertOk, envioOk, a[1..], b);
      var u := ProcesarUno(clientes, twilio, insertOk, envioOk, a[0]);
      var ra := Procesar(clientes, twilio, insertOk, envioOk, a[1..]);
      var rb := Procesar(clientes, twilio, insertOk, envioOk, b);
      var rab := Procesar(clientes, twilio, insertOk, envioOk, a[1..] + b);
      assert Procesar(clientes, twilio, insertOk, envioOk, a + b) == Sumar(u, rab);
      assert Procesar(clientes, twilio, insertOk, envioOk, a) == Sumar(u, ra);
      SumarAsociativa(u, ra, rb);
    }
  }

  lemma SumarAsociativa(x: Resumen, y: Resumen, z: Resumen)
    ensures Sumar(Sumar(x, y), z) == Sumar(x, Sumar(y, z))
  {
    assert (x.acciones + y.acciones) + z.acciones == x.acciones + (y.acciones + z.acciones);
  }

  /** `a` is for some document of `docs` within its client's notice. */
  ghost predicate DeUnDocumentoAvisable(clientes: map<string, ClienteEdge>, docs: seq<CheckVencimientos.DocProximo>, a: Accion) {
    exists i :: 0 <= i < |docs| && DentroDelAviso(clientes, docs[i]) && docs[i].documentoId == a.documentoId
  }

  /** Every attempted action is for a document within its client's notice. */
  lemma {:induction false} SoloDentroDelAviso(clientes: map<string, ClienteEdge>, twilio: WhatsApp.Twilio,
                                              insertOk: string -> bool, envioOk: string -> bool,
                                              docs: seq<CheckVencimientos.DocProximo>)
    ensures forall a :: a in Procesar(clientes, twilio, insertOk, envioOk, docs).acciones ==> DeUnDocumentoAvisable(clientes, docs, a)
    decreases |docs|
  {
    if |docs| > 0 {
      SoloDentroDelAviso(clientes, twilio, insertOk, envioOk, docs[1..]);
      var uno := ProcesarUno(clientes, twilio, insertOk, envioOk, docs[0]);
      var resto := Procesar(clientes, twilio, insertOk, envioOk, docs[1..]);
      var r := Procesar(clientes, twilio, insertOk, envioOk, docs);
      assert r.acciones == uno.acciones + resto.acciones;
      forall a | a in r.acciones ensures DeUnDocumentoAvisable(clientes, docs, a) {
        if a in uno.acciones {
          assert DentroDelAviso(clientes, docs[0]);
          assert docs[0].documentoId == a.documentoId;
        } else {
          assert a in resto.acciones;
          var i :| 0 <= i < |docs[1..]| && DentroDelAviso(clientes, docs[1..][i]) && docs[1..][i].documentoId == a.documentoId;
          assert docs[i + 1] == docs[1..][i];
        }
      }
    } else {
      assert Procesar(clientes, twilio, insertOk, envioOk, docs).acciones == [];
    }
  }

  // ---------------------------------------------------------------------
  // The handler
  // ---------------------------------------------------------------------

  datatype Metodo = Options | Post

  /** The job's answer: the status and, on success, the counts it reports. */
  datatype Respuesta =
    | Preflight                       // `ok`
    | Error(status: int)
    | Hecho(documentosEncontrados: nat, resumen: Resumen)

  /** The handler, with the intended authorisation. */
  function Atender(metodo: Metodo, authHeader: Option<string>, cronSecret: Option<string>,
                   rpc: CheckVencimientos.Rpc, clientes: map<string, ClienteEdge>, twilio: WhatsApp.Twilio,
                   insertOk: string -> bool, envioOk: string -> bool): (r: Respuesta)
    ensures metodo == Options <==> r == Preflight
    ensures metodo == Post && !Autorizado(authHeader, cronSecret) ==> r == Error(401)
    ensures metodo == Post && Autorizado(authHeader, cronSecret) && rpc.RpcError? ==> r == Error(500)
    ensures metodo == Post && Autorizado(authHeader, cronSecret) && rpc.RpcOk? ==>
      var filas := if rpc.filas.None? then [] else rpc.filas.value;
      r.Hecho? && r.documentosEncontrados == |filas|
      && r.resumen == Procesar(clientes, twilio, insertOk, envioOk, filas)
    ensures r.Hecho? ==>
      (r.resumen.notificacionesEnviadas <= r.documentosEncontrados
       && r.resumen.whatsappEnviados <= r.documentosEncontrados)
    ensures r.Hecho? && r.documentosEncontrados == 0 ==> r.resumen == Resumen([], 0, 0)
  {
    if metodo == Options then Preflight
    else if !Autorizado(authHeader, cronSecret) then Error(401)
    else
      match rpc
      case RpcError => Error(500)
      case RpcOk(filas) =>
        if filas.None? || |filas.value| == 0 then Hecho(0, Resumen([], 0, 0))
        else Hecho(|filas.value|, Procesar(clientes, twilio, insertOk, envioOk, filas.value))
  }

  /** The handler as written differs only in the check: it lets the request
      with `Bearer undefined` through when no secret is configured. */
  function AtenderTalCual(metodo: Metodo, authHeader: Option<string>, cronSecret: Option<string>,
                          rpc: CheckVencimientos.Rpc, clientes: map<string, ClienteEdge>, twilio: WhatsApp.Twilio,
                          insertOk: string -> bool, envioOk: string -> bool): (r: Respuesta)
    ensures metodo == Post && !AutorizadoTalCual(authHeader, cronSecret) ==> r == Error(401)
    ensures metodo == Post && cronSecret.None? && authHeader == Some("Bearer undefined") ==> r != Error(401)
    ensures NonEmpty(cronSecret).Some? ==>
      r == Atender(metodo, authHeader, cronSecret, rpc, clientes, twilio, insertOk, envioOk)
  {
    AutorizadoCorrige(authHeader, cronSecret);
    SecretoAusenteAceptado();
    if metodo == Options then Preflight
    else if !AutorizadoTalCual(authHeader, cronSecret) then Error(401)
    else
      match rpc
      case RpcError => Error(500)
      case RpcOk(filas) =>
        if filas.None? || |filas.value| == 0 then Hecho(0, Resumen([], 0, 0))
        else Hecho(|filas.value|, Procesar(clientes, twilio, insertOk, envioOk, filas.value))
  }
}

=== FILE: estadisticas.dfy ===
/** The reviewer statistics (src/services/estadisticas.service.ts): overall
    and per-client compliance, the per-client average approval time with
    its fastest and slowest lists, and the overdue documents. Percentages
    and averages are kept in tenths, the one decimal `Math.round(x * 10) / 10`
    leaves. */
module Estadisticas {
  import opened Base
  import opened Tablas
  import Sorting
  import Documentos

  /** `Math.round(1000 * c / t)`: a ratio as a percentage in tenths, rounded
      half up. */
  function Decimas(c: int, t: int): (p: int)
    requires t > 0
    ensures 2 * t * p <= 2000 * c + t < 2 * t * (p + 1)
    ensures 0 <= c <= t ==> 0 <= p <= 1000
    ensures c == t ==> p == 1000
    ensures c == 0 ==> p == 0
  {
    CocienteEntre(2000 * c + t, 2 * t, 1000);
    CocienteEntre(2000 * c + t, 2 * t, 0);
    (2000 * c + t) / (2 * t)
  }

  // ---------------------------------------------------------------------
  // Overall compliance
  // ---------------------------------------------------------------------

  datatype CumplimientoTotal = CumplimientoTotal(porcentajeDecimas: int, totalRequerimientos: nat, requerimientosCumplidos: nat)

  /** A document that fulfils its requirement: approved and not deleted. */
  predicate Vale(d: Documento) {
    d.estado == Aprobado && !d.eliminado
  }

  /** The requirement ids some approved, non-deleted document is on. */
  function RequerimientosConAprobado(documentos: seq<Documento>): (ids: set<string>)
    ensures forall id :: id in ids <==> exists i :: 0 <= i < |documentos| && Vale(documentos[i]) && documentos[i].requerimientoId == id
  {
    set i | 0 <= i < |documentos| && Vale(documentos[i]) :: documentos[i].requerimientoId
  }

  /** The ids of a requirements table. */
  function IdsRequerimientos(requerimientos: seq<Requerimiento>): set<string>
  {
    set i | 0 <= i < |requerimientos| :: requerimientos[i].id
  }

  /** `obtenerCumplimientoTotal`: every requirement row counts (mandatory
      or not, of any client), and a requirement is fulfilled when some
      approved, non-deleted document is on it. */
  function ObtenerCumplimientoTotal(requerimientos: seq<Requerimiento>, documentos: seq<Documento>): (r: CumplimientoTotal)
    ensures r.totalRequerimientos == |requerimientos|
    ensures r.requerimientosCumplidos == |RequerimientosConAprobado(documentos)|
    ensures |requerimientos| == 0 ==> r.porcentajeDecimas == 0
    ensures |requerimientos| > 0 ==>
      2 * r.totalRequerimientos * r.porcentajeDecimas <= 2000 * r.requerimientosCumplidos + r.totalRequerimientos
      < 2 * r.totalRequerimientos * (r.porcentajeDecimas + 1)
  {
    var total := |requerimientos|;
    var cumplidos := |RequerimientosConAprobado(documentos)|;
    CumplimientoTotal(if total > 0 then Decimas(cumplidos, total) else 0, total, cumplidos)
  }

  /** When every document belongs to a row of the table (the foreign key),
      no more requirements are fulfilled than exist and the percentage is
      at most 100. */
  lemma TotalAcotado(requerimientos: seq<Requerimiento>, documentos: seq<Documento>)
    requires forall i :: 0 <= i < |documentos| ==> documentos[i].requerimientoId in IdsRequerimientos(requerimientos)
    ensures var r := ObtenerCumplimientoTotal(requerimientos, documentos);
      r.requerimientosCumplidos <= r.totalRequerimientos && 0 <= r.porcentajeDecimas <= 1000
  {
    var a := RequerimientosConAprobado(documentos);
    var b := IdsRequerimientos(requerimientos);
    assert a <= b;
    SubconjuntoMenor(a, b);
    CardinalIds(requerimientos);
  }

  lemma {:induction false} SubconjuntoMenor(a: set<string>, b: set<string>)
    requires a <= b
    ensures |a| <= |b|
    decreases |a|
  {
    if a != {} {
      var x :| x in a;
      SubconjuntoMenor(a - {x}, b - {x});
    }
  }

  /** A table has at most as many distinct ids as rows. */
  lemma {:induction false} CardinalIds(requerimientos: seq<Requerimiento>)
    ensures |IdsRequerimientos(requerimientos)| <= |requerimientos|
  {
    if |requerimientos| > 0 {
      var n := |requerimientos| - 1;
      var previo := requerimientos[..n];
      CardinalIds(previo);
      assert IdsRequerimientos(requerimientos) == IdsRequerimientos(previo) + {requerimientos[n].id} by {
        forall id ensures id in IdsRequerimientos(requerimientos) <==> id in IdsRequerimientos(previo) + {requerimientos[n].id} {
          if id in IdsRequerimientos(requerimientos) && id != requerimientos[n].id {
            var i :| 0 <= i < |requerimientos| && requerimientos[i].id == id;
            assert previo[i].id == id;
          }
          if id in IdsRequerimientos(previo) {
            var i :| 0 <= i < |previo| && previo[i].id == id;
            assert requerimientos[i].id == id;
          }
        }
      }
    }
  }

  // ---------------------------------------------------------------------
  // Compliance per client
  // ---------------------------------------------------------------------

  /** A requirement with its documents, as the nested select returns it. */
  datatype ReqConDocumentos = ReqConDocumentos(id: string, documentos: seq<Documento>)

  /** A client with its requirements. */
  datatype ClienteConReqs = ClienteConReqs(id: string, nombreEmpresa: string, activo: bool, requerimientos: seq<ReqConDocumentos>)

  datatype CumplimientoCliente = CumplimientoCliente(
    clienteId: string, clienteNombre: string, totalRequerimientos: nat, requerimientosCumplidos: nat, porcentajeDecimas: int)

  /** Some document on the requirement is approved and not deleted. */
  predicate ReqCumplido(r: ReqConDocumentos) {
    exists i :: 0 <= i < |r.documentos| && Vale(r.documentos[i])
  }

  /** The entry of one client. */
  function CumplimientoDe(c: ClienteConReqs): (r: CumplimientoCliente)
    ensures r.clienteId == c.id && r.clienteNombre == c.nombreEmpresa
    ensures r.totalRequerimientos == |c.requerimientos|
    ensures r.requerimientosCumplidos == Sorting.Count(c.requerimientos, ReqCumplido)
    ensures r.requerimientosCumplidos <= r.totalRequerimientos
    ensures 0 <= r.porcentajeDecimas <= 1000
    ensures r.totalRequerimientos > 0 ==>
      var t := r.totalRequerimientos;
      2 * t * r.porcentajeDecimas <= 2000 * r.requerimientosCumplidos + t < 2 * t * (r.porcentajeDecimas + 1)
    ensures r.totalRequerimientos == 0 || r.requerimientosCumplidos == 0 ==> r.porcentajeDecimas == 0
    ensures r.totalRequerimientos > 0 && r.requerimientosCumplidos == r.totalRequerimientos ==> r.porcentajeDecimas == 1000
  {
    var total := |c.requerimientos|;
    var cumplidos := Sorting.Count(c.requerimientos, ReqCumplido);
    CumplimientoCliente(c.id, c.nombreEmpresa, total, cumplidos, if total > 0 then Decimas(cumplidos, total) else 0)
  }

  function Porcentaje(c: CumplimientoCliente): int { c.porcentajeDecimas }

  predicate Activo(c: ClienteConReqs) { c.activo }

  /** One entry per client, in order. */
  function Entradas(clientes: seq<ClienteConReqs>): (r: seq<CumplimientoCliente>)
    ensures |r| == |clientes|
    ensures forall i :: 0 <= i < |clientes| ==> r[i] == CumplimientoDe(clientes[i])
  {
    seq(|clientes|, i requires 0 <= i < |clientes| => CumplimientoDe(clientes[i]))
  }

  /** `obtenerCumplimientoPorCliente`: one entry per active client, highest
      percentage first. */
  function ObtenerCumplimientoPorCliente(clientes: seq<ClienteConReqs>): (r: seq<CumplimientoCliente>)
    ensures |r| == Sorting.Count(clientes, Activo)
    ensures forall c :: c in clientes && c.activo ==> CumplimientoDe(c) in r
    ensures forall e :: e in r ==> exists c :: c in clientes && c.activo && e == CumplimientoDe(c)
    ensures Sorting.SortedDescBy(r, Porcentaje)
  {
    var activos := Sorting.Filter(clientes, Activo);
    var r := Sorting.SortDescBy(Entradas(activos), Porcentaje);
    EntradasDeActivos(clientes, activos, r);
    r
  }

  lemma EntradasDeActivos(clientes: seq<ClienteConReqs>, activos: seq<ClienteConReqs>, r: seq<CumplimientoCliente>)
    requires activos == Sorting.Filter(clientes, Activo)
    requires multiset(r) == multiset(Entradas(activos))
    ensures forall c :: c in clientes && c.activo ==> CumplimientoDe(c) in r
    ensures forall e :: e in r ==> exists c :: c in clientes && c.activo && e == CumplimientoDe(c)
  {
    var entradas := Entradas(activos);
    Sorting.FilterMembers(clientes, Activo);
    Sorting.SortMembers(entradas, r);
    forall c | c in clientes && c.activo ensures CumplimientoDe(c) in r {
      EntradaDeActivo(activos, c);
    }
    forall e | e in r ensures exists c :: c in clientes && c.activo && e == CumplimientoDe(c) {
      ActivoDeEntrada(activos, e);
    }
  }

  lemma EntradaDeActivo(activos: seq<ClienteConReqs>, c: ClienteConReqs)
    requires c in activos
    ensures CumplimientoDe(c) in Entradas(activos)
  {
    var i :| 0 <= i < |activos| && activos[i] == c;
    assert Entradas(activos)[i] == CumplimientoDe(c);
  }

  lemma ActivoDeEntrada(activos: seq<ClienteConReqs>, e: CumplimientoCliente)
    requires e in Entradas(activos)
    ensures exists c :: c in activos && e == CumplimientoDe(c)
  {
    var entradas := Entradas(activos);
    var i :| 0 <= i < |entradas| && entradas[i] == e;
    assert activos[i] in activos;
  }

  /** Every entry has at most as many fulfilled requirements as it has
      requirements, and a percentage between 0 and 100. */
  lemma EntradasAcotadas(clientes: seq<ClienteConReqs>)
    ensures forall e :: e in ObtenerCumplimientoPorCliente(clientes) ==>
      e.requerimientosCumplidos <= e.totalRequerimientos && 0 <= e.porcentajeDecimas <= 1000
  {
  }

  // ---------------------------------------------------------------------
  // Approval time per client
  // ---------------------------------------------------------------------

  /** The client a document's requirement belongs to. */
  datatype ClienteRef = ClienteRef(id: string, nombreEmpresa: string)

  /** A document row with its client as the nested select returns it; the
      client may be missing. */
  datatype DocConCliente = DocConCliente(documento: Documento, cliente: Option<ClienteRef>)

  /** A row the loop accumulates: approved, not deleted, with an approval
      date (the query's filters) and a client. */
  predicate Cuenta(d: DocConCliente) {
    Vale(d.documento) && d.documento.fechaAprobacion.Some? && d.cliente.Some?
  }

  /** Whole days from upload to approval, rounded down. */
  function DiasAprobacion(d: Documento): (dias: int)
    requires d.fechaAprobacion.Some?
    ensures dias * MsPerDay <= d.fechaAprobacion.value - d.fechaCarga < (dias + 1) * MsPerDay
  {
    (d.fechaAprobacion.value - d.fechaCarga) / MsPerDay
  }

  /** The accumulator of one client: the name seen first, the sum of days
      and the number of documents. */
  datatype Tiempos = Tiempos(clienteId: string, nombre: string, totalDias: int, totalDocs: nat)

  /** The position of a client in the accumulator (`Map.has` / `get`). */
  function IndiceDe(acc: seq<Tiempos>, id: string): (r: Option<nat>)
    ensures r.Some? ==> r.value < |acc| && acc[r.value].clienteId == id
    ensures r.None? <==> forall i :: 0 <= i < |acc| ==> acc[i].clienteId != id
  {
    if |acc| == 0 then None
    else if acc[0].clienteId == id then Some(0)
    else
      var r := IndiceDe(acc[1..], id);
      if r.Some? then Some(r.value + 1) else None
  }

  /** One document added to the accumulator: a new client goes last (a
      `Map` keeps insertion order), a known one has its sums increased. */
  function Agregar(acc: seq<Tiempos>, c: ClienteRef, dias: int): seq<Tiempos>
  {
    match IndiceDe(acc, c.id)
    case Some(i) => acc[i := acc[i].(totalDias := acc[i].totalDias + dias, totalDocs := acc[i].totalDocs + 1)]
    case None => acc + [Tiempos(c.id, c.nombreEmpresa, dias, 1)]
  }

  /** The loop of `obtenerClientesMasRapidos` / `MasLentos` over the rows. */
  function Acumular(docs: seq<DocConCliente>): seq<Tiempos>
  {
    if |docs| == 0 then []
    else
      var acc := Acumular(docs[..|docs| - 1]);
      var d := docs[|docs| - 1];
      if Cuenta(d) then Agregar(acc, d.cliente.value, DiasAprobacion(d.documento)) else acc
  }

  /** The reference count: rows of a client that the loop accumulates. */
  function DocsDe(docs: seq<DocConCliente>, id: string): nat
  {
    if |docs| == 0 then 0
    else
      var d := docs[|docs| - 1];
      DocsDe(docs[..|docs| - 1], id) + (if Cuenta(d) && d.cliente.value.id == id then 1 else 0)
  }

  /** The reference sum: the approval days of those rows. */
  function DiasDe(docs: seq<DocConCliente>, id: string): int
  {
    if |docs| == 0 then 0
    else
      var d := docs[|docs| - 1];
      DiasDe(docs[..|docs| - 1], id) + (if Cuenta(d) && d.cliente.value.id == id then DiasAprobacion(d.documento) else 0)
  }

  /** No client appears twice in the accumulator. */
  ghost predicate ClavesUnicas(acc: seq<Tiempos>) {
    forall i, j :: 0 <= i < j < |acc| ==> acc[i].clienteId != acc[j].clienteId
  }

  /** Each entry holds its client's reference count and sum. */
  ghost predicate Totales(docs: seq<DocConCliente>, acc: seq<Tiempos>) {
    forall i :: 0 <= i < |acc| ==>
      acc[i].totalDocs == DocsDe(docs, acc[i].clienteId) >= 1
      && acc[i].totalDias == DiasDe(docs, acc[i].clienteId)
  }

  /** The clients in the accumulator are those with a counted row. */
  ghost predicate Cubre(docs: seq<DocConCliente>, acc: seq<Tiempos>) {
    forall id :: IndiceDe(acc, id).None? <==> DocsDe(docs, id) == 0
  }

  /** A client with no counted row has a sum of 0 days. */
  lemma {:induction false} SinDocsSinDias(docs: seq<DocConCliente>, id: string)
    ensures DocsDe(docs, id) == 0 ==> DiasDe(docs, id) == 0
  {
    if |docs| > 0 {
      SinDocsSinDias(docs[..|docs| - 1], id);
    }
  }

  /** What the accumulator holds after the loop. */
  ghost predicate AcumuladoCorrecto(docs: seq<DocConCliente>, acc: seq<Tiempos>) {
    ClavesUnicas(acc) && Totales(docs, acc) && Cubre(docs, acc)
  }

  /** The accumulator has one entry per client with at least one counted
      row, holding exactly that client's count and sum of days; rows
      without a client are skipped. */
  lemma {:induction false} AcumularCorrecto(docs: seq<DocConCliente>)
    ensures AcumuladoCorrecto(docs, Acumular(docs))
  {
    if |docs| > 0 {
      var previo := docs[..|docs| - 1];
      var d := docs[|docs| - 1];
      AcumularCorrecto(previo);
      var acc := Acumular(previo);
      if Cuenta(d) {
        var c := d.cliente.value;
        var dias := DiasAprobacion(d.documento);
        assert forall id :: DocsDe(docs, id) == DocsDe(previo, id) + (if id == c.id then 1 else 0);
        assert forall id :: DiasDe(docs, id) == DiasDe(previo, id) + (if id == c.id then dias else 0);
        match IndiceDe(acc, c.id)
        case Some(k) => AgregarConocido(previo, docs, acc, c, dias, k);
        case None => AgregarNuevo(previo, docs, acc, c, dias);
      } else {
        assert forall id :: DocsDe(docs, id) == DocsDe(previo, id);
        assert forall id :: DiasDe(docs, id) == DiasDe(previo, id);
      }
    }
  }

  /** A row of a client already in the accumulator adds to that entry only. */
  lemma AgregarConocido(previo: seq<DocConCliente>, docs: seq<DocConCliente>, acc: seq<Tiempos>, c: ClienteRef, dias: int, k: nat)
    requires AcumuladoCorrecto(previo, acc)
    requires IndiceDe(acc, c.id) == Some(k)
    requires forall id :: DocsDe(docs, id) == DocsDe(previo, id) + (if id == c.id then 1 else 0)
    requires forall id :: DiasDe(docs, id) == DiasDe(previo, id) + (if id == c.id then dias else 0)
    ensures AcumuladoCorrecto(docs, Agregar(acc, c, dias))
  {
    var r := Agregar(acc, c, dias);
    assert |r| == |acc|;
    assert forall i :: 0 <= i < |r| ==> r[i].clienteId == acc[i].clienteId;
    assert ClavesUnicas(r);
    assert Totales(docs, r) by {
      forall i | 0 <= i < |r|
        ensures r[i].totalDocs == DocsDe(docs, r[i].clienteId) >= 1 && r[i].totalDias == DiasDe(docs, r[i].clienteId)
      {
        assert i != k ==> acc[i].clienteId != c.id;
      }
    }
    assert Cubre(docs, r) by {
      forall id ensures IndiceDe(r, id).None? <==> DocsDe(docs, id) == 0 {
        assert IndiceDe(r, id).None? <==> IndiceDe(acc, id).None?;
      }
    }
  }

  /** A row of a new client appends an entry with one document. */
  lemma AgregarNuevo(previo: seq<DocConCliente>, docs: seq<DocConCliente>, acc: seq<Tiempos>, c: ClienteRef, dias: int)
    requires AcumuladoCorrecto(previo, acc)
    requires IndiceDe(acc, c.id).None?
    requires forall id :: DocsDe(docs, id) == DocsDe(previo, id) + (if id == c.id then 1 else 0)
    requires forall id :: DiasDe(docs, id) == DiasDe(previo, id) + (if id == c.id then dias else 0)
    ensures AcumuladoCorrecto(docs, Agregar(acc, c, dias))
  {
    var r := Agregar(acc, c, dias);
    var n := |acc|;
    assert r == acc + [Tiempos(c.id, c.nombreEmpresa, dias, 1)];
    assert forall i :: 0 <= i < n ==> r[i] == acc[i] && acc[i].clienteId != c.id;
    assert ClavesUnicas(r);
    assert DocsDe(previo, c.id) == 0;
    SinDocsSinDias(previo, c.id);
    assert Totales(docs, r) by {
      forall i | 0 <= i < |r|
        ensures r[i].totalDocs == DocsDe(docs, r[i].clienteId) >= 1 && r[i].totalDias == DiasDe(docs, r[i].clienteId)
      {
        if i < n {
          assert r[i] == acc[i];
        } else {
          assert r[i] == Tiempos(c.id, c.nombreEmpresa, dias, 1);
        }
      }
    }
    assert Cubre(docs, r) by {
      forall id ensures IndiceDe(r, id).None? <==> DocsDe(docs, id) == 0 {
        assert r[n].clienteId == c.id;
        assert IndiceDe(r, id).None? <==> IndiceDe(acc, id).None? && id != c.id;
      }
    }
  }

  /** A client's line of the answer. */
  datatype TiempoRespuestaCliente = TiempoRespuestaCliente(clienteId: string, clienteNombre: string, diasPromedioDecimas: int, totalDocumentos: nat)

  /** `Math.round(totalDias / totalDocs * 10)`: the average in tenths of a day,
      rounded half up. */
  function Promedio(t: Tiempos): (p: int)
    requires t.totalDocs >= 1
    ensures 2 * t.totalDocs * p <= 20 * t.totalDias + t.totalDocs < 2 * t.totalDocs * (p + 1)
  {
    CocienteEntre(20 * t.totalDias + t.totalDocs, 2 * t.totalDocs, 0);
    (20 * t.totalDias + t.totalDocs) / (2 * t.totalDocs)
  }

  /** The accumulator turned into answer lines, in insertion order. */
  function TiemposPorCliente(docs: seq<DocConCliente>): (r: seq<TiempoRespuestaCliente>)
    ensures forall e :: e in r ==> e.totalDocumentos == DocsDe(docs, e.clienteId) >= 1
    ensures forall e :: e in r ==>
      (2 * e.totalDocumentos * e.diasPromedioDecimas <= 20 * DiasDe(docs, e.clienteId) + e.totalDocumentos
        < 2 * e.totalDocumentos * (e.diasPromedioDecimas + 1))
    ensures forall i, j :: 0 <= i < j < |r| ==> r[i].clienteId != r[j].clienteId
    ensures forall id :: DocsDe(docs, id) > 0 ==> exists i :: 0 <= i < |r| && r[i].clienteId == id
  {
    var acc := Acumular(docs);
    AcumularCorrecto(docs);
    var r := seq(|acc|, i requires 0 <= i < |acc| =>
      TiempoRespuestaCliente(acc[i].clienteId, acc[i].nombre, Promedio(acc[i]), acc[i].totalDocs));
    forall id | DocsDe(docs, id) > 0 ensures exists i :: 0 <= i < |r| && r[i].clienteId == id {
      var k := IndiceDe(acc, id).value;
      assert r[k].clienteId == id;
    }
    r
  }

  function PromedioDe(t: TiempoRespuestaCliente): int { t.diasPromedioDecimas }

  /** The `limite` argument: 5 when omitted. */
  function Limite(limite: Option<int>): int
  {
    if limite.Some? then limite.value else 5
  }

  /** `obtenerClientesMasRapidos`: lowest average first, cut to `limite`:
      the `limite` fastest clients, none left out being faster than one kept. */
  function ObtenerClientesMasRapidos(docs: seq<DocConCliente>, limite: Option<int>): (r: seq<TiempoRespuestaCliente>)
    ensures Sorting.SortedBy(r, PromedioDe)
    ensures var n := |TiemposPorCliente(docs)|;
      Limite(limite) >= 0 ==> |r| == if Limite(limite) < n then Limite(limite) else n
    ensures var n := |TiemposPorCliente(docs)|;
      Limite(limite) < 0 ==> |r| == if n + Limite(limite) > 0 then n + Limite(limite) else 0
    ensures multiset(r) <= multiset(TiemposPorCliente(docs))
    ensures forall x, y :: x in TiemposPorCliente(docs) && x !in r && y in r ==> y.diasPromedioDecimas <= x.diasPromedioDecimas
    ensures Limite(limite) >= |TiemposPorCliente(docs)| ==> multiset(r) == multiset(TiemposPorCliente(docs))
  {
    var t := TiemposPorCliente(docs);
    var r := Sorting.SortTake(t, PromedioDe, Limite(limite));
    FueraDeLaSeleccion(t, r);
    r
  }

  /** `obtenerClientesMasLentos`: highest average first, cut to `limite`:
      the `limite` slowest clients, none left out being slower than one kept. */
  function ObtenerClientesMasLentos(docs: seq<DocConCliente>, limite: Option<int>): (r: seq<TiempoRespuestaCliente>)
    ensures Sorting.SortedDescBy(r, PromedioDe)
    ensures var n := |TiemposPorCliente(docs)|;
      Limite(limite) >= 0 ==> |r| == if Limite(limite) < n then Limite(limite) else n
    ensures var n := |TiemposPorCliente(docs)|;
      Limite(limite) < 0 ==> |r| == if n + Limite(limite) > 0 then n + Limite(limite) else 0
    ensures multiset(r) <= multiset(TiemposPorCliente(docs))
    ensures forall x, y :: x in TiemposPorCliente(docs) && x !in r && y in r ==> y.diasPromedioDecimas >= x.diasPromedioDecimas
    ensures Limite(limite) >= |TiemposPorCliente(docs)| ==> multiset(r) == multiset(TiemposPorCliente(docs))
  {
    var t := TiemposPorCliente(docs);
    var r := Sorting.SortDescTake(t, PromedioDe, Limite(limite));
    FueraDeLaSeleccion(t, r);
    r
  }

  /** A line of `t` missing from `r` is among the lines `t` has beyond `r`. */
  lemma FueraDeLaSeleccion(t: seq<TiempoRespuestaCliente>, r: seq<TiempoRespuestaCliente>)
    ensures forall x :: x in t && x !in r ==> x in multiset(t) - multiset(r)
  {
    forall x | x in t && x !in r ensures x in multiset(t) - multiset(r) {
      assert multiset(r)[x] == 0;
      assert x in multiset(t);
    }
  }

  /** With a limit covering every client, the two lists are the same
      clients in opposite orders: the first of one is a minimum, of the
      other a maximum. */
  lemma RapidosYLentos(docs: seq<DocConCliente>, limite: Option<int>)
    requires Limite(limite) >= |TiemposPorCliente(docs)|
    ensures multiset(ObtenerClientesMasRapidos(docs, limite)) == multiset(ObtenerClientesMasLentos(docs, limite))
    ensures var rapidos := ObtenerClientesMasRapidos(docs, limite);
      var lentos := ObtenerClientesMasLentos(docs, limite);
      |rapidos| > 0 ==> (PromedioDe(rapidos[0]) <= PromedioDe(rapidos[|rapidos| - 1])
        && PromedioDe(lentos[0]) >= PromedioDe(lentos[|lentos| - 1]))
  {
    var rapidos := ObtenerClientesMasRapidos(docs, limite);
    var lentos := ObtenerClientesMasLentos(docs, limite);
    assert |rapidos| == |multiset(rapidos)| == |multiset(lentos)| == |lentos|;
  }

  // ---------------------------------------------------------------------
  // Overdue documents
  // ---------------------------------------------------------------------

  datatype DocumentoVencido = DocumentoVencido(documento: Documento, fechaVencimiento: Day, diasVencido: int)

  /** `obtenerDocumentosVencidos`: the approved, non-deleted documents whose
      expiry day is before today's (UTC) date, earliest first, each with the
      whole days elapsed since its expiry's midnight. */
  function ObtenerDocumentosVencidos(tabla: seq<Documento>, now: Instant): (r: seq<DocumentoVencido>)
    ensures |r| == |Documentos.ObtenerVencidos(tabla, DayOf(now))|
    ensures forall i :: 0 <= i < |r| ==> r[i].documento == Documentos.ObtenerVencidos(tabla, DayOf(now))[i]
    ensures forall i :: 0 <= i < |r| ==> r[i].fechaVencimiento < DayOf(now) && r[i].diasVencido >= 1
    ensures forall i :: 0 <= i < |r| ==>
      r[i].diasVencido * MsPerDay <= now - StartOfDay(r[i].fechaVencimiento) < (r[i].diasVencido + 1) * MsPerDay
    ensures forall i, j :: 0 <= i < j < |r| ==> r[i].fechaVencimiento <= r[j].fechaVencimiento
  {
    var vencidos := Documentos.ObtenerVencidos(tabla, DayOf(now));
    VencidosConFecha(tabla, DayOf(now));
    MarcarVencidos(vencidos, now)
  }

  /** Each document of `v`, all expired before today, with its days overdue;
      an order by expiry day carries over. */
  function MarcarVencidos(v: seq<Documento>, now: Instant): (r: seq<DocumentoVencido>)
    requires forall i :: 0 <= i < |v| ==> v[i].fechaVencimiento.Some? && v[i].fechaVencimiento.value < DayOf(now)
    ensures |r| == |v|
    ensures forall i :: 0 <= i < |r| ==> r[i].documento == v[i] && r[i].fechaVencimiento == v[i].fechaVencimiento.value
    ensures forall i :: 0 <= i < |r| ==> r[i].diasVencido >= 1
    ensures forall i :: 0 <= i < |r| ==>
      r[i].diasVencido * MsPerDay <= now - StartOfDay(r[i].fechaVencimiento) < (r[i].diasVencido + 1) * MsPerDay
  {
    seq(|v|, i requires 0 <= i < |v| => Vencido(v[i], now))
  }

  /** Every expired document has an expiry day before `hoy`, and they come
      by ascending expiry day. */
  lemma VencidosConFecha(tabla: seq<Documento>, hoy: Day)
    ensures var v := Documentos.ObtenerVencidos(tabla, hoy);
      forall i :: 0 <= i < |v| ==> v[i].fechaVencimiento.Some? && v[i].fechaVencimiento.value < hoy
    ensures var v := Documentos.ObtenerVencidos(tabla, hoy);
      forall i, j :: 0 <= i < j < |v| ==> v[i].fechaVencimiento.value <= v[j].fechaVencimiento.value
  {
    var v := Documentos.ObtenerVencidos(tabla, hoy);
    forall i | 0 <= i < |v| ensures v[i].fechaVencimiento.Some? && v[i].fechaVencimiento.value < hoy {
      assert v[i] in v;
    }
    forall i, j | 0 <= i < j < |v|
      ensures v[i].fechaVencimiento.value <= v[j].fechaVencimiento.value
    {
      assert v[i] in v && v[j] in v;
      assert Documentos.DiaVencimiento(v[i]) <= Documentos.DiaVencimiento(v[j]);
    }
  }

  /** One expired document with the whole days elapsed since its expiry day
      began: at least one, because the day is before today's. */
  function Vencido(d: Documento, now: Instant): (v: DocumentoVencido)
    requires d.fechaVencimiento.Some? && d.fechaVencimiento.value < DayOf(now)
    ensures v.documento == d && v.fechaVencimiento == d.fechaVencimiento.value
    ensures v.diasVencido >= 1
    ensures v.diasVencido * MsPerDay <= now - StartOfDay(v.fechaVencimiento) < (v.diasVencido + 1) * MsPerDay
  {
    var fv := d.fechaVencimiento.value;
    var transcurrido := now - StartOfDay(fv);
    CocienteEntre(transcurrido, MsPerDay, 1);
    DiaAnteriorTranscurrido(fv, now);
    DocumentoVencido(d, fv, transcurrido / MsPerDay)
  }

  /** From the start of a day before today's, at least one whole day has passed. */
  lemma DiaAnteriorTranscurrido(fv: Day, now: Instant)
    requires fv < DayOf(now)
    ensures 1 * MsPerDay <= now - StartOfDay(fv)
  {
    MulMonotona(MsPerDay, fv + 1, DayOf(now));
  }
}

=== FILE: fechas.dfy ===
/** Expiry arithmetic on dates (src/lib/fechas.ts): days remaining, expired,
    about to expire, and the four-way expiry classification with its colour. */
module Fechas {
  import opened Base

  /** A parsed date argument: `parseISO` either yields an invalid date or an instant. */
  datatype Fecha = Invalida | Valida(t: Instant)

  /** The expiry classification of a document. */
  datatype EstadoVencimiento = Vigente | Proximo | Vencido | SinFecha

  /** The badge colour of a classification. */
  datatype Color = Success | Warning | Danger | Neutral

  /** The default window of "about to expire", in days. */
  const LimiteProximo: int := 30

  /** A stored `yyyy-mm-dd` column as `parseISO` reads it (its midnight). */
  function DeDia(d: Day): Fecha
  {
    Valida(StartOfDay(d))
  }

  /** Division truncating toward zero, as JavaScript's `Math.trunc(a / b)`. */
  function TruncDiv(a: int, b: int): (q: int)
    requires b > 0
    ensures a >= 0 ==> q >= 0 && q * b <= a < (q + 1) * b
    ensures a < 0 ==> q <= 0 && (q - 1) * b < a <= q * b
  {
    if a >= 0 then
      CocienteNat(a, b);
      a / b
    else
      CocienteNat(-a, b);
      NegarCotas(-a, b, (-a) / b);
      -((-a) / b)
  }

  lemma CocienteNat(n: int, b: int)
    requires n >= 0 && b > 0
    ensures n / b >= 0 && (n / b) * b <= n < (n / b + 1) * b
  {
    CocienteEntre(n, b, 0);
  }

  /** Negating both sides of `k * b <= n < (k + 1) * b`. */
  lemma NegarCotas(n: int, b: int, k: int)
    requires k * b <= n < (k + 1) * b
    ensures (-k - 1) * b < -n <= (-k) * b
  {
    assert (-k - 1) * b == -((k + 1) * b);
    assert (-k) * b == -(k * b);
  }

  /** `diasRestantes`: whole days from `now` to the date, truncated toward
      zero (`differenceInDays`); an invalid date counts as 0. */
  function DiasRestantes(f: Fecha, now: Instant): (r: int)
    ensures f.Invalida? ==> r == 0
    ensures f.Valida? ==> (r >= 1 <==> f.t - now >= MsPerDay)
    ensures f.Valida? ==> (r <= -1 <==> f.t - now <= -MsPerDay)
    ensures f.Valida? && f.t >= now ==> r * MsPerDay <= f.t - now < (r + 1) * MsPerDay
    ensures f.Valida? && f.t < now ==> (r - 1) * MsPerDay < f.t - now <= r * MsPerDay
  {
    match f
    case Invalida => 0
    case Valida(t) => TruncDiv(t - now, MsPerDay)
  }

  /** `estaVencido`: the date lies strictly before `now`; an invalid date never has. */
  function EstaVencido(f: Fecha, now: Instant): (r: bool)
    ensures r <==> f.Valida? && f.t < now
  {
    match f
    case Invalida => false
    case Valida(t) => t < now
  }

  /** `estaProximoVencer`: between one and `limite` whole days remain. */
  function EstaProximoVencer(f: Fecha, now: Instant, limite: int): (r: bool)
    ensures r <==> f.Valida? && now + MsPerDay <= f.t && f.t < now + (limite + 1) * MsPerDay
  {
    var dias := DiasRestantes(f, now);
    dias > 0 && dias <= limite
  }

  /** `obtenerEstadoVencimiento`: `None` is an empty or absent date. */
  function ObtenerEstadoVencimiento(f: Option<Fecha>, now: Instant): (e: EstadoVencimiento)
    ensures e == SinFecha <==> f.None?
    ensures e == Vencido <==> f.Some? && f.value.Valida? && f.value.t < now
    ensures e == Proximo <==>
      f.Some? && f.value.Valida? && now + MsPerDay <= f.value.t < now + (LimiteProximo + 1) * MsPerDay
    ensures e == Vigente <==>
      f.Some? && (f.value.Invalida? ||
        now <= f.value.t < now + MsPerDay || now + (LimiteProximo + 1) * MsPerDay <= f.value.t)
  {
    match f
    case None => SinFecha
    case Some(g) =>
      if EstaVencido(g, now) then Vencido
      else if EstaProximoVencer(g, now, LimiteProximo) then Proximo
      else Vigente
  }

  /** The colour of each classification (the `switch` of `obtenerColorVencimiento`). */
  function ColorDe(e: EstadoVencimiento): (c: Color)
    ensures c == Neutral <==> e == SinFecha
    ensures c == Success <==> e == Vigente
    ensures c == Warning <==> e == Proximo
    ensures c == Danger <==> e == Vencido
  {
    match e
    case Vigente => Success
    case Proximo => Warning
    case Vencido => Danger
    case SinFecha => Neutral
  }

  /** `obtenerColorVencimiento`. */
  function ObtenerColorVencimiento(f: Option<Fecha>, now: Instant): (c: Color)
    ensures c == Neutral <==> f.None?
    ensures c == Danger <==> f.Some? && EstaVencido(f.value, now)
  {
    ColorDe(ObtenerEstadoVencimiento(f, now))
  }

  /** `proximo` is exactly "between 1 and 30 whole days remain", and being
      expired takes precedence: an expired date never has a positive count. */
  lemma ProximoIffDias(f: Fecha, now: Instant)
    ensures ObtenerEstadoVencimiento(Some(f), now) == Proximo <==>
      0 < DiasRestantes(f, now) <= LimiteProximo
    ensures EstaVencido(f, now) ==> ObtenerEstadoVencimiento(Some(f), now) == Vencido
    ensures EstaVencido(f, now) ==> DiasRestantes(f, now) <= 0
  {
  }

  /** A date less than one whole day ahead has no whole day left and is `vigente`. */
  lemma MenosDeUnDiaEsVigente(t: Instant, now: Instant)
    requires now <= t < now + MsPerDay
    ensures DiasRestantes(Valida(t), now) == 0
    ensures ObtenerEstadoVencimiento(Some(Valida(t)), now) == Vigente
  {
  }

  /** An unparseable date counts 0 days, is never expired, and is `vigente`. */
  lemma InvalidaEsVigente(now: Instant)
    ensures DiasRestantes(Invalida, now) == 0
    ensures !EstaVencido(Invalida, now)
    ensures ObtenerEstadoVencimiento(Some(Invalida), now) == Vigente
  {
  }

  /** The classification moves forward with time: once a date is expired it
      stays expired at every later instant. */
  lemma VencidoEsPermanente(f: Fecha, now: Instant, later: Instant)
    requires now <= later
    requires ObtenerEstadoVencimiento(Some(f), now) == Vencido
    ensures ObtenerEstadoVencimiento(Some(f), later) == Vencido
  {
  }
}

=== FILE: inactividad.dfy ===
/** The inactivity detector (src/hooks/useInactivityDetector.ts) as a state
    machine over discrete events: the two flags, the two pending timers and
    the callbacks each event triggers. Real timers become the events
    `AvisoVence` and `CierreVence`, fired by whoever drives the machine. */
module Inactividad {
  import opened Base

  /** Default delay before the warning: 25 minutes, in ms. */
  const AvisoPorDefecto: int := 25 * 60 * 1000
  /** Default extra delay before the logout: 5 minutes, in ms. */
  const CierrePorDefecto: int := 5 * 60 * 1000

  datatype Config = Config(warningTimeout: int, logoutTimeout: int, enabled: bool)

  /** The hook's options with every one omitted. */
  const ConfigPorDefecto: Config := Config(AvisoPorDefecto, CierrePorDefecto, true)

  /** The hook's state: the two flags and the delay of each pending timer. */
  datatype Estado = Estado(isInactive: bool, showWarning: bool,
                           warningTimer: Option<int>, logoutTimer: Option<int>)

  datatype Evento =
    | ResetTimers       // `resetTimers()`, also run when the listeners are installed
    | CancelWarning     // `cancelWarning()`
    | Actividad         // one of the listened document events
    | AvisoVence        // the warning timer fires
    | CierreVence       // the logout timer fires

  /** The callbacks an event triggers. */
  datatype Efecto = OnWarning | OnLogout

  /** Before the hook's effect has run: no flag, no timer. */
  const Inicial: Estado := Estado(false, false, None, None)

  /** `resetTimers`: clear both timers and both flags; re-arm the warning
      timer only when enabled. */
  function Reiniciar(cfg: Config): (s: Estado)
    ensures !s.isInactive && !s.showWarning && s.logoutTimer.None?
    ensures s.warningTimer.Some? <==> cfg.enabled
    ensures cfg.enabled ==> s.warningTimer == Some(cfg.warningTimeout)
  {
    Estado(false, false, if cfg.enabled then Some(cfg.warningTimeout) else None, None)
  }

  /** One event. */
  function Paso(cfg: Config, s: Estado, e: Evento): (r: (Estado, seq<Efecto>))
    ensures e == ResetTimers || e == CancelWarning ==> r == (Reiniciar(cfg), [])
    ensures e == Actividad && (s.showWarning || !cfg.enabled) ==> r == (s, [])
    ensures e == Actividad && !s.showWarning && cfg.enabled ==> r == (Reiniciar(cfg), [])
    ensures e == AvisoVence && s.warningTimer.Some? ==>
      r.0.showWarning && r.0.isInactive && r.0.warningTimer.None?
      && r.0.logoutTimer == Some(cfg.logoutTimeout) && r.1 == [OnWarning]
    ensures e == CierreVence && s.logoutTimer.Some? ==>
      r.0 == s.(logoutTimer := None) && r.1 == [OnLogout]
    ensures (e == AvisoVence && s.warningTimer.None?) || (e == CierreVence && s.logoutTimer.None?) ==> r == (s, [])
  {
    match e
    case ResetTimers => (Reiniciar(cfg), [])
    case CancelWarning => (Reiniciar(cfg), [])
    case Actividad =>
      // no listener is installed while disabled
      if cfg.enabled && !s.showWarning then (Reiniciar(cfg), []) else (s, [])
    case AvisoVence =>
      if s.warningTimer.Some? then
        (Estado(true, true, None, Some(cfg.logoutTimeout)), [OnWarning])
      else (s, [])
    case CierreVence =>
      if s.logoutTimer.Some? then (s.(logoutTimer := None), [OnLogout]) else (s, [])
  }

  /** The states the hook can be in: both flags agree, at most one timer is
      pending, the logout timer is pending only while the warning shows, and
      a disabled hook has no timer. */
  predicate Coherente(cfg: Config, s: Estado) {
    s.isInactive == s.showWarning
    && !(s.warningTimer.Some? && s.logoutTimer.Some?)
    && (s.logoutTimer.Some? ==> s.showWarning)
    && (s.warningTimer.Some? ==> !s.showWarning)
    && (!cfg.enabled ==> s.warningTimer.None? && s.logoutTimer.None?)
  }

  /** Every event keeps the hook coherent. */
  lemma PasoCoherente(cfg: Config, s: Estado, e: Evento)
    requires Coherente(cfg, s)
    ensures Coherente(cfg, Paso(cfg, s, e).0)
  {
  }

  /** A run of events from a state: the final state and every callback, in order. */
  function Ejecutar(cfg: Config, s: Estado, es: seq<Evento>): (r: (Estado, seq<Efecto>))
    decreases |es|
  {
    if |es| == 0 then (s, [])
    else
      var (s1, fx1) := Paso(cfg, s, es[0]);
      var (s2, fx2) := Ejecutar(cfg, s1, es[1..]);
      (s2, fx1 + fx2)
  }

  function Cuantos(fx: seq<Efecto>, f: Efecto): nat
    decreases |fx|
  {
    if |fx| == 0 then 0 else (if fx[0] == f then 1 else 0) + Cuantos(fx[1..], f)
  }

  lemma {:induction false} CuantosConcat(a: seq<Efecto>, b: seq<Efecto>, f: Efecto)
    ensures Cuantos(a + b, f) == Cuantos(a, f) + Cuantos(b, f)
    decreases |a|
  {
    if |a| > 0 {
      assert (a + b)[1..] == a[1..] + b;
      CuantosConcat(a[1..], b, f);
    } else {
      assert a + b == b;
    }
  }

  /** Along any run from a coherent state the hook stays coherent, and the
      logout callback never fires more often than the warning callback (plus
      one for a logout timer already pending): a logout is always preceded
      by its warning. */
  lemma {:induction false} EjecutarCoherente(cfg: Config, s: Estado, es: seq<Evento>)
    requires Coherente(cfg, s)
    ensures Coherente(cfg, Ejecutar(cfg, s, es).0)
    ensures Cuantos(Ejecutar(cfg, s, es).1, OnLogout)
      <= Cuantos(Ejecutar(cfg, s, es).1, OnWarning) + (if s.logoutTimer.Some? then 1 else 0)
    ensures Ejecutar(cfg, s, es).0.logoutTimer.Some? ==>
      Cuantos(Ejecutar(cfg, s, es).1, OnLogout) < Cuantos(Ejecutar(cfg, s, es).1, OnWarning) + (if s.logoutTimer.Some? then 1 else 0)
    decreases |es|
  {
    if |es| > 0 {
      var (s1, fx1) := Paso(cfg, s, es[0]);
      PasoCoherente(cfg, s, es[0]);
      EjecutarCoherente(cfg, s1, es[1..]);
      var (s2, fx2) := Ejecutar(cfg, s1, es[1..]);
      CuantosConcat(fx1, fx2, OnLogout);
      CuantosConcat(fx1, fx2, OnWarning);
      assert Cuantos([OnWarning], OnLogout) == 0 && Cuantos([OnWarning], OnWarning) == 1;
      assert Cuantos([OnLogout], OnLogout) == 1 && Cuantos([OnLogout], OnWarning) == 0;
    }
  }

  /** A disabled hook never calls back, whatever happens. */
  lemma {:induction false} DeshabilitadoNoAvisa(cfg: Config, s: Estado, es: seq<Evento>)
    requires !cfg.enabled && Coherente(cfg, s)
    ensures Ejecutar(cfg, s, es).1 == []
    decreases |es|
  {
    if |es| > 0 {
      PasoCoherente(cfg, s, es[0]);
      DeshabilitadoNoAvisa(cfg, Paso(cfg, s, es[0]).0, es[1..]);
    }
  }

  /** With the warning showing, activity changes nothing: only
      `cancelWarning` (or the logout) ends it. */
  lemma ActividadDuranteAviso(cfg: Config, s: Estado)
    requires s.showWarning
    ensures Paso(cfg, s, Actividad) == (s, [])
    ensures !Paso(cfg, s, CancelWarning).0.showWarning
  {
  }

  // ---------------------------------------------------------------------
  // The hook as written: the effect re-runs when `showWarning` changes
  // ---------------------------------------------------------------------

  /** One event followed by what React does when `showWarning` changed: the
      effect's cleanup clears both timers and its new run calls
      `resetTimers()` again (only an enabled hook has the effect installed). */
  function PasoTalCual(cfg: Config, s: Estado, e: Evento): (r: (Estado, seq<Efecto>))
    ensures cfg.enabled && Paso(cfg, s, e).0.showWarning != s.showWarning ==> r == (Reiniciar(cfg), Paso(cfg, s, e).1)
    ensures !(cfg.enabled && Paso(cfg, s, e).0.showWarning != s.showWarning) ==> r == Paso(cfg, s, e)
  {
    var (s1, fx) := Paso(cfg, s, e);
    if cfg.enabled && s1.showWarning != s.showWarning then (Reiniciar(cfg), fx) else (s1, fx)
  }

  function EjecutarTalCual(cfg: Config, s: Estado, es: seq<Evento>): (r: (Estado, seq<Efecto>))
    decreases |es|
  {
    if |es| == 0 then (s, [])
    else
      var (s1, fx1) := PasoTalCual(cfg, s, es[0]);
      var (s2, fx2) := EjecutarTalCual(cfg, s1, es[1..]);
      (s2, fx1 + fx2)
  }

  /** As written, the warning is withdrawn as soon as it appears: after the
      warning timer fires the hook is back to a fresh warning timer, with no
      warning shown and no logout pending. */
  lemma AvisoRetiradoTalCual(cfg: Config, s: Estado)
    requires cfg.enabled && s.warningTimer.Some? && !s.showWarning
    ensures PasoTalCual(cfg, s, AvisoVence) == (Reiniciar(cfg), [OnWarning])
    ensures !PasoTalCual(cfg, s, AvisoVence).0.showWarning && PasoTalCual(cfg, s, AvisoVence).0.logoutTimer.None?
  {
  }

  /** Hence, as written, no run from a state without a pending logout ever
      calls `onLogout`, whatever the events. */
  lemma {:induction false} NuncaCierraTalCual(cfg: Config, s: Estado, es: seq<Evento>)
    requires Coherente(cfg, s) && s.logoutTimer.None?
    ensures Cuantos(EjecutarTalCual(cfg, s, es).1, OnLogout) == 0
    ensures EjecutarTalCual(cfg, s, es).0.logoutTimer.None?
    decreases |es|
  {
    if |es| > 0 {
      var (s1, fx1) := PasoTalCual(cfg, s, es[0]);
      PasoCoherente(cfg, s, es[0]);
      assert Coherente(cfg, s1) && s1.logoutTimer.None? && OnLogout !in fx1;
      NuncaCierraTalCual(cfg, s1, es[1..]);
      var (s2, fx2) := EjecutarTalCual(cfg, s1, es[1..]);
      CuantosConcat(fx1, fx2, OnLogout);
      assert Cuantos(fx1, OnLogout) == 0 by {
        if fx1 == [OnWarning] { assert Cuantos([OnWarning], OnLogout) == 0; }
      }
    }
  }

  /** The intended hook keeps the warning up and logs out when the logout
      delay runs out with no `cancelWarning` in between. */
  lemma AvisoLuegoCierre(cfg: Config)
    requires cfg.enabled
    ensures Ejecutar(cfg, Reiniciar(cfg), [AvisoVence, CierreVence]).1 == [OnWarning, OnLogout]
    ensures Ejecutar(cfg, Reiniciar(cfg), [AvisoVence]).0.showWarning
  {
    var s1 := Paso(cfg, Reiniciar(cfg), AvisoVence).0;
    assert [AvisoVence, CierreVence][1..] == [CierreVence];
    assert Ejecutar(cfg, s1, [CierreVence]).1 == [OnLogout];
  }
}

=== FILE: middleware.dfy ===
/** The route guard of the Next middleware (src/lib/supabase/middleware.ts):
    `updateSession` as a pure decision on the path, the outcome of the
    session lookup and the role read from the `usuarios` profile. */
module Middleware {
  import opened Base
  import opened Text
  import opened Tablas

  /** The session lookup: a timeout or error, or the user it yields (if any). */
  datatype Autenticacion = Falla | Resultado(usuario: Option<string>)

  /** What the middleware answers. */
  datatype Respuesta =
    | Continuar                                            // the session-refreshing pass-through response
    | Redirigir(pathname: string, redirect: Option<string>) // a redirect; `redirect` is the query parameter it sets

  const IniciarSesion: string := "/iniciar-sesion"

  /** A timeout or an error counts as no user. */
  function Usuario(auth: Autenticacion): (u: Option<string>)
    ensures auth.Falla? ==> u.None?
    ensures auth.Resultado? ==> u == auth.usuario
  {
    match auth
    case Falla => None
    case Resultado(u) => u
  }

  predicate EsRutaDeAcceso(path: string) {
    StartsWith(path, "/iniciar-sesion") || StartsWith(path, "/recuperar-clave")
    || StartsWith(path, "/restablecer-contrasena")
  }

  /** `updateSession`. `perfil` is the role of the signed-in user's profile
      row, `None` when that row is missing; it is only consulted with a user. */
  function Decidir(path: string, auth: Autenticacion, perfil: Option<Rol>): (r: Respuesta)
    // a signed-in user with a profile is sent away from the access pages
    ensures Usuario(auth).Some? && EsRutaDeAcceso(path) && perfil.Some? ==>
      r == Redirigir(if perfil.value == Revisor then "/revisor" else "/cliente", None)
    // no user on a protected page: to the sign-in page, remembering the path
    ensures Usuario(auth).None? && (StartsWith(path, "/revisor") || StartsWith(path, "/cliente")) ==>
      r == Redirigir(IniciarSesion, Some(path))
    // the reviewer area admits only reviewers
    ensures Usuario(auth).Some? && StartsWith(path, "/revisor") && perfil != Some(Revisor) ==>
      r == Redirigir("/cliente", None)
    // the client area admits only clients
    ensures Usuario(auth).Some? && StartsWith(path, "/cliente") && perfil != Some(Cliente) ==>
      r == Redirigir("/revisor", None)
    // everything else passes through
    ensures r == Continuar <==>
      !(Usuario(auth).Some? && EsRutaDeAcceso(path) && perfil.Some?)
      && !(StartsWith(path, "/revisor") && (Usuario(auth).None? || perfil != Some(Revisor)))
      && !(StartsWith(path, "/cliente") && (Usuario(auth).None? || perfil != Some(Cliente)))
  {
    var user := Usuario(auth);
    if user.Some? && EsRutaDeAcceso(path) && perfil.Some? then
      Redirigir(if perfil.value == Revisor then "/revisor" else "/cliente", None)
    else if StartsWith(path, "/revisor") then
      if user.None? then Redirigir(IniciarSesion, Some(path))
      else if perfil != Some(Revisor) then Redirigir("/cliente", None)
      else Continuar
    else if StartsWith(path, "/cliente") then
      if user.None? then Redirigir(IniciarSesion, Some(path))
      else if perfil != Some(Cliente) then Redirigir("/revisor", None)
      else Continuar
    else Continuar
  }

  /** Following a redirect never redirects again for a user with a profile:
      each role lands on its own area, and the sign-in page lets a visitor in. */
  lemma RedirigeUnaVez(path: string, auth: Autenticacion, perfil: Option<Rol>)
    requires Decidir(path, auth, perfil).Redirigir?
    requires Usuario(auth).None? || perfil.Some?
    ensures Decidir(Decidir(path, auth, perfil).pathname, auth, perfil) == Continuar
  {
    DestinosDistintos();
    var r := Decidir(path, auth, perfil);
    if Usuario(auth).None? {
      assert r.pathname == IniciarSesion;
      assert Decidir(IniciarSesion, auth, perfil) == Continuar;
    } else {
      assert perfil.Some?;
      if perfil.value == Revisor {
        assert r.pathname == "/revisor";
      } else {
        assert r.pathname == "/cliente";
      }
    }
  }

  /** The three redirect targets are told apart by the guard's prefixes. */
  lemma DestinosDistintos()
    ensures StartsWith("/revisor", "/revisor") && !StartsWith("/revisor", "/cliente") && !EsRutaDeAcceso("/revisor")
    ensures StartsWith("/cliente", "/cliente") && !StartsWith("/cliente", "/revisor") && !EsRutaDeAcceso("/cliente")
    ensures !StartsWith(IniciarSesion, "/revisor") && !StartsWith(IniciarSesion, "/cliente")
    ensures "/revisor" != "/cliente" && "/revisor" != IniciarSesion && "/cliente" != IniciarSesion
  {
    assert "/revisor"[1] == 'r' && "/cliente"[1] == 'c' && IniciarSesion[1] == 'i';
    assert "/recuperar-clave"[3] == 'c' && "/restablecer-contrasena"[3] == 's' && "/revisor"[3] == 'v';
    assert "/iniciar-sesion"[1] == 'i' && "/cliente"[1] == 'c';
    assert "/recuperar-clave"[1] == 'r' && "/restablecer-contrasena"[1] == 'r';
  }

  /** A signed-in user whose profile row is missing bounces between the two
      areas: `/revisor` sends to `/cliente` and `/cliente` back to `/revisor`. */
  lemma SinPerfilRebota(usuario: string)
    ensures Decidir("/revisor", Resultado(Some(usuario)), None) == Redirigir("/cliente", None)
    ensures Decidir("/cliente", Resultado(Some(usuario)), None) == Redirigir("/revisor", None)
  {
  }
}

=== FILE: notificaciones.dfy ===
/** The notification service (src/services/notificaciones.service.ts) over an
    immutable `notificaciones` table: listing, the unread count, marking
    read one or all, deletion and creation. */
module Notificaciones {
  import opened Base
  import opened Tablas
  import Sorting

  function CreadoEn(n: Notificacion): int { n.creadoEn }

  /** The rows a listing keeps: the user's, and only unread ones when asked. */
  predicate Listada(usuarioId: string, soloNoLeidas: bool, n: Notificacion) {
    n.usuarioId == usuarioId && (soloNoLeidas ==> !n.leida)
  }

  /** `obtenerNotificaciones` (`soloNoLeidas` defaults to false): newest first. */
  function ObtenerNotificaciones(tabla: seq<Notificacion>, usuarioId: string, soloNoLeidas: Option<bool>): (r: seq<Notificacion>)
    ensures forall n :: n in r <==> n in tabla && n.usuarioId == usuarioId && (soloNoLeidas == Some(true) ==> !n.leida)
    ensures Sorting.SortedDescBy(r, CreadoEn)
    ensures |r| == Sorting.Count(tabla, (n: Notificacion) => Listada(usuarioId, soloNoLeidas.GetOr(false), n))
  {
    var p := (n: Notificacion) => Listada(usuarioId, soloNoLeidas.GetOr(false), n);
    var f := Sorting.Filter(tabla, p);
    var r := Sorting.SortDescBy(f, CreadoEn);
    Sorting.FilterMembers(tabla, p);
    Sorting.SortMembers(f, r);
    r
  }

  /** A row the unread count counts. */
  predicate NoLeidaDe(usuarioId: string, n: Notificacion) {
    n.usuarioId == usuarioId && !n.leida
  }

  /** `obtenerCantidadNoLeidas`: the number of the user's unread rows. */
  function ObtenerCantidadNoLeidas(tabla: seq<Notificacion>, usuarioId: string): (c: nat)
    ensures c == |ObtenerNotificaciones(tabla, usuarioId, Some(true))|
    ensures c == 0 <==> forall n :: n in tabla ==> !NoLeidaDe(usuarioId, n)
  {
    var p := (n: Notificacion) => NoLeidaDe(usuarioId, n);
    Sorting.FilterCongruent(tabla, p, (n: Notificacion) => Listada(usuarioId, Some(true).GetOr(false), n));
    Sorting.FilterMembers(tabla, p);
    assert forall n :: n in tabla && p(n) ==> n in Sorting.Filter(tabla, p);
    Sorting.Count(tabla, p)
  }

  /** The change of a row marked read at `ahora`. */
  function Leida(ahora: Instant): Notificacion -> Notificacion {
    (n: Notificacion) => n.(leida := true, leidaEn := Some(ahora))
  }

  /** `marcarComoLeida`: the row with that id gets `leida` and `leida_en`;
      the answer is that row when exactly one matched (`.single()`).
      `updateOk` is the request's outcome: on an error nothing changes and
      the call throws (no answer). */
  function MarcarComoLeida(tabla: seq<Notificacion>, id: string, ahora: Instant, updateOk: bool): (r: (seq<Notificacion>, Option<Notificacion>))
    ensures !updateOk ==> r == (tabla, None)
    ensures |r.0| == |tabla|
    ensures forall i :: 0 <= i < |tabla| && tabla[i].id != id ==> r.0[i] == tabla[i]
    ensures updateOk ==> forall i :: 0 <= i < |tabla| && tabla[i].id == id ==>
      r.0[i].leida && r.0[i].leidaEn == Some(ahora)
      && r.0[i].(leida := tabla[i].leida, leidaEn := tabla[i].leidaEn) == tabla[i]
    ensures r.1.Some? <==> updateOk && Sorting.Count(tabla, (n: Notificacion) => n.id == id) == 1
    ensures r.1.Some? ==> r.1.value.id == id && r.1.value.leida && r.1.value.leidaEn == Some(ahora)
  {
    if !updateOk then (tabla, None)
    else
      var p := (n: Notificacion) => n.id == id;
      var nueva := Sorting.UpdateWhere(tabla, p, Leida(ahora));
      var m := Sorting.Filter(tabla, p);
      if |m| == 1 then (nueva, Some(Leida(ahora)(m[0]))) else (nueva, None)
  }

  /** `marcarTodasComoLeidas`: only the user's unread rows change; rows
      already read keep their `leida_en`. */
  function MarcarTodasComoLeidas(tabla: seq<Notificacion>, usuarioId: string, ahora: Instant): (r: seq<Notificacion>)
    ensures |r| == |tabla|
    ensures forall i :: 0 <= i < |tabla| && !NoLeidaDe(usuarioId, tabla[i]) ==> r[i] == tabla[i]
    ensures forall i :: 0 <= i < |tabla| && NoLeidaDe(usuarioId, tabla[i]) ==> r[i] == Leida(ahora)(tabla[i])
  {
    Sorting.UpdateWhere(tabla, (n: Notificacion) => NoLeidaDe(usuarioId, n), Leida(ahora))
  }

  /** Afterwards the user has no unread row, and doing it again, at any
      time, changes nothing. */
  lemma MarcarTodasEsIdempotente(tabla: seq<Notificacion>, usuarioId: string, ahora: Instant, despues: Instant)
    ensures ObtenerCantidadNoLeidas(MarcarTodasComoLeidas(tabla, usuarioId, ahora), usuarioId) == 0
    ensures MarcarTodasComoLeidas(MarcarTodasComoLeidas(tabla, usuarioId, ahora), usuarioId, despues)
         == MarcarTodasComoLeidas(tabla, usuarioId, ahora)
  {
    var r := MarcarTodasComoLeidas(tabla, usuarioId, ahora);
    assert forall n :: n in r ==> !NoLeidaDe(usuarioId, n);
  }

  /** `eliminarNotificacion`: every row with that id goes, the rest stay in
      order (a single row stays iff its id differs, and `EliminarConcatena`
      takes this to any table). */
  function EliminarNotificacion(tabla: seq<Notificacion>, id: string): (r: seq<Notificacion>)
    ensures forall n :: n in r <==> n in tabla && n.id != id
    ensures (forall i :: 0 <= i < |tabla| ==> tabla[i].id != id) ==> r == tabla
    ensures |tabla| == 1 ==> r == (if tabla[0].id == id then [] else tabla)
  {
    var p := (n: Notificacion) => n.id != id;
    Sorting.FilterMembers(tabla, p);
    Sorting.FilterAll(tabla, p);
    Sorting.Filter(tabla, p)
  }

  /** Deleting from two tables joined is joining what is left of each. */
  lemma EliminarConcatena(a: seq<Notificacion>, b: seq<Notificacion>, id: string)
    ensures EliminarNotificacion(a + b, id) == EliminarNotificacion(a, id) + EliminarNotificacion(b, id)
  {
    Sorting.FilterAppend(a, b, (n: Notificacion) => n.id != id);
  }

  /** `crearNotificacion`: an unread row with `datos` defaulting to `{}` and
      the links empty when absent or empty. The id and time are the
      backend's. */
  function CrearNotificacion(tabla: seq<Notificacion>, usuarioId: string, tipo: string, titulo: string, mensaje: string,
                             datos: Option<Datos>, documentoId: Option<string>, requerimientoId: Option<string>,
                             nuevoId: string, ahora: Instant): (r: seq<Notificacion>)
    ensures |r| == |tabla| + 1 && r[..|tabla|] == tabla
    ensures var n := r[|tabla|];
      n.id == nuevoId && n.usuarioId == usuarioId && n.tipo == tipo && n.titulo == titulo && n.mensaje == mensaje
      && !n.leida && n.leidaEn.None? && n.creadoEn == ahora
      && n.datos == (if datos.Some? then datos.value else map[])
      && n.documentoId == NonEmpty(documentoId) && n.requerimientoId == NonEmpty(requerimientoId)
  {
    tabla + [Notificacion(nuevoId, usuarioId, tipo, titulo, mensaje, false, datos.GetOr(map[]),
                          NonEmpty(documentoId), NonEmpty(requerimientoId), ahora, None)]
  }

  /** A created notification raises its user's unread count by one and
      leaves everyone else's as it was. */
  lemma CrearSumaUnaNoLeida(tabla: seq<Notificacion>, usuarioId: string, tipo: string, titulo: string, mensaje: string,
                            datos: Option<Datos>, documentoId: Option<string>, requerimientoId: Option<string>,
                            nuevoId: string, ahora: Instant, otro: string)
    ensures var r := CrearNotificacion(tabla, usuarioId, tipo, titulo, mensaje, datos, documentoId, requerimientoId, nuevoId, ahora);
      ObtenerCantidadNoLeidas(r, otro) == ObtenerCantidadNoLeidas(tabla, otro) + (if otro == usuarioId then 1 else 0)
  {
    var r := CrearNotificacion(tabla, usuarioId, tipo, titulo, mensaje, datos, documentoId, requerimientoId, nuevoId, ahora);
    var p := (n: Notificacion) => NoLeidaDe(otro, n);
    assert r == tabla + [r[|tabla|]];
    Sorting.FilterAppend(tabla, [r[|tabla|]], p);
  }
}

=== FILE: pdf.dfy ===
/** The string work of the certificate PDF (src/lib/generarPDF.ts): the two
    hash lines, the verification URL and its displayed form, the document
    count, and the file name. Layout and QR rendering are not modelled; the
    QR step is an outcome passed in. */
module Pdf {
  import opened Base
  import opened Text
  import Utils

  /** The two lines the hash is printed on: characters 0..32 and 32..64. */
  function LineasHash(hash: string): (lineas: (string, string))
    ensures lineas.0 + lineas.1 == hash[..if |hash| < 64 then |hash| else 64]
    ensures |hash| >= 64 ==> |lineas.0| == 32 && |lineas.1| == 32
  {
    (Substring(hash, 0, 32), Substring(hash, 32, 64))
  }

  /** A hash produced by `generarHash` is printed entirely, half on each line. */
  lemma LineasDeUnHashCompleto(digest: Utils.Digest)
    ensures var h := Utils.GenerarHash(digest);
      LineasHash(h).0 + LineasHash(h).1 == h
  {
    var h := Utils.GenerarHash(digest);
    assert h[..64] == h;
  }

  /** The base of the verification URL: the configured application URL, or
      `http://localhost:3000` when it is unset or empty. */
  const UrlPorDefecto: string := "http://localhost:3000"

  function UrlVerificacion(appUrl: Option<string>, codigo: string): (url: string)
    ensures appUrl.Some? && appUrl.value != "" ==> StartsWith(url, appUrl.value)
    ensures !(appUrl.Some? && appUrl.value != "") ==> StartsWith(url, UrlPorDefecto)
    ensures EndsWith(url, "/verificar/" + codigo)
  {
    var base := if appUrl.Some? && appUrl.value != "" then appUrl.value else UrlPorDefecto;
    var r := base + "/verificar/" + codigo;
    assert r[..|base|] == base;
    assert r[|r| - |"/verificar/" + codigo|..] == "/verificar/" + codigo;
    r
  }

  /** The URL as printed: the first `http://` removed, then the first `https://`. */
  function UrlVisible(url: string): string
  {
    ReplaceFirst(ReplaceFirst(url, "http://", ""), "https://", "")
  }

  /** A URL that starts with `http://` is printed without it (when the rest
      holds no `https://`). */
  lemma UrlVisibleSinEsquema(resto: string)
    requires !Contains(resto, "https://")
    ensures UrlVisible("http://" + resto) == resto
  {
    var u := "http://" + resto;
    assert OccursAt(u, "http://", 0);
    assert IndexOf(u, "http://") == Some(0);
    assert u[..0] + "" + u[7..] == resto;
    assert ReplaceFirst(u, "http://", "") == resto;
  }

  /** `(nombre_empresa || 'Certificado')`, every character outside
      `[a-zA-Z0-9]` replaced by `_`, cut to 30 characters. */
  function LimpiarNombreEmpresa(nombreEmpresa: Option<string>): (r: string)
    ensures 1 <= |r| <= 30
    ensures forall i :: 0 <= i < |r| ==> IsAsciiAlnum(r[i]) || r[i] == '_'
    ensures var base := if nombreEmpresa.Some? && nombreEmpresa.value != "" then nombreEmpresa.value else "Certificado";
      |r| == (if |base| < 30 then |base| else 30)
      && forall i :: 0 <= i < |r| ==> (IsAsciiAlnum(base[i]) ==> r[i] == base[i]) && (!IsAsciiAlnum(base[i]) ==> r[i] == '_')
  {
    var base := if nombreEmpresa.Some? && nombreEmpresa.value != "" then nombreEmpresa.value else "Certificado";
    Substring(Subrayar(base), 0, 30)
  }

  /** `replace(/[^a-zA-Z0-9]/g, '_')`. */
  function Subrayar(s: string): (r: string)
    ensures |r| == |s|
    ensures forall i :: 0 <= i < |s| ==> r[i] == if IsAsciiAlnum(s[i]) then s[i] else '_'
  {
    seq(|s|, i requires 0 <= i < |s| => if IsAsciiAlnum(s[i]) then s[i] else '_')
  }

  /** Cleaning an already clean name changes nothing. */
  lemma LimpiarIdempotente(nombreEmpresa: Option<string>)
    ensures LimpiarNombreEmpresa(Some(LimpiarNombreEmpresa(nombreEmpresa))) == LimpiarNombreEmpresa(nombreEmpresa)
  {
  }

  /** Any `<prefijo><limpio>.pdf` ends in `.pdf` and starts with the prefix. */
  lemma FormaNombrePdf(prefijo: string, limpio: string)
    ensures Utils.ObtenerExtension(prefijo + (limpio + ".pdf")) == ".pdf"
    ensures StartsWith(prefijo + (limpio + ".pdf"), prefijo)
  {
    assert prefijo + (limpio + ".pdf") == (prefijo + limpio) + "." + "pdf";
    Utils.ExtensionTras(prefijo + limpio, "pdf");
    StartsWithConcat(prefijo, limpio + ".pdf");
  }

  /** `Certificado_<codigo>_<limpio>.pdf`. */
  function NombreArchivoPdf(codigo: string, nombreEmpresa: Option<string>): (nombre: string)
    ensures Utils.ObtenerExtension(nombre) == ".pdf"
    ensures StartsWith(nombre, "Certificado_" + codigo + "_")
  {
    var prefijo := "Certificado_" + codigo + "_";
    var limpio := LimpiarNombreEmpresa(nombreEmpresa);
    FormaNombrePdf(prefijo, limpio);
    prefijo + (limpio + ".pdf")
  }

  /** The authenticity box: present only when the QR step succeeded. */
  datatype Verificacion = Verificacion(url: string, lineaHash1: string, lineaHash2: string, urlVisible: string)

  /** What the generated PDF carries of the certificate. */
  datatype Documento = Documento(totalDocumentos: nat, verificacion: Option<Verificacion>, nombreArchivo: string)

  /** `generarCertificadoPDF`, on its data: `detalles` absent counts 0; a QR
      failure (`qrOk == false`) drops the authenticity box and nothing else. */
  function GenerarCertificadoPdf<D>(codigo: string, hash: string, detalles: Option<seq<D>>,
                                    nombreEmpresa: Option<string>, appUrl: Option<string>, qrOk: bool): (pdf: Documento)
    ensures pdf.totalDocumentos == if detalles.Some? then |detalles.value| else 0
    ensures pdf.nombreArchivo == NombreArchivoPdf(codigo, nombreEmpresa)
    ensures pdf.verificacion.Some? <==> qrOk
    ensures qrOk ==>
      (pdf.verificacion.value.lineaHash1 + pdf.verificacion.value.lineaHash2
        == hash[..if |hash| < 64 then |hash| else 64])
    ensures qrOk ==> EndsWith(pdf.verificacion.value.url, "/verificar/" + codigo)
  {
    var total := if detalles.Some? then |detalles.value| else 0;
    var verif :=
      if qrOk then
        var u := UrlVerificacion(appUrl, codigo);
        var (l1, l2) := LineasHash(hash);
        Some(Verificacion(u, l1, l2, UrlVisible(u)))
      else None;
    Documento(total, verif, NombreArchivoPdf(codigo, nombreEmpresa))
  }

  /** The QR outcome changes only the authenticity box: the count and the
      file name are the same either way. */
  lemma QrNoInterrumpe<D>(codigo: string, hash: string, detalles: Option<seq<D>>,
                          nombreEmpresa: Option<string>, appUrl: Option<string>)
    ensures var ok := GenerarCertificadoPdf(codigo, hash, detalles, nombreEmpresa, appUrl, true);
      var fallo := GenerarCertificadoPdf(codigo, hash, detalles, nombreEmpresa, appUrl, false);
      ok.totalDocumentos == fallo.totalDocumentos && ok.nombreArchivo == fallo.nombreArchivo
      && fallo.verificacion.None?
  {
  }
}

=== FILE: providers.dfy ===
/** The query-client policy (src/contexts/Providers.tsx): which failed
    queries are retried, the back-off between attempts, and no retry for
    mutations. */
module Providers {
  import opened Base
  import opened Text
  import opened AuthErrorHandler

  /** The authentication test of the query `retry` option: case-sensitive
      `JWT`, `expired` or `invalid` in the message, or status 401. */
  predicate EsErrorAuthConsulta(error: Option<ErrorApi>) {
    error.Some? &&
    (Incluye(error.value.message, "JWT") || Incluye(error.value.message, "expired")
     || Incluye(error.value.message, "invalid") || error.value.status == Some(401))
  }

  /** The `retry` option of queries. */
  function Reintentar(failureCount: int, error: Option<ErrorApi>): (r: bool)
    ensures EsErrorAuthConsulta(error) ==> !r
    ensures !EsErrorAuthConsulta(error) ==> (r <==> failureCount < 2)
  {
    if EsErrorAuthConsulta(error) then false else failureCount < 2
  }

  /** A failing query is tried at most three times: `failureCount` counts the
      failures before this one, so no retry is granted once two have already
      happened (on the third failure), and never for an error `handleAuthError` or
      `isAuthenticationError` would also recognise by one of these words. */
  lemma ComoMaximoDosReintentos(failureCount: int, error: Option<ErrorApi>)
    ensures failureCount >= 2 ==> !Reintentar(failureCount, error)
    ensures EsErrorAuthConsulta(error) ==> EsErrorDeSesion(error) && IsAuthenticationError(error)
  {
    if EsErrorAuthConsulta(error) {
      SesionImplicaAutenticacion(error);
    }
  }

  function Pow2(n: nat): (r: nat)
    ensures r >= 1
  {
    if n == 0 then 1 else 2 * Pow2(n - 1)
  }

  lemma {:induction false} Pow2Monotone(i: nat, j: nat)
    requires i <= j
    ensures Pow2(i) <= Pow2(j)
    decreases j
  {
    if i < j {
      Pow2Monotone(i, j - 1);
    }
  }

  /** `retryDelay`: `min(1000 * 2^attemptIndex, 4000)` milliseconds. */
  function RetryDelay(attemptIndex: nat): (ms: int)
    ensures 1000 <= ms <= 4000
    ensures attemptIndex <= 2 ==> ms == 1000 * Pow2(attemptIndex)
    ensures attemptIndex >= 2 ==> ms == 4000
  {
    var d := 1000 * Pow2(attemptIndex);
    assert attemptIndex >= 2 ==> d >= 4000 by {
      if attemptIndex >= 2 { Pow2Monotone(2, attemptIndex); }
    }
    if d < 4000 then d else 4000
  }

  /** The delay never shrinks from one attempt to the next. */
  lemma RetryDelayMonotone(i: nat, j: nat)
    requires i <= j
    ensures RetryDelay(i) <= RetryDelay(j)
  {
    Pow2Monotone(i, j);
  }

  /** `mutations.retry`: a failed mutation is never retried. */
  function ReintentarMutacion(failureCount: int, error: Option<ErrorApi>): (r: bool)
    ensures !r
  {
    false
  }
}

=== FILE: requerimientospage.dfy ===
/** The client's requirements page (src/app/cliente/requerimientos/page.tsx):
    the latest-version selector, the upload modal's state and guards, and
    the expiry badge. */
module RequerimientosPage {
  import opened Base
  import opened Tablas
  import Sorting
  import Fechas

  /** `TAMANO_MAXIMO_ARCHIVO` (src/types/index.ts): 10 MiB. */
  const TamanoMaximoArchivo: int := 10 * 1024 * 1024

  // ---------------------------------------------------------------------
  // Latest document
  // ---------------------------------------------------------------------

  predicate NoEliminado(d: Documento) { !d.eliminado }

  /** `getUltimoDocumento`: the non-deleted documents sorted by descending
      version, first one; nothing when the list is absent or empty, or when
      every document is deleted. */
  function UltimoDocumento(documentos: Option<seq<Documento>>): (r: Option<Documento>)
    ensures documentos.None? || |documentos.value| == 0 ==> r.None?
    ensures r.None? ==> documentos.None? || forall k :: 0 <= k < |documentos.value| ==> documentos.value[k].eliminado
    ensures r.Some? ==> documentos.Some? && r.value in documentos.value && !r.value.eliminado
    ensures r.Some? ==> forall k :: 0 <= k < |documentos.value| && !documentos.value[k].eliminado ==>
      documentos.value[k].version <= r.value.version
  {
    if documentos.None? || |documentos.value| == 0 then None
    else
      var ds := documentos.value;
      var vivos := Sorting.Filter(ds, NoEliminado);
      var orden := Sorting.SortDescBy(vivos, (d: Documento) => d.version);
      if |orden| == 0 then None
      else
        assert orden[0] in multiset(vivos);
        forall k | 0 <= k < |ds| && !ds[k].eliminado ensures ds[k].version <= orden[0].version {
          assert ds[k] in vivos;
          assert ds[k] in multiset(orden);
          var j :| 0 <= j < |orden| && orden[j] == ds[k];
        }
        Some(orden[0])
  }

  // ---------------------------------------------------------------------
  // The upload modal
  // ---------------------------------------------------------------------

  /** A chosen file: its name and its size in bytes. */
  datatype Archivo = Archivo(nombre: string, size: int)

  /** The modal's state: the requirement it is open on, the chosen file and
      the typed expiry date (`''` when none). */
  datatype Modal = Modal(selectedReq: Option<Requerimiento>, archivo: Option<Archivo>, fechaVencimiento: string)

  /** The toast a handler raises, if any. */
  datatype Aviso = SinAviso | ArchivoGrande | SeleccionaArchivo

  /** `handleFileChange`: no file changes nothing; a file over the limit is
      refused with a toast and the previous choice is kept. */
  function HandleFileChange(m: Modal, file: Option<Archivo>): (r: (Modal, Aviso))
    ensures file.None? ==> r == (m, SinAviso)
    ensures file.Some? && file.value.size > TamanoMaximoArchivo ==> r == (m, ArchivoGrande)
    ensures file.Some? && file.value.size <= TamanoMaximoArchivo ==> r == (m.(archivo := file), SinAviso)
    ensures r.0.archivo.Some? ==> r.0.archivo.value.size <= TamanoMaximoArchivo || r.0.archivo == m.archivo
  {
    if file.None? then (m, SinAviso)
    else if file.value.size > TamanoMaximoArchivo then (m, ArchivoGrande)
    else (m.(archivo := file), SinAviso)
  }

  /** `handleSubir`: starts the upload only with a chosen file. */
  function HandleSubir(m: Modal): (r: (bool, Aviso))
    ensures r.0 <==> m.archivo.Some?
    ensures !r.0 ==> r.1 == SeleccionaArchivo
    ensures r.0 ==> r.1 == SinAviso
  {
    if m.archivo.None? then (false, SeleccionaArchivo) else (true, SinAviso)
  }

  /** The arguments the upload mutation passes to `subirDocumento`. */
  datatype Subida = Subida(archivo: Archivo, requerimientoId: string, clienteId: string,
                           tipoDocumentoId: string, fechaVencimiento: Option<string>)

  /** The upload mutation: it fails without a file, a requirement or a
      client; an empty date is passed as absent. */
  function Mutacion(m: Modal, clienteId: Option<string>): (r: Option<Subida>)
    ensures r.Some? <==> m.archivo.Some? && m.selectedReq.Some? && clienteId.Some?
    ensures r.Some? ==>
      (r.value.archivo == m.archivo.value && r.value.requerimientoId == m.selectedReq.value.id
       && r.value.tipoDocumentoId == m.selectedReq.value.tipoDocumentoId && r.value.clienteId == clienteId.value)
    ensures r.Some? ==>
      ((r.value.fechaVencimiento.None? <==> m.fechaVencimiento == "")
       && (r.value.fechaVencimiento.Some? ==> r.value.fechaVencimiento.value == m.fechaVencimiento))
  {
    if m.archivo.None? || m.selectedReq.None? || clienteId.None? then None
    else Some(Subida(m.archivo.value, m.selectedReq.value.id, clienteId.value,
                     m.selectedReq.value.tipoDocumentoId, if m.fechaVencimiento == "" then None else Some(m.fechaVencimiento)))
  }

  /** `cerrarModal`, also run after a successful upload. */
  function CerrarModal(m: Modal): (r: Modal)
    ensures r.selectedReq.None? && r.archivo.None? && r.fechaVencimiento == ""
    ensures HandleSubir(r) == (false, SeleccionaArchivo)
  {
    Modal(None, None, "")
  }

  // ---------------------------------------------------------------------
  // Expiry badge
  // ---------------------------------------------------------------------

  /** `getVencimientoBadge`: no badge without a date; otherwise the colour of
      its classification at `now`. */
  function VencimientoBadge(fecha: Option<Day>, now: Instant): (b: Option<Fechas.Color>)
    ensures fecha.None? <==> b.None?
    ensures fecha.Some? ==>
      var e := Fechas.ObtenerEstadoVencimiento(Some(Fechas.DeDia(fecha.value)), now);
      (e == Fechas.Vigente ==> b == Some(Fechas.Success))
      && (e == Fechas.Proximo ==> b == Some(Fechas.Warning))
      && (e == Fechas.Vencido ==> b == Some(Fechas.Danger))
    ensures b != Some(Fechas.Neutral)
  {
    if fecha.None? then None
    else Some(Fechas.ColorDe(Fechas.ObtenerEstadoVencimiento(Some(Fechas.DeDia(fecha.value)), now)))
  }

  /** The badge turns red exactly once the expiry day has begun to lie in the past. */
  lemma BadgeRojoSiVencido(d: Day, now: Instant)
    ensures VencimientoBadge(Some(d), now) == Some(Fechas.Danger) <==> StartOfDay(d) < now
  {
  }
}

=== FILE: revisorcertificados.dfy ===
/** The reviewer's certificate page (src/app/revisor/certificados/page.tsx):
    the issue mutation with its own compliance check before the service,
    the PDF step that cannot undo an issued certificate, the revoke guards,
    the modal resets and the state badge. Notices are the kinds of toast
    shown, in order. */
module RevisorCertificados {
  import opened Base
  import opened Text
  import opened Tablas
  import Certificados
  import Fechas
  import ToastStore

  /** The issue form, as typed. */
  datatype FormGenerar = FormGenerar(clienteId: string, fechaValidezDesde: string, fechaValidezHasta: string)

  /** The page state the handlers touch. */
  datatype Pagina = Pagina(
    modalGenerar: bool,
    form: FormGenerar,
    modalRevocar: bool,
    seleccionado: Option<Certificado>,
    motivoRevocacion: string)

  /** What the issue service sees and answers, besides the page's inputs. */
  datatype Servicio = Servicio(
    requerimientos: seq<Requerimiento>,
    documentos: seq<Documento>,
    cumplimiento: Option<seq<Certificados.Cumplimiento>>,
    codigoRpc: Option<string>,
    hash: string,
    nuevoId: string,
    ahora: Instant,
    certOk: bool,
    detallesOk: bool,
    borradoOk: bool)

  /** `cerrarModalGenerar`: the modal closes and every form field is emptied. */
  function CerrarModalGenerar(p: Pagina): (q: Pagina)
    ensures !q.modalGenerar
    ensures q.form.clienteId == "" && q.form.fechaValidezDesde == "" && q.form.fechaValidezHasta == ""
    ensures q.modalRevocar == p.modalRevocar && q.seleccionado == p.seleccionado && q.motivoRevocacion == p.motivoRevocacion
  {
    p.(modalGenerar := false, form := FormGenerar("", "", ""))
  }

  /** `cerrarModalRevocar`: the modal closes, the selection and the reason are cleared. */
  function CerrarModalRevocar(p: Pagina): (q: Pagina)
    ensures !q.modalRevocar && q.seleccionado.None? && q.motivoRevocacion == ""
    ensures q.modalGenerar == p.modalGenerar && q.form == p.form
  {
    p.(modalRevocar := false, seleccionado := None, motivoRevocacion := "")
  }

  datatype Resultado = Resultado(pagina: Pagina, estado: Certificados.Estado, avisos: seq<ToastStore.TipoToast>)

  /** The page's own compliance gate: the RPC's first row, present and complying. */
  predicate CumplePagina(cumplimiento: Option<Certificados.Cumplimiento>) {
    cumplimiento.Some? && cumplimiento.value.cumple
  }

  /** `generarMutation` with its `onSuccess`/`onError`: no user, or a client
      the page finds non-compliant, fails before the service is called; a
      service failure shows an error and keeps the modal; an issued
      certificate closes the modal and stays issued whatever the PDF step
      (`pdfOk`) does. `desde`/`hasta` are the form's dates as days. */
  function Generar(p: Pagina, s: Certificados.Estado, usuario: Option<string>,
                   cumplimientoPagina: Option<Certificados.Cumplimiento>, desde: Day, hasta: Day,
                   svc: Servicio, pdfOk: bool): (r: Resultado)
    ensures usuario.None? ==> r == Resultado(p, s, [ToastStore.Error])
    ensures usuario.Some? && !CumplePagina(cumplimientoPagina) ==> r == Resultado(p, s, [ToastStore.Error])
    ensures var emision := Certificados.GenerarCertificado(s, svc.requerimientos, svc.documentos, p.form.clienteId,
              if usuario.Some? then usuario.value else "", desde, hasta, svc.cumplimiento, svc.codigoRpc, svc.hash,
              svc.nuevoId, svc.ahora, svc.certOk, svc.detallesOk, svc.borradoOk);
      usuario.Some? && CumplePagina(cumplimientoPagina) ==>
        (r.estado == emision.0
        && (emision.1.Emitido? ==>
              (r.pagina == CerrarModalGenerar(p)
              && r.avisos == [ToastStore.Success, if pdfOk then ToastStore.Success else ToastStore.Error]))
        && (emision.1.Fallido? ==> r.pagina == p && r.avisos == [ToastStore.Error]))
    ensures ToastStore.Success in r.avisos ==>
      |r.estado.certificados| == |s.certificados| + 1 && r.estado.certificados[..|s.certificados|] == s.certificados
  {
    if usuario.None? then Resultado(p, s, [ToastStore.Error])
    else if !CumplePagina(cumplimientoPagina) then Resultado(p, s, [ToastStore.Error])
    else
      var emision := Certificados.GenerarCertificado(s, svc.requerimientos, svc.documentos, p.form.clienteId,
        usuario.value, desde, hasta, svc.cumplimiento, svc.codigoRpc, svc.hash, svc.nuevoId, svc.ahora,
        svc.certOk, svc.detallesOk, svc.borradoOk);
      match emision.1
      case Emitido(_) =>
        Resultado(CerrarModalGenerar(p), emision.0, [ToastStore.Success, if pdfOk then ToastStore.Success else ToastStore.Error])
      case Fallido(_) =>
        Resultado(p, emision.0, [ToastStore.Error])
  }

  /** A PDF failure after issuance changes only the last notice: the
      certificate, the tables and the page are the same as on success. */
  lemma PdfNoRevierte(p: Pagina, s: Certificados.Estado, usuario: Option<string>,
                      cumplimientoPagina: Option<Certificados.Cumplimiento>, desde: Day, hasta: Day, svc: Servicio)
    ensures var ok := Generar(p, s, usuario, cumplimientoPagina, desde, hasta, svc, true);
      var fallo := Generar(p, s, usuario, cumplimientoPagina, desde, hasta, svc, false);
      ok.estado == fallo.estado && ok.pagina == fallo.pagina && |ok.avisos| == |fallo.avisos|
      && ok.avisos[..|ok.avisos| - 1] == fallo.avisos[..|fallo.avisos| - 1]
  {
  }

  /** `handleRevocarSubmit` and `revocarMutation`: a missing selection or a
      reason that is empty after trimming shows an error and revokes
      nothing; so does a missing user; otherwise the service revokes the
      selected certificate with the reason as typed. When the service
      answers the row the modal closes with a success notice; when it throws
      the modal stays open with an error notice. */
  function Revocar(p: Pagina, tabla: seq<Certificado>, usuario: Option<string>, ahora: Instant, updateOk: bool):
    (r: (Pagina, seq<Certificado>, seq<ToastStore.TipoToast>))
    ensures p.seleccionado.None? || IsBlank(p.motivoRevocacion) || usuario.None? ==> r == (p, tabla, [ToastStore.Error])
    ensures p.seleccionado.Some? && !IsBlank(p.motivoRevocacion) && usuario.Some? ==>
      var servicio := Certificados.RevocarCertificado(tabla, p.seleccionado.value.id, p.motivoRevocacion, usuario.value, ahora, updateOk);
      r.1 == servicio.0
      && (servicio.1.Some? ==> r.0 == CerrarModalRevocar(p) && r.2 == [ToastStore.Success])
      && (servicio.1.None? ==> r.0 == p && r.2 == [ToastStore.Error])
    ensures r.2 == [ToastStore.Success] ==> r.0.seleccionado.None? && !r.0.modalRevocar
  {
    BlankIffTrimEmpty(p.motivoRevocacion);
    if p.seleccionado.None? || Trim(p.motivoRevocacion) == "" then (p, tabla, [ToastStore.Error])
    else if usuario.None? then (p, tabla, [ToastStore.Error])
    else
      var servicio := Certificados.RevocarCertificado(tabla, p.seleccionado.value.id, p.motivoRevocacion, usuario.value, ahora, updateOk);
      if servicio.1.Some? then (CerrarModalRevocar(p), servicio.0, [ToastStore.Success])
      else (p, servicio.0, [ToastStore.Error])
  }

  /** The revoke button is rendered only for `activo` rows. */
  predicate OfreceRevocar(c: Certificado) {
    c.estado == Activo
  }

  /** A certificate the revoke button is offered for is never reported as
      revoked by the public verification. */
  lemma OfrecidoNoRevocado(c: Certificado, hoy: Day)
    ensures OfreceRevocar(c) ==> !Certificados.Verificar(Some(c), hoy).veredicto.Revocado_?
    ensures !OfreceRevocar(c) ==> c.estado == Revocado || c.estado == Vencido
  {
  }

  /** The `estado` column as stored. */
  function NombreEstado(e: EstadoCertificado): string {
    match e
    case Activo => "activo"
    case Revocado => "revocado"
    case Vencido => "vencido"
  }

  /** `getEstadoBadge`: colour and label of a state string; an unknown
      state is shown neutral with its own text. */
  function EstadoBadge(estado: string): (b: (Fechas.Color, string))
    ensures b.0 == Fechas.Success <==> estado == "activo"
    ensures b.0 == Fechas.Danger <==> estado == "revocado"
    ensures b.0 != Fechas.Warning
    ensures estado != "activo" && estado != "revocado" && estado != "vencido" ==> b == (Fechas.Neutral, estado)
  {
    if estado == "activo" then (Fechas.Success, "Activo")
    else if estado == "revocado" then (Fechas.Danger, "Revocado")
    else if estado == "vencido" then (Fechas.Neutral, "Vencido")
    else (Fechas.Neutral, estado)
  }

  /** On the three stored states the badge is success, danger, neutral. */
  lemma BadgePorEstado(e: EstadoCertificado)
    ensures EstadoBadge(NombreEstado(e)).0 == (match e
      case Activo => Fechas.Success
      case Revocado => Fechas.Danger
      case Vencido => Fechas.Neutral)
  {
    assert "activo"[0] == 'a' && "revocado"[0] == 'r' && "vencido"[0] == 'v';
  }
}

=== FILE: revisorrevision.dfy ===
/** The reviewer's review inbox (src/app/revisor/revision/page.tsx): approve
    and reject on the selected document, and closing the modal. */
module RevisorRevision {
  import opened Base
  import opened Text
  import opened Tablas
  import Documentos
  import ToastStore

  datatype Accion = Aprobar | Rechazar

  /** The four pieces of page state. */
  datatype Pagina = Pagina(seleccionado: Option<Documento>, accion: Option<Accion>, fechaVencimiento: string, motivoRechazo: string)

  /** `cerrarModal`: all four are reset. */
  function CerrarModal(p: Pagina): (q: Pagina)
    ensures q.seleccionado.None? && q.accion.None? && q.fechaVencimiento == "" && q.motivoRechazo == ""
  {
    Pagina(None, None, "", "")
  }

  datatype Resultado = Resultado(pagina: Pagina, tabla: seq<Documento>, avisos: seq<ToastStore.TipoToast>)

  /** `handleAprobar` and `aprobarMutation`: nothing without a selection; an
      error without a user; otherwise the document is approved, with the
      typed expiry (`dia`) only when the field is non-empty, and on success
      the modal closes. `updateOk` is the update request's outcome. */
  function HandleAprobar(p: Pagina, tabla: seq<Documento>, usuario: Option<string>, dia: Day, ahora: Instant,
                        updateOk: bool): (r: Resultado)
    ensures p.seleccionado.None? ==> r == Resultado(p, tabla, [])
    ensures p.seleccionado.Some? && usuario.None? ==> r == Resultado(p, tabla, [ToastStore.Error])
    ensures p.seleccionado.Some? && usuario.Some? ==>
      var a := Documentos.AprobarDocumento(tabla, p.seleccionado.value.id, usuario.value,
                                           if p.fechaVencimiento == "" then None else Some(dia), ahora, updateOk);
      r.tabla == a.0
      && (a.1.Some? ==> r.pagina == CerrarModal(p) && r.avisos == [ToastStore.Success])
      && (a.1.None? ==> r.pagina == p && r.avisos == [ToastStore.Error])
  {
    if p.seleccionado.None? then Resultado(p, tabla, [])
    else if usuario.None? then Resultado(p, tabla, [ToastStore.Error])
    else
      var fecha := if p.fechaVencimiento == "" then None else Some(dia);
      var a := Documentos.AprobarDocumento(tabla, p.seleccionado.value.id, usuario.value, fecha, ahora, updateOk);
      if a.1.Some? then Resultado(CerrarModal(p), a.0, [ToastStore.Success])
      else Resultado(p, a.0, [ToastStore.Error])
  }

  /** An empty expiry field leaves the document's expiry as it was. */
  lemma FechaVaciaConserva(p: Pagina, tabla: seq<Documento>, usuario: string, dia: Day, ahora: Instant, updateOk: bool, i: nat)
    requires p.seleccionado.Some? && p.fechaVencimiento == ""
    requires i < |tabla|
    ensures HandleAprobar(p, tabla, Some(usuario), dia, ahora, updateOk).tabla[i].fechaVencimiento == tabla[i].fechaVencimiento
  {
  }

  /** `handleRechazar` and `rechazarMutation`: a missing selection or a
      reason that is empty after trimming shows an error and rejects
      nothing; otherwise the document is rejected with the reason as typed. */
  function HandleRechazar(p: Pagina, tabla: seq<Documento>, updateOk: bool): (r: Resultado)
    ensures p.seleccionado.None? || IsBlank(p.motivoRechazo) ==> r == Resultado(p, tabla, [ToastStore.Error])
    ensures p.seleccionado.Some? && !IsBlank(p.motivoRechazo) ==>
      var a := Documentos.RechazarDocumento(tabla, p.seleccionado.value.id, p.motivoRechazo, updateOk);
      r.tabla == a.0
      && (a.1.Some? ==> r.pagina == CerrarModal(p) && r.avisos == [ToastStore.Success])
      && (a.1.None? ==> r.pagina == p && r.avisos == [ToastStore.Error])
  {
    BlankIffTrimEmpty(p.motivoRechazo);
    if p.seleccionado.None? || Trim(p.motivoRechazo) == "" then Resultado(p, tabla, [ToastStore.Error])
    else
      var a := Documentos.RechazarDocumento(tabla, p.seleccionado.value.id, p.motivoRechazo, updateOk);
      if a.1.Some? then Resultado(CerrarModal(p), a.0, [ToastStore.Success])
      else Resultado(p, a.0, [ToastStore.Error])
  }

  /** A whitespace-only reason changes no row. */
  lemma MotivoEnBlancoNoRechaza(p: Pagina, tabla: seq<Documento>, updateOk: bool)
    requires IsBlank(p.motivoRechazo)
    ensures forall i :: 0 <= i < |tabla| ==> HandleRechazar(p, tabla, updateOk).tabla[i].estado == tabla[i].estado
  {
  }
}

=== FILE: sorting.dfy ===
/** Ordering and selection over sequences of rows: the `order(...)`,
    `.eq(...)`/`.filter(...)` and `.slice`/`.range` steps of the backend
    queries and of the array code, as pure functions. */
module Sorting {

  /** Non-decreasing by `key`. */
  ghost predicate SortedBy<T>(s: seq<T>, key: T -> int) {
    forall i, j :: 0 <= i < j < |s| ==> key(s[i]) <= key(s[j])
  }

  /** Non-increasing by `key`. */
  ghost predicate SortedDescBy<T>(s: seq<T>, key: T -> int) {
    forall i, j :: 0 <= i < j < |s| ==> key(s[i]) >= key(s[j])
  }

  /** The rows of `s` that satisfy `p`, in their original order. */
  function Filter<T>(s: seq<T>, p: T -> bool): (r: seq<T>)
    ensures |r| <= |s|
    ensures forall i :: 0 <= i < |s| && p(s[i]) ==> s[i] in r
    ensures forall i :: 0 <= i < |r| ==> r[i] in s
    ensures multiset(r) <= multiset(s)
    ensures forall i :: 0 <= i < |r| ==> p(r[i])
  {
    if |s| == 0 then []
    else
      assert s == [s[0]] + s[1..];
      if p(s[0]) then [s[0]] + Filter(s[1..], p)
      else Filter(s[1..], p)
  }

  /** Membership in a filter is membership in the source plus `p`. */
  lemma FilterMembers<T>(s: seq<T>, p: T -> bool)
    ensures forall x :: x in Filter(s, p) <==> x in s && p(x)
  {
    forall x | x in s && p(x) ensures x in Filter(s, p) {
      var i :| 0 <= i < |s| && s[i] == x;
    }
  }

  /** Filtering depends only on the values of the predicate. */
  lemma {:induction false} FilterCongruent<T>(s: seq<T>, p: T -> bool, q: T -> bool)
    requires forall x :: p(x) == q(x)
    ensures Filter(s, p) == Filter(s, q)
  {
    if |s| > 0 {
      FilterCongruent(s[1..], p, q);
    }
  }

  /** A reordering has the same members. */
  lemma SortMembers<T>(s: seq<T>, r: seq<T>)
    requires multiset(r) == multiset(s)
    ensures forall x :: x in r <==> x in s
  {
    forall x ensures x in r <==> x in s {
      assert x in r <==> x in multiset(r);
      assert x in s <==> x in multiset(s);
    }
  }

  lemma FilterAppend<T>(a: seq<T>, b: seq<T>, p: T -> bool)
    ensures Filter(a + b, p) == Filter(a, p) + Filter(b, p)
  {
    if |a| > 0 {
      assert (a + b)[1..] == a[1..] + b;
      FilterAppend(a[1..], b, p);
    } else {
      assert a + b == b;
    }
  }

  /** A filter every row passes keeps the sequence. */
  lemma {:induction false} FilterAll<T>(s: seq<T>, p: T -> bool)
    ensures (forall i :: 0 <= i < |s| ==> p(s[i])) ==> Filter(s, p) == s
  {
    if |s| > 0 {
      FilterAll(s[1..], p);
      assert s == [s[0]] + s[1..];
    }
  }

  /** A filter no row passes is empty. */
  lemma {:induction false} FilterNone<T>(s: seq<T>, p: T -> bool)
    requires forall i :: 0 <= i < |s| ==> !p(s[i])
    ensures Filter(s, p) == []
  {
    if |s| > 0 {
      FilterNone(s[1..], p);
    }
  }

  /** A sequence where only row `k` satisfies `p` filters to that row. */
  lemma {:induction false} FilterSingle<T>(s: seq<T>, k: nat, p: T -> bool)
    requires k < |s| && p(s[k])
    requires forall j :: 0 <= j < |s| && j != k ==> !p(s[j])
    ensures Filter(s, p) == [s[k]]
  {
    if k == 0 {
      FilterNone(s[1..], p);
    } else {
      FilterSingle(s[1..], k - 1, p);
    }
  }

  /** A filter keeps every copy of a value satisfying `p` and none of the others. */
  lemma {:induction false} FilterMultiset<T>(s: seq<T>, p: T -> bool)
    ensures forall x :: multiset(Filter(s, p))[x] == if p(x) then multiset(s)[x] else 0
  {
    if |s| > 0 {
      FilterMultiset(s[1..], p);
      assert s == [s[0]] + s[1..];
      assert multiset(s) == multiset{s[0]} + multiset(s[1..]);
    }
  }

  /** Number of rows satisfying `p`. */
  function Count<T>(s: seq<T>, p: T -> bool): (n: nat)
    ensures n <= |s|
  {
    |Filter(s, p)|
  }

  /** The positions of the rows satisfying `p`. */
  ghost function Positions<T>(s: seq<T>, p: T -> bool): set<nat> {
    set k: nat | k < |s| && p(s[k])
  }

  lemma PositionsSnoc<T>(a: seq<T>, x: T, p: T -> bool)
    ensures Positions(a + [x], p) == Positions(a, p) + (if p(x) then {|a|} else {})
  {
    var s := a + [x];
    forall k: nat ensures k in Positions(s, p) <==> k in Positions(a, p) + (if p(x) then {|a|} else {}) {
      if k < |a| { assert s[k] == a[k]; }
    }
  }

  lemma CountSnoc<T>(a: seq<T>, x: T, p: T -> bool)
    ensures Count(a + [x], p) == Count(a, p) + (if p(x) then 1 else 0)
  {
    FilterAppend(a, [x], p);
    assert [x][1..] == [];
  }

  /** The count is the number of positions whose row satisfies `p`. */
  lemma {:induction false} CountPositions<T>(s: seq<T>, p: T -> bool)
    ensures Count(s, p) == |Positions(s, p)|
  {
    if |s| > 0 {
      var a := s[..|s| - 1];
      var x := s[|s| - 1];
      assert s == a + [x];
      CountPositions(a, p);
      CountSnoc(a, x, p);
      PositionsSnoc(a, x, p);
      assert |a| !in Positions(a, p);
    }
  }

  /** When `q` is the negation of `p`, every row satisfies exactly one of
      them: the two counts add up to the length. */
  lemma {:induction false} CountComplement<T>(s: seq<T>, p: T -> bool, q: T -> bool)
    requires forall x :: q(x) == !p(x)
    ensures Count(s, p) + Count(s, q) == |s|
  {
    if |s| > 0 {
      CountComplement(s[1..], p, q);
    }
  }

  function InsertBy<T>(x: T, s: seq<T>, key: T -> int): (r: seq<T>)
    ensures |r| == |s| + 1
  {
    if |s| == 0 then [x]
    else if key(x) <= key(s[0]) then [x] + s
    else [s[0]] + InsertBy(x, s[1..], key)
  }

  lemma {:induction false} InsertByMultiset<T>(x: T, s: seq<T>, key: T -> int)
    ensures multiset(InsertBy(x, s, key)) == multiset(s) + multiset{x}
  {
    if |s| > 0 && key(x) > key(s[0]) {
      InsertByMultiset(x, s[1..], key);
      assert s == [s[0]] + s[1..];
    }
  }

  /** Every row of an insertion is the inserted row or an old one. */
  lemma {:induction false} InsertByElements<T>(x: T, s: seq<T>, key: T -> int)
    ensures forall k :: 0 <= k < |InsertBy(x, s, key)| ==>
      InsertBy(x, s, key)[k] == x || exists m :: 0 <= m < |s| && s[m] == InsertBy(x, s, key)[k]
  {
    if |s| > 0 {
      var r := InsertBy(x, s, key);
      if key(x) <= key(s[0]) {
        forall k | 0 <= k < |r| && r[k] != x
          ensures exists m :: 0 <= m < |s| && s[m] == r[k]
        {
          assert s[k - 1] == r[k];
        }
      } else {
        InsertByElements(x, s[1..], key);
        forall k | 0 <= k < |r| && r[k] != x
          ensures exists m :: 0 <= m < |s| && s[m] == r[k]
        {
          if k == 0 {
            assert s[0] == r[k];
          } else {
            var m :| 0 <= m < |s[1..]| && s[1..][m] == r[k];
            assert s[m + 1] == r[k];
          }
        }
      }
    }
  }

  lemma {:induction false} InsertBySorted<T>(x: T, s: seq<T>, key: T -> int)
    requires SortedBy(s, key)
    ensures SortedBy(InsertBy(x, s, key), key)
  {
    if |s| == 0 {
    } else if key(x) <= key(s[0]) {
      var r := [x] + s;
      forall i, j | 0 <= i < j < |r| ensures key(r[i]) <= key(r[j]) {
        if i == 0 {
          assert r[j] == s[j - 1];
        } else {
          assert r[i] == s[i - 1] && r[j] == s[j - 1];
        }
      }
    } else {
      var rest := s[1..];
      assert SortedBy(rest, key) by {
        forall i, j | 0 <= i < j < |rest| ensures key(rest[i]) <= key(rest[j]) {
          assert rest[i] == s[i + 1] && rest[j] == s[j + 1];
        }
      }
      InsertBySorted(x, rest, key);
      InsertByElements(x, rest, key);
      var t := InsertBy(x, rest, key);
      forall k | 0 <= k < |t| ensures key(s[0]) <= key(t[k]) {
        if t[k] != x {
          var m :| 0 <= m < |rest| && rest[m] == t[k];
          assert s[m + 1] == t[k];
        }
      }
      var r := [s[0]] + t;
      forall i, j | 0 <= i < j < |r| ensures key(r[i]) <= key(r[j]) {
        if i == 0 {
          assert r[j] == t[j - 1];
        } else {
          assert r[i] == t[i - 1] && r[j] == t[j - 1];
        }
      }
    }
  }

  /** The rows of `s` ordered by ascending `key` (a stable insertion sort). */
  function SortBy<T>(s: seq<T>, key: T -> int): (r: seq<T>)
    ensures SortedBy(r, key)
    ensures multiset(r) == multiset(s)
    ensures |r| == |s|
  {
    if |s| == 0 then []
    else
      var t := SortBy(s[1..], key);
      InsertBySorted(s[0], t, key);
      InsertByMultiset(s[0], t, key);
      assert s == [s[0]] + s[1..];
      InsertBy(s[0], t, key)
  }

  /** The rows of `s` ordered by descending `key`. */
  function SortDescBy<T>(s: seq<T>, key: T -> int): (r: seq<T>)
    ensures SortedDescBy(r, key)
    ensures multiset(r) == multiset(s)
    ensures |r| == |s|
  {
    SortBy(s, x => -key(x))
  }

  /** `array.slice(0, n)` in JavaScript: a negative end counts from the back. */
  function Take<T>(s: seq<T>, n: int): (r: seq<T>)
    ensures n >= 0 ==> |r| == if n < |s| then n else |s|
    ensures n < 0 ==> |r| == if |s| + n > 0 then |s| + n else 0
    ensures r == s[..|r|]
  {
    if n >= 0 then (if n < |s| then s[..n] else s)
    else if |s| + n > 0 then s[..|s| + n] else []
  }

  /** A prefix of a sequence sorted by ascending `key` is sorted, is a
      sub-multiset, and no row left out has a smaller key than a row kept. */
  lemma PrefixOfSorted<T>(o: seq<T>, key: T -> int, k: nat)
    requires SortedBy(o, key) && k <= |o|
    ensures SortedBy(o[..k], key)
    ensures multiset(o[..k]) <= multiset(o)
    ensures forall x, y :: x in multiset(o) - multiset(o[..k]) && y in o[..k] ==> key(y) <= key(x)
  {
    assert o == o[..k] + o[k..];
    assert multiset(o) == multiset(o[..k]) + multiset(o[k..]);
    forall x, y | x in multiset(o) - multiset(o[..k]) && y in o[..k] ensures key(y) <= key(x) {
      assert x in multiset(o[k..]);
      assert x in o[k..];
      var j :| 0 <= j < |o[k..]| && o[k..][j] == x;
      var i :| 0 <= i < k && o[..k][i] == y;
      assert o[i] == y && o[k + j] == x;
    }
  }

  /** The rows of `s` by ascending `key`, cut to the first `n` (a negative
      `n` counts from the back, as `slice` does): the `n` smallest. */
  function SortTake<T>(s: seq<T>, key: T -> int, n: int): (r: seq<T>)
    ensures SortedBy(r, key)
    ensures n >= 0 ==> |r| == if n < |s| then n else |s|
    ensures n < 0 ==> |r| == if |s| + n > 0 then |s| + n else 0
    ensures multiset(r) <= multiset(s)
    ensures forall e :: e in r ==> e in s
    ensures forall x, y :: x in multiset(s) - multiset(r) && y in r ==> key(y) <= key(x)
    ensures n >= |s| ==> multiset(r) == multiset(s)
  {
    var orden := SortBy(s, key);
    SortMembers(s, orden);
    var r := Take(orden, n);
    PrefixOfSorted(orden, key, |r|);
    r
  }

  /** The rows of `s` by descending `key`, cut to the first `n`: the `n` largest. */
  function SortDescTake<T>(s: seq<T>, key: T -> int, n: int): (r: seq<T>)
    ensures SortedDescBy(r, key)
    ensures n >= 0 ==> |r| == if n < |s| then n else |s|
    ensures n < 0 ==> |r| == if |s| + n > 0 then |s| + n else 0
    ensures multiset(r) <= multiset(s)
    ensures forall e :: e in r ==> e in s
    ensures forall x, y :: x in multiset(s) - multiset(r) && y in r ==> key(y) >= key(x)
    ensures n >= |s| ==> multiset(r) == multiset(s)
  {
    var neg := (x: T) => -key(x);
    var orden := SortBy(s, neg);
    SortMembers(s, orden);
    var r := Take(orden, n);
    PrefixOfSorted(orden, neg, |r|);
    r
  }

  /** The rows satisfying `p` replaced by `f` of them, the others kept, in place. */
  function UpdateWhere<T>(s: seq<T>, p: T -> bool, f: T -> T): (r: seq<T>)
    ensures |r| == |s|
    ensures forall i :: 0 <= i < |s| && p(s[i]) ==> r[i] == f(s[i])
    ensures forall i :: 0 <= i < |s| && !p(s[i]) ==> r[i] == s[i]
  {
    seq(|s|, i requires 0 <= i < |s| => if p(s[i]) then f(s[i]) else s[i])
  }

  /** A page of a sequence sorted newest first is sorted the same way and
      holds only rows of the sequence. */
  lemma RangeOfSortedDesc<T>(s: seq<T>, key: T -> int, from: nat, count: nat)
    requires SortedDescBy(s, key)
    ensures SortedDescBy(Range(s, from, count), key)
    ensures forall e :: e in Range(s, from, count) ==> e in s
  {
    var r := Range(s, from, count);
    if from <= |s| {
      forall i, j | 0 <= i < j < |r| ensures key(r[i]) >= key(r[j]) {
        assert r[i] == s[from + i] && r[j] == s[from + j];
      }
      forall e | e in r ensures e in s {
        var k :| 0 <= k < |r| && r[k] == e;
        assert s[from + k] == e;
      }
    }
  }

  /** Rows `from..from+count-1` of `s` (PostgREST `range`), clipped to `s`. */
  function Range<T>(s: seq<T>, from: nat, count: nat): (r: seq<T>)
    ensures |r| <= count
    ensures from <= |s| ==> r == s[from..if from + count <= |s| then from + count else |s|]
    ensures from > |s| ==> r == []
  {
    if from > |s| then []
    else if from + count <= |s| then s[from..from + count]
    else s[from..]
  }
}

=== FILE: tablas.dfy ===
/** The rows of the backend tables the core reads and writes, and their
    enumerated columns. Tables themselves are immutable sequences of rows. */
module Tablas {
  import opened Base

  datatype Rol = Revisor | Cliente

  datatype EstadoDocumento = Pendiente | Aprobado | Rechazado

  datatype EstadoCertificado = Activo | Revocado | Vencido

  /** A JSON payload column (`datos`), abstracted as a string-keyed map. */
  type Datos = map<string, string>

  /** A row of `requerimientos_cliente`. */
  datatype Requerimiento = Requerimiento(
    id: string,
    clienteId: string,
    tipoDocumentoId: string,
    tipoDocumentoNombre: Option<string>,
    obligatorio: bool)

  /** A row of `documentos`: one uploaded version of the file for a requirement. */
  datatype Documento = Documento(
    id: string,
    requerimientoId: string,
    url: string,
    nombreArchivo: string,
    version: int,
    estado: EstadoDocumento,
    motivoRechazo: Option<string>,
    fechaCarga: Instant,
    fechaVencimiento: Option<Day>,
    aprobadoPor: Option<string>,
    fechaAprobacion: Option<Instant>,
    eliminado: bool)

  /** The compliance counters stored in a certificate's `datos`. */
  datatype DatosCertificado = DatosCertificado(requerimientosCumplidos: int, totalRequerimientos: int)

  /** A row of `certificados`. */
  datatype Certificado = Certificado(
    id: string,
    codigo: string,
    hash: string,
    clienteId: string,
    emitidoPor: string,
    fechaEmision: Instant,
    fechaValidezDesde: Day,
    fechaValidezHasta: Day,
    estado: EstadoCertificado,
    motivoRevocacion: Option<string>,
    revocadoPor: Option<string>,
    revocadoEn: Option<Instant>,
    datos: DatosCertificado)

  /** A row of `certificados_detalle`: the snapshot of one requirement at issuance. */
  datatype CertificadoDetalle = CertificadoDetalle(
    certificadoId: string,
    requerimientoId: string,
    documentoId: Option<string>,
    tipoDocumentoNombre: string,
    fechaAprobacion: Instant,
    fechaVencimiento: Option<Day>,
    aprobadoPor: string)

  /** A row of `notificaciones`. */
  datatype Notificacion = Notificacion(
    id: string,
    usuarioId: string,
    tipo: string,
    titulo: string,
    mensaje: string,
    leida: bool,
    datos: Datos,
    documentoId: Option<string>,
    requerimientoId: Option<string>,
    creadoEn: Instant,
    leidaEn: Option<Instant>)

  /** A row of `auditoria`. */
  datatype Auditoria = Auditoria(
    id: string,
    actorId: Option<string>,
    accion: string,
    entidad: string,
    entidadId: Option<string>,
    datos: Datos,
    creadoEn: Instant)

  /** A string column whose empty value the code treats as missing (`x || null`). */
  function NonEmpty(s: Option<string>): (r: Option<string>)
    ensures r.Some? <==> s.Some? && s.value != ""
    ensures r.Some? ==> r == s
  {
    if s.Some? && s.value != "" then s else None
  }

  /** `x || d` on a numeric column: absent or zero falls back to `d`. */
  function OrDefault(x: Option<int>, d: int): (r: int)
    ensures x.Some? && x.value != 0 ==> r == x.value
    ensures x.None? || x.value == 0 ==> r == d
  {
    if x.Some? && x.value != 0 then x.value else d
  }
}

=== FILE: text.dfy ===
/** String helpers with the semantics of the JavaScript string methods the
    application uses: `startsWith`, `includes`, `replace` with a string
    pattern, `trim`, `split`, ASCII case mapping, decimal rendering and
    `parseInt(_, 10)`. */
module Text {
  import opened Base

  // ---------------------------------------------------------------------
  // Character classes
  // ---------------------------------------------------------------------

  /** The characters matched by the regular-expression class `\s`, which is
      also the set `String.prototype.trim` removes. */
  predicate IsWhitespace(c: char) {
    c == ' ' || c == '\t' || c == '\n' || c == '\r' || c == '\U{000B}' || c == '\U{000C}'
    || c == '\U{00A0}' || c == '\U{1680}' || ('\U{2000}' <= c <= '\U{200A}')
    || c == '\U{2028}' || c == '\U{2029}' || c == '\U{202F}' || c == '\U{205F}'
    || c == '\U{3000}' || c == '\U{FEFF}'
  }

  predicate IsDigit(c: char) { '0' <= c <= '9' }

  predicate IsAsciiUpper(c: char) { 'A' <= c <= 'Z' }

  predicate IsAsciiLower(c: char) { 'a' <= c <= 'z' }

  predicate IsAsciiAlnum(c: char) { IsDigit(c) || IsAsciiUpper(c) || IsAsciiLower(c) }

  function LowerChar(c: char): (r: char)
    ensures !IsAsciiUpper(r)
    ensures IsAsciiUpper(c) ==> IsAsciiLower(r)
    ensures !IsAsciiUpper(c) ==> r == c
  {
    if IsAsciiUpper(c) then (c as int + 32) as char else c
  }

  function UpperChar(c: char): (r: char)
    ensures !IsAsciiLower(r)
    ensures IsAsciiLower(c) ==> IsAsciiUpper(r)
    ensures !IsAsciiLower(c) ==> r == c
  {
    if IsAsciiLower(c) then (c as int - 32) as char else c
  }

  /** `toLowerCase` on the ASCII letters. */
  function Lower(s: string): (r: string)
    ensures |r| == |s|
    ensures forall i :: 0 <= i < |s| ==> r[i] == LowerChar(s[i])
  {
    seq(|s|, i requires 0 <= i < |s| => LowerChar(s[i]))
  }

  /** `toUpperCase` on the ASCII letters. */
  function Upper(s: string): (r: string)
    ensures |r| == |s|
    ensures forall i :: 0 <= i < |s| ==> r[i] == UpperChar(s[i])
  {
    seq(|s|, i requires 0 <= i < |s| => UpperChar(s[i]))
  }

  // ---------------------------------------------------------------------
  // Searching
  // ---------------------------------------------------------------------

  predicate StartsWith(s: string, prefix: string) {
    |prefix| <= |s| && s[..|prefix|] == prefix
  }

  /** A concatenation starts with its first part. */
  lemma StartsWithConcat(a: string, b: string)
    ensures StartsWith(a + b, a)
  {
    assert (a + b)[..|a|] == a;
  }

  predicate EndsWith(s: string, suffix: string) {
    |suffix| <= |s| && s[|s| - |suffix|..] == suffix
  }

  predicate OccursAt(s: string, sub: string, i: nat) {
    i + |sub| <= |s| && s[i..i + |sub|] == sub
  }

  /** `s.includes(sub)`. */
  predicate Contains(s: string, sub: string) {
    exists i: nat | i <= |s| :: OccursAt(s, sub, i)
  }

  /** An occurrence survives lower-casing of both sides. */
  lemma ContainsLower(s: string, sub: string)
    requires Contains(s, sub)
    ensures Contains(Lower(s), Lower(sub))
  {
    var i: nat :| i <= |s| && OccursAt(s, sub, i);
    assert Lower(s)[i..i + |sub|] == Lower(sub);
    assert OccursAt(Lower(s), Lower(sub), i);
  }

  /** A pattern holding a character that `s` lacks does not occur in `s`. */
  lemma MissingCharNotContained(s: string, sub: string, k: nat)
    requires k < |sub| && sub[k] !in s
    ensures !Contains(s, sub)
  {
    forall i: nat | i <= |s| ensures !OccursAt(s, sub, i) {
      assert i + k < |s| ==> s[i + k] != sub[k];
    }
  }

  /** Lower-casing forgets the case the string was written in. */
  lemma LowerOfUpper(s: string)
    ensures Lower(Upper(s)) == Lower(s)
  {
  }

  /** The first position of `sub` in `s` (`indexOf`). */
  function IndexOf(s: string, sub: string): (r: Option<nat>)
    ensures r.Some? ==> OccursAt(s, sub, r.value)
    ensures r.Some? ==> forall j: nat :: j < r.value ==> !OccursAt(s, sub, j)
    ensures r.None? ==> forall j: nat :: !OccursAt(s, sub, j)
    ensures r.Some? <==> Contains(s, sub)
  {
    IndexFrom(s, sub, 0)
  }

  function IndexFrom(s: string, sub: string, k: nat): (r: Option<nat>)
    ensures r.Some? ==> k <= r.value && OccursAt(s, sub, r.value)
    ensures r.Some? ==> forall j: nat :: k <= j < r.value ==> !OccursAt(s, sub, j)
    ensures r.None? ==> forall j: nat :: k <= j ==> !OccursAt(s, sub, j)
    decreases |s| - k
  {
    if k + |sub| > |s| then None
    else if s[k..k + |sub|] == sub then Some(k)
    else IndexFrom(s, sub, k + 1)
  }

  /** `s.replace(pattern, replacement)` with a string pattern: only the first
      occurrence is replaced, and nothing happens when there is none. */
  function ReplaceFirst(s: string, pattern: string, replacement: string): (r: string)
    ensures !Contains(s, pattern) ==> r == s
    ensures Contains(s, pattern) ==> |r| == |s| - |pattern| + |replacement|
    ensures forall i :: 0 <= i < |r| ==> r[i] in s || r[i] in replacement
  {
    match IndexOf(s, pattern)
    case None => s
    case Some(i) => s[..i] + replacement + s[i + |pattern|..]
  }

  /** `s.substring(a, b)`: both ends are clamped to `0..|s|` and swapped when
      out of order. */
  function Substring(s: string, a: int, b: int): (r: string)
    ensures var lo := Clamp(if a <= b then a else b, |s|);
      var hi := Clamp(if a <= b then b else a, |s|);
      lo <= hi && r == s[lo..hi]
  {
    var x, y := Clamp(a, |s|), Clamp(b, |s|);
    if x <= y then s[x..y] else s[y..x]
  }

  /** `n` clamped to `0..len`. */
  function Clamp(n: int, len: nat): (r: nat)
    ensures r <= len
    ensures 0 <= n <= len ==> r == n
  {
    if n < 0 then 0 else if n > len then len else n
  }

  /** The first position of a character (`indexOf` with a one-character pattern). */
  function FirstIndexOf(s: string, c: char): (i: nat)
    requires c in s
    ensures i < |s| && s[i] == c && c !in s[..i]
  {
    if s[0] == c then 0 else 1 + FirstIndexOf(s[1..], c)
  }

  // ---------------------------------------------------------------------
  // Trimming and splitting
  // ---------------------------------------------------------------------

  function TrimStart(s: string): (r: string)
    ensures |r| <= |s| && r == s[|s| - |r|..]
    ensures |r| > 0 ==> !IsWhitespace(r[0])
    ensures forall i :: 0 <= i < |s| - |r| ==> IsWhitespace(s[i])
  {
    if |s| > 0 && IsWhitespace(s[0]) then TrimStart(s[1..]) else s
  }

  function TrimEnd(s: string): (r: string)
    ensures |r| <= |s| && r == s[..|r|]
    ensures |r| > 0 ==> !IsWhitespace(r[|r| - 1])
    ensures forall i :: |r| <= i < |s| ==> IsWhitespace(s[i])
  {
    if |s| > 0 && IsWhitespace(s[|s| - 1]) then TrimEnd(s[..|s| - 1]) else s
  }

  /** `s.trim()`. */
  function Trim(s: string): (r: string)
    ensures |r| > 0 ==> !IsWhitespace(r[0]) && !IsWhitespace(r[|r| - 1])
    ensures |r| <= |s|
  {
    TrimEnd(TrimStart(s))
  }

  /** A string that `trim()` turns into the empty string. */
  predicate IsBlank(s: string) {
    forall i :: 0 <= i < |s| ==> IsWhitespace(s[i])
  }

  lemma {:induction false} BlankIffTrimStartEmpty(s: string)
    ensures IsBlank(s) <==> TrimStart(s) == ""
    decreases |s|
  {
    if |s| > 0 && IsWhitespace(s[0]) {
      BlankIffTrimStartEmpty(s[1..]);
      assert IsBlank(s) <==> IsBlank(s[1..]) by {
        if IsBlank(s[1..]) {
          forall i | 0 <= i < |s| ensures IsWhitespace(s[i]) {
            if i > 0 { assert s[i] == s[1..][i - 1]; }
          }
        }
      }
    } else if |s| > 0 {
      assert !IsWhitespace(s[0]);
    }
  }

  /** Leading blanks dropped from a string that has a non-blank character
      stop inside it: whatever follows it is kept whole. */
  lemma {:induction false} TrimStartConcat(x: string, y: string)
    requires !IsBlank(x)
    ensures TrimStart(x + y) == TrimStart(x) + y
    decreases |x|
  {
    var k :| 0 <= k < |x| && !IsWhitespace(x[k]);
    if IsWhitespace(x[0]) {
      assert x[1..][k - 1] == x[k];
      assert (x + y)[1..] == x[1..] + y;
      TrimStartConcat(x[1..], y);
    }
  }

  /** Blanks in front of a string that starts non-blank (or is empty) are
      all dropped. */
  lemma {:induction false} TrimStartBlankPrefix(x: string, y: string)
    requires IsBlank(x)
    requires |y| == 0 || !IsWhitespace(y[0])
    ensures TrimStart(x + y) == y
    decreases |x|
  {
    if |x| == 0 {
      assert x + y == y;
    } else {
      assert (x + y)[1..] == x[1..] + y;
      TrimStartBlankPrefix(x[1..], y);
    }
  }

  lemma BlankIffTrimEmpty(s: string)
    ensures IsBlank(s) <==> Trim(s) == ""
  {
    BlankIffTrimStartEmpty(s);
    var t := TrimStart(s);
    if t != "" {
      assert !IsWhitespace(t[0]);
      var r := TrimEnd(t);
      assert |r| > 0;
    }
  }

  /** `s.split(sep)` with a one-character separator. */
  function Split(s: string, sep: char): (parts: seq<string>)
    ensures |parts| >= 1
    ensures sep !in s ==> parts == [s]
    decreases |s|
  {
    if sep !in s then [s]
    else
      var i := FirstIndexOf(s, sep);
      [s[..i]] + Split(s[i + 1..], sep)
  }

  lemma SplitAfterFirst(a: string, sep: char, b: string)
    requires sep !in a
    ensures Split(a + [sep] + b, sep) == [a] + Split(b, sep)
  {
    var s := a + [sep] + b;
    assert s[|a|] == sep;
    assert s[..|a|] == a;
    var i := FirstIndexOf(s, sep);
    assert s[..i] == a;
    assert s[i + 1..] == b;
  }

  /** The last piece of `s.split(sep)`: what follows the last separator, or
      all of `s` when there is none. */
  function LastPart(s: string, sep: char): string
    decreases |s|
  {
    if sep !in s then s else LastPart(s[FirstIndexOf(s, sep) + 1..], sep)
  }

  /** It is the last element of the split. */
  lemma {:induction false} LastPartIsLastPiece(s: string, sep: char)
    ensures LastPart(s, sep) == Split(s, sep)[|Split(s, sep)| - 1]
    decreases |s|, 1
  {
    if sep in s {
      LastPieceAfterFirst(s, sep);
    } else {
      assert Split(s, sep) == [s];
    }
  }

  lemma {:induction false} LastPieceAfterFirst(s: string, sep: char)
    requires sep in s
    ensures LastPart(s, sep) == Split(s, sep)[|Split(s, sep)| - 1]
    decreases |s|, 0
  {
    var i := FirstIndexOf(s, sep);
    var p := Split(s[i + 1..], sep);
    LastPartIsLastPiece(s[i + 1..], sep);
    SplitStep(s, sep);
    LastOfCons(s[..i], p, Split(s, sep), LastPart(s, sep));
  }

  /** One step of `split`: the piece before the first separator, then the rest. */
  lemma SplitStep(s: string, sep: char)
    requires sep in s
    ensures Split(s, sep) == [s[..FirstIndexOf(s, sep)]] + Split(s[FirstIndexOf(s, sep) + 1..], sep)
  {
  }

  lemma LastOfCons(a: string, p: seq<string>, q: seq<string>, x: string)
    requires |p| >= 1 && q == [a] + p && x == p[|p| - 1]
    ensures x == q[|q| - 1]
  {
  }

  /** The last piece contains no separator and ends the string; when the
      separator occurs, the character just before that piece is it. */
  lemma {:induction false} LastPartIsSuffix(s: string, sep: char)
    ensures sep !in LastPart(s, sep)
    ensures EndsWith(s, LastPart(s, sep))
    ensures sep in s ==> |LastPart(s, sep)| < |s| && s[|s| - |LastPart(s, sep)| - 1] == sep
    decreases |s|
  {
    if sep in s {
      var i := FirstIndexOf(s, sep);
      var rest := s[i + 1..];
      var last := LastPart(rest, sep);
      assert LastPart(s, sep) == last;
      LastPartIsSuffix(rest, sep);
      assert sep !in rest ==> last == rest;
      SuffixOfRest(s, i, last, sep);
    } else {
      assert LastPart(s, sep) == s;
      assert EndsWith(s, s) by { assert s[|s| - |s|..] == s; }
    }
  }

  /** A suffix of `s[i+1..]` ends `s`, and is preceded by `sep` when
      `s[i]` is `sep` and the remainder's own preceding character is. */
  lemma SuffixOfRest(s: string, i: nat, last: string, sep: char)
    requires i < |s| && s[i] == sep
    requires EndsWith(s[i + 1..], last)
    requires sep in s[i + 1..] ==> |last| < |s[i + 1..]| && s[i + 1..][|s[i + 1..]| - |last| - 1] == sep
    requires sep !in s[i + 1..] ==> last == s[i + 1..]
    ensures EndsWith(s, last)
    ensures |last| < |s| && s[|s| - |last| - 1] == sep
  {
    var rest := s[i + 1..];
    assert s[|s| - |last|..] == rest[|rest| - |last|..];
    if sep in rest {
      assert s[|s| - |last| - 1] == rest[|rest| - |last| - 1];
    } else {
      assert s[|s| - |last| - 1] == s[i];
    }
  }

  /** The first separator of `a + [sep] + b` is the one after `a` when `a`
      has none, and the first one of `a` otherwise. */
  lemma FirstIndexOfConcat(a: string, sep: char, b: string)
    ensures sep !in a ==> FirstIndexOf(a + [sep] + b, sep) == |a|
    ensures sep in a ==> FirstIndexOf(a + [sep] + b, sep) == FirstIndexOf(a, sep)
  {
    var s := a + [sep] + b;
    assert s[|a|] == sep;
    var i := FirstIndexOf(s, sep);
    if sep !in a {
      assert s[..|a|] == a;
    } else {
      var k := FirstIndexOf(a, sep);
      assert s[k] == sep;
      assert s[..k] == a[..k];
    }
  }

  /** Whatever precedes the last separator, the last piece is what follows it. */
  lemma {:induction false} LastPartAfterSep(a: string, sep: char, b: string)
    requires sep !in b
    ensures LastPart(a + [sep] + b, sep) == b
    decreases |a|
  {
    var s := a + [sep] + b;
    assert s[|a|] == sep;
    FirstIndexOfConcat(a, sep, b);
    if sep !in a {
      assert s[|a| + 1..] == b;
    } else {
      var i := FirstIndexOf(a, sep);
      var a2 := a[i + 1..];
      assert s[i + 1..] == a2 + [sep] + b;
      LastPartAfterSep(a2, sep, b);
    }
  }

  /** The start of the trailing run of non-whitespace characters of `s`. */
  function LastRunStart(s: string): (k: nat)
    ensures k <= |s|
    ensures forall j :: k <= j < |s| ==> !IsWhitespace(s[j])
    ensures k > 0 ==> IsWhitespace(s[k - 1])
  {
    if |s| == 0 || IsWhitespace(s[|s| - 1]) then |s| else LastRunStart(s[..|s| - 1])
  }

  /** The last piece of `split(/\s+/)`, following the split's own recursion. */
  function LastWord(s: string): string
    decreases |s|
  {
    if forall i :: 0 <= i < |s| ==> !IsWhitespace(s[i]) then s
    else LastWord(s[EndOfRun(s, FirstWhitespace(s))..])
  }

  lemma {:induction false} LastWordIsLastPiece(s: string)
    ensures SplitWhitespace(s)[|SplitWhitespace(s)| - 1] == LastWord(s)
    decreases |s|, 1
  {
    if !(forall i :: 0 <= i < |s| ==> !IsWhitespace(s[i])) {
      LastWordAfterBlank(s);
    }
  }

  lemma {:induction false} LastWordAfterBlank(s: string)
    requires exists k :: 0 <= k < |s| && IsWhitespace(s[k])
    ensures SplitWhitespace(s)[|SplitWhitespace(s)| - 1] == LastWord(s)
    decreases |s|, 0
  {
    var rest := s[EndOfRun(s, FirstWhitespace(s))..];
    LastWordIsLastPiece(rest);
    LastOfCons(s[..FirstWhitespace(s)], SplitWhitespace(rest), SplitWhitespace(s), LastWord(s));
  }

  /** For a string ending in a non-blank, the last word is its trailing
      blank-free run, which is not empty. */
  lemma {:induction false} LastWordIsLastRun(s: string)
    requires |s| > 0 && !IsWhitespace(s[|s| - 1])
    ensures LastRunStart(s) < |s|
    ensures LastWord(s) == s[LastRunStart(s)..]
    decreases |s|, 1
  {
    if forall i :: 0 <= i < |s| ==> !IsWhitespace(s[i]) {
      LastRunStartNoBlank(s);
    } else {
      LastWordAfterRun(s);
    }
  }

  lemma {:induction false} LastWordAfterRun(s: string)
    requires |s| > 0 && !IsWhitespace(s[|s| - 1])
    requires exists k :: 0 <= k < |s| && IsWhitespace(s[k])
    ensures LastRunStart(s) < |s|
    ensures LastWord(s) == s[LastRunStart(s)..]
    decreases |s|, 0
  {
    var j := EndOfRun(s, FirstWhitespace(s));
    assert j < |s|;
    var rest := s[j..];
    assert rest[|rest| - 1] == s[|s| - 1];
    LastWordIsLastRun(rest);
    LastRunStartSuffix(s, j);
    DropShift(s, j, rest, LastRunStart(s), LastRunStart(rest), LastWord(rest));
  }

  /** A suffix of `s[j..]` from `kr` is the suffix of `s` from `kr + j`. */
  lemma DropShift(s: string, j: nat, rest: string, k: nat, kr: nat, w: string)
    requires j <= |s| && rest == s[j..] && kr + j == k && k <= |s| && w == rest[kr..]
    ensures w == s[k..]
  {
  }

  /** For a string ending in a non-blank, the last piece of `split(/\s+/)` is its
      trailing blank-free run, which is not empty. */
  lemma SplitWhitespaceLast(s: string)
    requires |s| > 0 && !IsWhitespace(s[|s| - 1])
    ensures LastRunStart(s) < |s|
    ensures SplitWhitespace(s)[|SplitWhitespace(s)| - 1] == s[LastRunStart(s)..]
  {
    LastWordIsLastPiece(s);
    LastWordIsLastRun(s);
  }

  /** There is a single piece exactly when `s` has no whitespace. */
  lemma SplitWhitespaceSingle(s: string)
    ensures |SplitWhitespace(s)| == 1 <==> forall i :: 0 <= i < |s| ==> !IsWhitespace(s[i])
    ensures (forall i :: 0 <= i < |s| ==> !IsWhitespace(s[i])) ==> SplitWhitespace(s) == [s]
  {
  }

  /** For a trimmed string, the first and the last piece of `split(/\s+/)`
      are non-empty and start where the string and its trailing run start. */
  lemma SplitWhitespaceEnds(s: string)
    requires |s| > 0 && !IsWhitespace(s[0]) && !IsWhitespace(s[|s| - 1])
    ensures LastRunStart(s) < |s|
    ensures |SplitWhitespace(s)[0]| > 0 && SplitWhitespace(s)[0][0] == s[0]
    ensures |SplitWhitespace(s)[|SplitWhitespace(s)| - 1]| > 0
    ensures SplitWhitespace(s)[|SplitWhitespace(s)| - 1][0] == s[LastRunStart(s)]
  {
    SplitWhitespaceFirstHead(s);
    SplitWhitespaceLastHead(s);
  }

  lemma SplitWhitespaceFirstHead(s: string)
    requires |s| > 0 && !IsWhitespace(s[0])
    ensures |SplitWhitespace(s)[0]| > 0 && SplitWhitespace(s)[0][0] == s[0]
  {
    var f := SplitWhitespace(s)[0];
    assert |f| < |s| ==> IsWhitespace(s[|f|]);
    assert s[..|f|][0] == s[0];
  }

  lemma SplitWhitespaceLastHead(s: string)
    requires |s| > 0 && !IsWhitespace(s[|s| - 1])
    ensures LastRunStart(s) < |s|
    ensures |SplitWhitespace(s)[|SplitWhitespace(s)| - 1]| > 0
    ensures SplitWhitespace(s)[|SplitWhitespace(s)| - 1][0] == s[LastRunStart(s)]
  {
    SplitWhitespaceLast(s);
    var k := LastRunStart(s);
    assert s[k..][0] == s[k];
  }

  lemma {:induction false} LastRunStartNoBlank(s: string)
    requires forall i :: 0 <= i < |s| ==> !IsWhitespace(s[i])
    ensures LastRunStart(s) == 0
    decreases |s|
  {
    if |s| > 0 {
      LastRunStartNoBlank(s[..|s| - 1]);
    }
  }

  /** Dropping a prefix that ends before the trailing run shifts its start. */
  lemma {:induction false} LastRunStartSuffix(s: string, j: nat)
    requires 0 < j < |s| && IsWhitespace(s[j - 1])
    ensures LastRunStart(s) >= j
    ensures LastRunStart(s[j..]) == LastRunStart(s) - j
    decreases |s|
  {
    if !IsWhitespace(s[|s| - 1]) {
      if j < |s| - 1 {
        assert s[..|s| - 1][j..] == s[j..][..|s[j..]| - 1];
        LastRunStartSuffix(s[..|s| - 1], j);
      } else {
        assert s[j..][..|s[j..]| - 1] == [];
        assert s[..|s| - 1][|s| - 2] == s[j - 1];
      }
    }
  }

  /** `s.split(/\s+/)`: pieces separated by maximal runs of whitespace. The
      first piece is the blank-free prefix of `s`. */
  function SplitWhitespace(s: string): (parts: seq<string>)
    ensures |parts| >= 1
    ensures StartsWith(s, parts[0])
    ensures forall i :: 0 <= i < |parts[0]| ==> !IsWhitespace(parts[0][i])
    ensures |parts[0]| < |s| ==> IsWhitespace(s[|parts[0]|])
    decreases |s|
  {
    if forall i :: 0 <= i < |s| ==> !IsWhitespace(s[i]) then [s]
    else
      var i := FirstWhitespace(s);
      var j := EndOfRun(s, i);
      [s[..i]] + SplitWhitespace(s[j..])
  }

  function FirstWhitespace(s: string): (i: nat)
    requires exists k :: 0 <= k < |s| && IsWhitespace(s[k])
    ensures i < |s| && IsWhitespace(s[i])
    ensures forall k :: 0 <= k < i ==> !IsWhitespace(s[k])
  {
    if IsWhitespace(s[0]) then 0
    else
      assert exists k :: 0 <= k < |s[1..]| && IsWhitespace(s[1..][k]) by {
        var k :| 0 <= k < |s| && IsWhitespace(s[k]);
        assert s[1..][k - 1] == s[k];
      }
      1 + FirstWhitespace(s[1..])
  }

  function EndOfRun(s: string, i: nat): (j: nat)
    requires i < |s|
    ensures i < j <= |s|
    ensures j < |s| ==> !IsWhitespace(s[j])
    ensures IsWhitespace(s[i]) ==> forall m :: i <= m < j ==> IsWhitespace(s[m])
    decreases |s| - i
  {
    if i + 1 < |s| && IsWhitespace(s[i + 1]) then EndOfRun(s, i + 1) else i + 1
  }

  // ---------------------------------------------------------------------
  // Decimal numbers
  // ---------------------------------------------------------------------

  predicate AllDigits(s: string) {
    forall i :: 0 <= i < |s| ==> IsDigit(s[i])
  }

  function DigitChar(d: nat): (c: char)
    requires d < 10
    ensures IsDigit(c)
  {
    ('0' as int + d) as char
  }

  function DigitValue(c: char): (d: nat)
    requires IsDigit(c)
    ensures d < 10
  {
    (c as int - '0' as int)
  }

  /** The decimal rendering of a natural number (`String(n)` / template literal). */
  function NatToDecimal(n: nat): (s: string)
    ensures |s| >= 1 && AllDigits(s)
    ensures n < 10 <==> |s| == 1
    decreases n
  {
    if n < 10 then [DigitChar(n)] else NatToDecimal(n / 10) + [DigitChar(n % 10)]
  }

  /** The number a string of decimal digits denotes. */
  function DecimalValue(s: string): nat
    requires AllDigits(s)
  {
    if |s| == 0 then 0 else DecimalValue(s[..|s| - 1]) * 10 + DigitValue(s[|s| - 1])
  }

  /** The decimal rendering of an integer, with a leading `-` when negative. */
  function IntToDecimal(n: int): (s: string)
    ensures |s| >= 1
    ensures forall i :: 0 <= i < |s| ==> IsDigit(s[i]) || (i == 0 && s[i] == '-')
  {
    if n < 0 then "-" + NatToDecimal(-n) else NatToDecimal(n)
  }

  lemma {:induction false} DecimalRoundTrip(n: nat)
    ensures DecimalValue(NatToDecimal(n)) == n
    decreases n
  {
    if n >= 10 {
      DecimalRoundTrip(n / 10);
      var s := NatToDecimal(n);
      assert s[..|s| - 1] == NatToDecimal(n / 10);
    }
  }

  /** `parseInt(s, 10)`: leading whitespace, an optional sign, then the longest
      run of decimal digits; `NaN` (here `None`) when there is no digit. */
  function ParseInt(s: string): (r: Option<int>)
    ensures AllDigits(s) && |s| > 0 ==> r == Some(DecimalValue(s))
  {
    var t := TrimStart(s);
    assert AllDigits(s) && |s| > 0 ==> t == s;
    ParseTrimmed(t)
  }

  /** `parseInt` once leading whitespace is gone. */
  function ParseTrimmed(t: string): (r: Option<int>)
    ensures AllDigits(t) && |t| > 0 ==> r == Some(DecimalValue(t))
  {
    if |t| > 0 && (t[0] == '-' || t[0] == '+') then
      var ds := DigitPrefix(t[1..]);
      if |ds| == 0 then None
      else
        var v: int := DecimalValue(ds);
        if t[0] == '-' then Some(-v) else Some(v)
    else
      var ds := DigitPrefix(t);
      if |ds| == 0 then None else Some(DecimalValue(ds))
  }

  lemma ParseIntRoundTrip(n: int)
    ensures ParseInt(IntToDecimal(n)) == Some(n)
  {
    if n < 0 {
      var ds := NatToDecimal(-n);
      DecimalRoundTrip(-n);
      assert DigitPrefix(ds) == ds;
      ParseNegativo(ds, ds, n);
      assert IntToDecimal(n) == "-" + ds;
    } else {
      DecimalRoundTrip(n);
    }
  }

  /** `parseInt` of a minus sign followed by digits worth `-n` reads `n`. */
  lemma ParseNegativo(x: string, ds: string, n: int)
    requires ds == DigitPrefix(x) && |ds| > 0 && DecimalValue(ds) == -n
    ensures !AllDigits("-" + x)
    ensures ParseInt("-" + x) == Some(n)
  {
    var s := "-" + x;
    assert !IsDigit(s[0]);
    assert TrimStart(s) == s by {
      assert !IsWhitespace(s[0]);
    }
    assert s[1..] == x;
    SignoMenos(s, n);
  }

  /** `ParseTrimmed` of a minus sign and digits worth `-n`. */
  lemma SignoMenos(s: string, n: int)
    requires |s| > 0 && s[0] == '-'
    requires |DigitPrefix(s[1..])| > 0 && DecimalValue(DigitPrefix(s[1..])) == -n
    ensures ParseTrimmed(s) == Some(n)
  {
    var v: int := DecimalValue(DigitPrefix(s[1..]));
    assert -v == n;
  }

  /** `parseInt` reads back a rendered integer followed by a non-digit. */
  lemma ParseIntThen(n: int, rest: string)
    requires |rest| > 0 && !IsDigit(rest[0])
    ensures ParseInt(IntToDecimal(n) + rest) == Some(n)
  {
    if n < 0 {
      ParseNegThen(n, rest);
    } else {
      ParsePosThen(n, rest);
    }
  }

  lemma ParseNegThen(n: int, rest: string)
    requires n < 0
    requires |rest| > 0 && !IsDigit(rest[0])
    ensures ParseInt(IntToDecimal(n) + rest) == Some(n)
  {
    var ds := NatToDecimal(-n);
    DecimalRoundTrip(-n);
    ParseSignoThen(IntToDecimal(n), ds, rest, n);
  }

  lemma ConcatAssoc<T>(a: seq<T>, b: seq<T>, c: seq<T>)
    ensures (a + b) + c == a + (b + c)
  {
  }

  /** `parseInt` of `t + rest`, where `t` is a minus sign and the digits of `-n`. */
  lemma ParseSignoThen(t: string, ds: string, rest: string, n: int)
    requires |ds| > 0 && AllDigits(ds) && DecimalValue(ds) == -n
    requires t == "-" + ds
    requires |rest| > 0 && !IsDigit(rest[0])
    ensures ParseInt(t + rest) == Some(n)
  {
    ConcatAssoc("-", ds, rest);
    DigitPrefixStops(ds, rest);
    ParseNegativo(ds + rest, ds, n);
  }

  lemma ParsePosThen(n: int, rest: string)
    requires n >= 0
    requires |rest| > 0 && !IsDigit(rest[0])
    ensures ParseInt(IntToDecimal(n) + rest) == Some(n)
  {
    var ds := NatToDecimal(n);
    DecimalRoundTrip(n);
    ParseIntDigitsThen(ds, rest);
    assert IntToDecimal(n) + rest == ds + rest;
  }

  /** `parseInt` of digits followed by a non-digit reads the digits only. */
  lemma ParseIntDigitsThen(ds: string, rest: string)
    requires |ds| > 0 && AllDigits(ds)
    requires |rest| > 0 && !IsDigit(rest[0])
    ensures !AllDigits(ds + rest)
    ensures ParseInt(ds + rest) == Some(DecimalValue(ds))
  {
    var s := ds + rest;
    assert s[|ds|] == rest[0];
    assert s[0] == ds[0];
    assert IsDigit(s[0]);
    assert !IsWhitespace(s[0]);
    assert TrimStart(s) == s;
    DigitPrefixStops(ds, rest);
    assert s[0] != '-' && s[0] != '+';
    assert ParseTrimmed(s) == Some(DecimalValue(ds));
  }

  lemma {:induction false} DigitPrefixStops(ds: string, rest: string)
    requires AllDigits(ds)
    requires |rest| > 0 && !IsDigit(rest[0])
    ensures DigitPrefix(ds + rest) == ds
    decreases |ds|
  {
    if |ds| > 0 {
      assert (ds + rest)[1..] == ds[1..] + rest;
      DigitPrefixStops(ds[1..], rest);
    } else {
      assert ds + rest == rest;
    }
  }

  /** The longest prefix made of decimal digits. */
  function DigitPrefix(s: string): (d: string)
    ensures AllDigits(d) && |d| <= |s| && d == s[..|d|]
    ensures |d| < |s| ==> !IsDigit(s[|d|])
    ensures AllDigits(s) ==> d == s
  {
    if |s| > 0 && IsDigit(s[0]) then [s[0]] + DigitPrefix(s[1..]) else []
  }
}

=== FILE: toasts.dfy ===
/** The toast list (src/store/toastStore.ts) as a value: adding appends one
    toast under the id drawn for it (the draw is a parameter, and nothing
    makes it differ from the ids in use), removing filters by id, clearing
    empties it. */
module ToastStore {
  import opened Base
  import Sorting

  datatype TipoToast = Success | Error | Warning | Info

  datatype Toast = Toast(id: string, message: string, tipo: TipoToast, duration: Option<int>)

  type Toasts = seq<Toast>

  /** The ids in use. */
  function Ids(toasts: Toasts): set<string> {
    set i | 0 <= i < |toasts| :: toasts[i].id
  }

  /** `addToast` with the random id it draws passed in. */
  function AddToast(toasts: Toasts, message: string, tipo: TipoToast, duration: Option<int>, id: string): (r: Toasts)
    ensures |r| == |toasts| + 1 && r[..|toasts|] == toasts
    ensures r[|toasts|] == Toast(id, message, tipo, duration)
    ensures Ids(r) == Ids(toasts) + {id}
  {
    var r := toasts + [Toast(id, message, tipo, duration)];
    assert r[..|toasts|] == toasts;
    assert Ids(r) == Ids(toasts) + {id} by {
      forall x | x in Ids(r) ensures x in Ids(toasts) + {id} {
        var i :| 0 <= i < |r| && r[i].id == x;
        if i < |toasts| { assert toasts[i].id == x; }
      }
      forall x | x in Ids(toasts) ensures x in Ids(r) {
        var i :| 0 <= i < |toasts| && toasts[i].id == x;
        assert r[i].id == x;
      }
      assert r[|toasts|].id == id;
    }
    r
  }

  /** `removeToast`: every toast with that id goes, the rest keep their order. */
  function RemoveToast(toasts: Toasts, id: string): (r: Toasts)
    ensures id !in Ids(r)
    ensures forall i :: 0 <= i < |toasts| && toasts[i].id != id ==> toasts[i] in r
    ensures forall i :: 0 <= i < |r| ==> r[i] in toasts
    ensures id !in Ids(toasts) ==> r == toasts
    ensures |toasts| == 1 ==> r == (if toasts[0].id == id then [] else toasts)
  {
    var r := Sorting.Filter(toasts, (t: Toast) => t.id != id);
    FilterKeepsAll(toasts, id);
    r
  }

  /** Removal works piecewise: removing from two lists joined is joining
      what is left of each. With the one-toast case above, this fixes the
      result completely, order included. */
  lemma RemoveToastConcat(a: Toasts, b: Toasts, id: string)
    ensures RemoveToast(a + b, id) == RemoveToast(a, id) + RemoveToast(b, id)
  {
    Sorting.FilterAppend(a, b, (t: Toast) => t.id != id);
  }

  /** A filter on an id no toast has keeps the whole list. */
  lemma FilterKeepsAll(toasts: Toasts, id: string)
    ensures id !in Ids(toasts) ==> Sorting.Filter(toasts, (t: Toast) => t.id != id) == toasts
  {
    assert forall i :: 0 <= i < |toasts| ==> toasts[i].id in Ids(toasts);
    Sorting.FilterAll(toasts, (t: Toast) => t.id != id);
  }

  /** Removing a toast just added under a fresh id gives the list back. */
  lemma RemoveAfterAdd(toasts: Toasts, message: string, tipo: TipoToast, duration: Option<int>, id: string)
    requires id !in Ids(toasts)
    ensures RemoveToast(AddToast(toasts, message, tipo, duration, id), id) == toasts
  {
    var p := (t: Toast) => t.id != id;
    var t := Toast(id, message, tipo, duration);
    Sorting.FilterAppend(toasts, [t], p);
    FilterKeepsAll(toasts, id);
    assert Sorting.Filter([t], p) == [];
    assert toasts + [t] == AddToast(toasts, message, tipo, duration, id);
  }

  /** `clearAll`. */
  function ClearAll(toasts: Toasts): (r: Toasts)
    ensures r == [] && Ids(r) == {}
  {
    []
  }

  /** The `toast.success/error/warning/info` helpers: each adds one toast of
      its own type with the given message and duration. */
  function Notificar(toasts: Toasts, tipo: TipoToast, message: string, duration: Option<int>, id: string): (r: Toasts)
    ensures |r| == |toasts| + 1 && r[..|toasts|] == toasts
    ensures r[|toasts|].tipo == tipo && r[|toasts|].message == message && r[|toasts|].duration == duration
  {
    AddToast(toasts, message, tipo, duration, id)
  }
}

=== FILE: utils.dfy ===
/** General helpers (src/lib/utils.ts): storage file names and paths, text
    truncation and capitalisation, initials, and the hex rendering of a digest. */
module Utils {
  import opened Base
  import opened Text

  // ---------------------------------------------------------------------
  // File names
  // ---------------------------------------------------------------------

  /** The characters a storage file name keeps: `[a-z0-9.-]`. */
  predicate PermitidoEnArchivo(c: char) {
    IsAsciiLower(c) || IsDigit(c) || c == '.' || c == '-'
  }

  /** `replace(/\s+/g, '-')`: every maximal run of whitespace becomes one hyphen. */
  function GuionarEspacios(s: string): (r: string)
    ensures forall i :: 0 <= i < |r| ==> !IsWhitespace(r[i])
    ensures forall i :: 0 <= i < |r| ==> r[i] == '-' || r[i] in s
    ensures (forall i :: 0 <= i < |s| ==> !IsWhitespace(s[i])) ==> r == s
    decreases |s|
  {
    if |s| == 0 then ""
    else if IsWhitespace(s[0]) then
      var rest := TrimStart(s[1..]);
      TrasEspaciosEnS(s, rest);
      var t := GuionarEspacios(rest);
      GuionDelante(s, rest, t);
      "-" + t
    else
      var t := GuionarEspacios(s[1..]);
      CaracterDelante(s, t);
      [s[0]] + t
  }

  /** A run of blanks at the head of `s` becomes one hyphen before the rest. */
  lemma GuionDelante(s: string, rest: string, t: string)
    requires |s| > 0 && IsWhitespace(s[0])
    requires forall i :: 0 <= i < |rest| ==> rest[i] in s
    requires forall i :: 0 <= i < |t| ==> !IsWhitespace(t[i])
    requires forall i :: 0 <= i < |t| ==> t[i] == '-' || t[i] in rest
    ensures forall i :: 0 <= i < |"-" + t| ==> !IsWhitespace(("-" + t)[i])
    ensures forall i :: 0 <= i < |"-" + t| ==> ("-" + t)[i] == '-' || ("-" + t)[i] in s
  {
    forall i | 0 <= i < |"-" + t| ensures ("-" + t)[i] == '-' || ("-" + t)[i] in s {
      if i > 0 {
        assert ("-" + t)[i] == t[i - 1];
      }
    }
  }

  /** A non-blank head of `s` is kept before the rest. */
  lemma CaracterDelante(s: string, t: string)
    requires |s| > 0 && !IsWhitespace(s[0])
    requires forall i :: 0 <= i < |t| ==> !IsWhitespace(t[i])
    requires forall i :: 0 <= i < |t| ==> t[i] == '-' || t[i] in s[1..]
    requires (forall i :: 1 <= i < |s| ==> !IsWhitespace(s[i])) ==> t == s[1..]
    ensures forall i :: 0 <= i < |[s[0]] + t| ==> !IsWhitespace(([s[0]] + t)[i])
    ensures forall i :: 0 <= i < |[s[0]] + t| ==> ([s[0]] + t)[i] == '-' || ([s[0]] + t)[i] in s
    ensures (forall i :: 0 <= i < |s| ==> !IsWhitespace(s[i])) ==> [s[0]] + t == s
  {
    forall i | 0 <= i < |[s[0]] + t| ensures ([s[0]] + t)[i] == '-' || ([s[0]] + t)[i] in s {
      if i > 0 {
        assert ([s[0]] + t)[i] == t[i - 1];
      }
    }
    if forall i :: 0 <= i < |s| ==> !IsWhitespace(s[i]) {
      assert s == [s[0]] + s[1..];
    }
  }

  /** What is left after the leading blanks of `s[1..]` are dropped comes from `s`. */
  lemma TrasEspaciosEnS(s: string, rest: string)
    requires |s| > 0 && rest == TrimStart(s[1..])
    ensures |rest| < |s|
    ensures forall i :: 0 <= i < |rest| ==> rest[i] in s
  {
    forall i | 0 <= i < |rest| ensures rest[i] in s {
      assert rest[i] == s[1..][|s[1..]| - |rest| + i];
    }
  }

  /** A blank run between a non-blank end and a non-blank start (either side
      may be empty) becomes exactly one hyphen, each side being hyphenated on
      its own. With the blank-free case of `GuionarEspacios`, this fixes the
      result for every string: the characters outside blank runs are kept in
      order and each run gives one `-`. */
  lemma {:induction false} GuionarTramo(a: string, w: string, b: string)
    requires |w| > 0 && IsBlank(w)
    requires |a| == 0 || !IsWhitespace(a[|a| - 1])
    requires |b| == 0 || !IsWhitespace(b[0])
    ensures GuionarEspacios(a + w + b) == GuionarEspacios(a) + "-" + GuionarEspacios(b)
    decreases |a|
  {
    if |a| == 0 {
      assert a + w + b == w + b;
      TramoAlPrincipio(w, b);
    } else if IsWhitespace(a[0]) {
      var a1 := a[1..];
      assert |a1| > 0 && a1[|a1| - 1] == a[|a| - 1];
      BlankIffTrimStartEmpty(a1);
      var t := TrimStart(a1);
      assert t[|t| - 1] == a1[|a1| - 1];
      GuionarTramo(t, w, b);
      TramoTrasBlanco(a, w, b);
    } else {
      GuionarTramo(a[1..], w, b);
      TramoTrasCaracter(a, w, b);
    }
  }

  /** `GuionarTramo` with nothing before the run. */
  lemma TramoAlPrincipio(w: string, b: string)
    requires |w| > 0 && IsBlank(w)
    requires |b| == 0 || !IsWhitespace(b[0])
    ensures GuionarEspacios(w + b) == "-" + GuionarEspacios(b)
  {
    var s := w + b;
    assert s[0] == w[0];
    assert s[1..] == w[1..] + b;
    TrimStartBlankPrefix(w[1..], b);
    GuionBlanco(s);
  }

  /** The step of `GuionarTramo` at a blank head of `a`. */
  lemma TramoTrasBlanco(a: string, w: string, b: string)
    requires |a| > 0 && IsWhitespace(a[0]) && !IsBlank(a[1..])
    requires GuionarEspacios(TrimStart(a[1..]) + w + b) == GuionarEspacios(TrimStart(a[1..])) + "-" + GuionarEspacios(b)
    ensures GuionarEspacios(a + w + b) == GuionarEspacios(a) + "-" + GuionarEspacios(b)
  {
    var t := TrimStart(a[1..]);
    GuionBlancoDelanteDeTres(a, w, b);
    GuionBlanco(a);
    GuionDelanteAsocia(GuionarEspacios(a + w + b), GuionarEspacios(t + w + b), GuionarEspacios(t), GuionarEspacios(b),
                       GuionarEspacios(a));
  }

  /** The blank head of `a` and the blanks after it become one hyphen in
      front of the rest of `a`, then `w` and `b`. */
  lemma GuionBlancoDelanteDeTres(a: string, w: string, b: string)
    requires |a| > 0 && IsWhitespace(a[0]) && !IsBlank(a[1..])
    ensures GuionarEspacios(a + w + b) == "-" + GuionarEspacios(TrimStart(a[1..]) + w + b)
  {
    RecorteDeTres(a, w, b);
    GuionBlanco(a + w + b);
  }

  /** Dropping the leading blanks after a blank head of `a` stops inside `a`. */
  lemma RecorteDeTres(a: string, w: string, b: string)
    requires |a| > 0 && !IsBlank(a[1..])
    ensures (a + w + b)[0] == a[0]
    ensures TrimStart((a + w + b)[1..]) == TrimStart(a[1..]) + w + b
  {
    var t := TrimStart(a[1..]);
    ColaDeTres(a, w, b);
    TrimStartConcat(a[1..], w + b);
    assert t + (w + b) == t + w + b;
  }

  /** Regrouping a hyphen put in front of two pieces joined by a hyphen. */
  lemma GuionDelanteAsocia(gs: string, gtwb: string, gt: string, gb: string, ga: string)
    requires gs == "-" + gtwb && gtwb == gt + "-" + gb && ga == "-" + gt
    ensures gs == ga + "-" + gb
  {
  }

  /** The step of `GuionarTramo` at a non-blank head of `a`. */
  lemma TramoTrasCaracter(a: string, w: string, b: string)
    requires |a| > 0 && !IsWhitespace(a[0])
    requires GuionarEspacios(a[1..] + w + b) == GuionarEspacios(a[1..]) + "-" + GuionarEspacios(b)
    ensures GuionarEspacios(a + w + b) == GuionarEspacios(a) + "-" + GuionarEspacios(b)
  {
    var s := a + w + b;
    ColaDeTres(a, w, b);
    GuionNoBlanco(s);
    GuionNoBlanco(a);
  }

  /** The head and tail of three strings joined, the first non-empty. */
  lemma ColaDeTres(a: string, w: string, b: string)
    requires |a| > 0
    ensures (a + w + b)[0] == a[0] && (a + w + b)[1..] == a[1..] + w + b
    ensures (a + w + b)[1..] == a[1..] + (w + b)
  {
  }

  /** One step of `GuionarEspacios` at a blank head. */
  lemma GuionBlanco(s: string)
    requires |s| > 0 && IsWhitespace(s[0])
    ensures GuionarEspacios(s) == "-" + GuionarEspacios(TrimStart(s[1..]))
  {
  }

  /** One step of `GuionarEspacios` at a non-blank head. */
  lemma GuionNoBlanco(s: string)
    requires |s| > 0 && !IsWhitespace(s[0])
    ensures GuionarEspacios(s) == [s[0]] + GuionarEspacios(s[1..])
  {
  }

  /** `replace(/[^a-z0-9.-]/g, '')`: drops every character outside the class;
      with `SoloPermitidosConcatena` the characters kept are exactly the
      allowed ones, in order. */
  function SoloPermitidos(s: string): (r: string)
    ensures forall i :: 0 <= i < |r| ==> PermitidoEnArchivo(r[i])
    ensures forall i :: 0 <= i < |r| ==> r[i] in s
    ensures (forall i :: 0 <= i < |s| ==> PermitidoEnArchivo(s[i])) ==> r == s
    ensures |s| == 1 ==> r == (if PermitidoEnArchivo(s[0]) then s else "")
  {
    if |s| == 0 then ""
    else if PermitidoEnArchivo(s[0]) then [s[0]] + SoloPermitidos(s[1..])
    else SoloPermitidos(s[1..])
  }

  /** Filtering two strings joined is joining what each keeps. */
  lemma {:induction false} SoloPermitidosConcatena(a: string, b: string)
    ensures SoloPermitidos(a + b) == SoloPermitidos(a) + SoloPermitidos(b)
    decreases |a|
  {
    if |a| == 0 {
      assert a + b == b;
    } else {
      assert (a + b)[1..] == a[1..] + b;
      SoloPermitidosConcatena(a[1..], b);
    }
  }

  /** `formatearNombreArchivo`: lower-case, whitespace runs to `-`, then only
      `[a-z0-9.-]` survives; it never introduces a `.`. A name without
      whitespace keeps exactly its allowed lower-cased characters, and
      `FormatearTramo` takes this across blank runs. */
  function FormatearNombreArchivo(nombre: string): (r: string)
    ensures forall i :: 0 <= i < |r| ==> PermitidoEnArchivo(r[i])
    ensures '.' in r ==> '.' in nombre
    ensures (forall i :: 0 <= i < |nombre| ==> !IsWhitespace(nombre[i])) ==> r == SoloPermitidos(Lower(nombre))
  {
    var lower := Lower(nombre);
    var guionado := GuionarEspacios(lower);
    var r := SoloPermitidos(guionado);
    assert '.' in r ==> '.' in nombre by {
      if '.' in r {
        assert '.' in guionado;
        var k :| 0 <= k < |lower| && lower[k] == '.';
        assert nombre[k] == '.';
      }
    }
    r
  }

  /** A blank run between a non-blank end and a non-blank start (either side
      may be empty) gives one `-`, each side being formatted on its own. */
  lemma FormatearTramo(a: string, w: string, b: string)
    requires |w| > 0 && IsBlank(w)
    requires |a| == 0 || !IsWhitespace(a[|a| - 1])
    requires |b| == 0 || !IsWhitespace(b[0])
    ensures FormatearNombreArchivo(a + w + b) == FormatearNombreArchivo(a) + "-" + FormatearNombreArchivo(b)
  {
    var la, lw, lb := Lower(a), Lower(w), Lower(b);
    assert Lower(a + w + b) == la + lw + lb;
    assert IsBlank(lw) by {
      forall i | 0 <= i < |lw| ensures IsWhitespace(lw[i]) {
        assert IsWhitespace(w[i]);
      }
    }
    GuionarTramo(la, lw, lb);
    var ga, gb := GuionarEspacios(la), GuionarEspacios(lb);
    SoloPermitidosConcatena(ga + "-", gb);
    SoloPermitidosConcatena(ga, "-");
  }

  /** Formatting an already formatted name changes nothing. */
  lemma FormatearIdempotente(nombre: string)
    ensures FormatearNombreArchivo(FormatearNombreArchivo(nombre)) == FormatearNombreArchivo(nombre)
  {
    var r := FormatearNombreArchivo(nombre);
    assert Lower(r) == r;
    assert forall i :: 0 <= i < |r| ==> !IsWhitespace(r[i]);
  }

  /** `obtenerExtension`: `.` followed by the last `.`-separated piece, or `''`
      when there is no dot. The result is the dot-free tail of the name
      together with the dot before it. */
  function ObtenerExtension(nombre: string): (r: string)
    ensures '.' !in nombre ==> r == ""
    ensures '.' in nombre ==> |r| >= 1 && r[0] == '.' && '.' !in r[1..] && EndsWith(nombre, r)
  {
    LastPartIsSuffix(nombre, '.');
    if '.' in nombre then
      var last := LastPart(nombre, '.');
      assert nombre[|nombre| - |last| - 1..] == "." + last;
      "." + last
    else
      ""
  }

  /** `generarNombreUnicoArchivo`: the upload time, `_`, the formatted name with
      the first occurrence of its extension removed, and the extension. */
  function GenerarNombreUnicoArchivo(timestamp: nat, nombre: string): (r: string)
    ensures var ext := ObtenerExtension(nombre);
      r == NatToDecimal(timestamp) + "_" + FormatearNombreArchivo(ReplaceFirst(nombre, ext, "")) + ext
    ensures EndsWith(r, ObtenerExtension(nombre))
    ensures ObtenerExtension(r) == ObtenerExtension(nombre)
    ensures ParseInt(r) == Some(timestamp)
  {
    var ext := ObtenerExtension(nombre);
    var sinExt := ReplaceFirst(nombre, ext, "");
    var ts := NatToDecimal(timestamp);
    var cuerpo := ts + "_" + FormatearNombreArchivo(sinExt);
    LeeMarcaDeTiempo(timestamp, FormatearNombreArchivo(sinExt) + ext);
    assert ts + "_" + (FormatearNombreArchivo(sinExt) + ext) == cuerpo + ext;
    CuerpoSinPunto(nombre, ts, sinExt);
    ExtensionPreservada(nombre, cuerpo, ext);
    cuerpo + ext
  }

  /** The upload time in front of `_` is what `parseInt` reads back. */
  lemma LeeMarcaDeTiempo(timestamp: nat, resto: string)
    ensures ParseInt(NatToDecimal(timestamp) + "_" + resto) == Some(timestamp)
  {
    var ts := NatToDecimal(timestamp);
    assert ts + "_" + resto == ts + ("_" + resto);
    ParseIntDigitsThen(ts, "_" + resto);
    DecimalRoundTrip(timestamp);
  }

  /** Without a dot in the original name there is none in the generated body. */
  lemma CuerpoSinPunto(nombre: string, ts: string, sinExt: string)
    requires AllDigits(ts)
    requires sinExt == ReplaceFirst(nombre, ObtenerExtension(nombre), "")
    ensures '.' !in nombre ==> '.' !in ts + "_" + FormatearNombreArchivo(sinExt)
  {
    if '.' !in nombre {
      assert sinExt == nombre;
      var f := FormatearNombreArchivo(sinExt);
      assert '.' !in f;
      assert forall k :: 0 <= k < |ts| ==> ts[k] != '.';
    }
  }

  /** A name ending in `.` and a dot-free suffix has that suffix as its extension. */
  lemma ExtensionTras(cuerpo: string, ext: string)
    requires '.' !in ext
    ensures ObtenerExtension(cuerpo + "." + ext) == "." + ext
  {
    assert cuerpo + "." + ext == cuerpo + ['.'] + ext;
    LastPartAfterSep(cuerpo, '.', ext);
  }

  lemma ExtensionPreservada(nombre: string, cuerpo: string, ext: string)
    requires ext == ObtenerExtension(nombre)
    requires '.' !in nombre ==> '.' !in cuerpo
    ensures ObtenerExtension(cuerpo + ext) == ext
  {
    if '.' in nombre {
      var last := ext[1..];
      assert cuerpo + ext == cuerpo + ['.'] + last;
      LastPartAfterSep(cuerpo, '.', last);
    } else {
      assert cuerpo + ext == cuerpo;
    }
  }

  // ---------------------------------------------------------------------
  // Storage paths
  // ---------------------------------------------------------------------

  /** `construirRutaStorage`: `cliente/tipo/version/nombre`. */
  function ConstruirRutaStorage(clienteId: string, tipoDocumentoId: string, version: int, nombreArchivo: string): (r: string)
    ensures |r| == |clienteId| + |tipoDocumentoId| + |IntToDecimal(version)| + |nombreArchivo| + 3
    ensures StartsWith(r, clienteId + "/") && EndsWith(r, "/" + nombreArchivo)
  {
    clienteId + "/" + tipoDocumentoId + "/" + IntToDecimal(version) + "/" + nombreArchivo
  }

  /** Splitting a storage path on `/` gives back the client, the document type
      and the version, then the pieces of the file name; with a `/`-free file
      name it is exactly the four parts. */
  lemma RutaRecuperable(clienteId: string, tipoDocumentoId: string, version: int, nombreArchivo: string)
    requires '/' !in clienteId && '/' !in tipoDocumentoId
    ensures Split(ConstruirRutaStorage(clienteId, tipoDocumentoId, version, nombreArchivo), '/')
      == [clienteId, tipoDocumentoId, IntToDecimal(version)] + Split(nombreArchivo, '/')
    ensures ParseInt(IntToDecimal(version)) == Some(version)
    ensures '/' !in nombreArchivo ==>
      Split(ConstruirRutaStorage(clienteId, tipoDocumentoId, version, nombreArchivo), '/')
        == [clienteId, tipoDocumentoId, IntToDecimal(version), nombreArchivo]
  {
    var v := IntToDecimal(version);
    assert forall k :: 0 <= k < |v| ==> v[k] != '/';
    SplitTres(clienteId, tipoDocumentoId, v, nombreArchivo);
    ParseIntRoundTrip(version);
  }

  lemma SplitTres(a: string, b: string, c: string, resto: string)
    requires '/' !in a && '/' !in b && '/' !in c
    ensures Split(a + "/" + b + "/" + c + "/" + resto, '/') == [a, b, c] + Split(resto, '/')
    ensures '/' !in resto ==> Split(a + "/" + b + "/" + c + "/" + resto, '/') == [a, b, c, resto]
  {
    var cola := c + ['/'] + resto;
    var medio := b + ['/'] + cola;
    assert a + "/" + b + "/" + c + "/" + resto == a + ['/'] + medio;
    SplitAfterFirst(a, '/', medio);
    SplitAfterFirst(b, '/', cola);
    SplitAfterFirst(c, '/', resto);
    Reasociar(a, b, c, Split(resto, '/'));
  }

  lemma Reasociar<T>(a: T, b: T, c: T, resto: seq<T>)
    ensures [a] + ([b] + ([c] + resto)) == [a, b, c] + resto
  {
  }

  // ---------------------------------------------------------------------
  // Phone numbers
  // ---------------------------------------------------------------------

  /** The class `[\d\s\-()+ ]` of `validarTelefono`. */
  predicate CaracterTelefono(c: char) {
    IsDigit(c) || IsWhitespace(c) || c == '-' || c == '(' || c == ')' || c == '+'
  }

  /** `validarTelefono`: 8 to 20 characters, each from the class above. */
  function ValidarTelefono(telefono: string): (ok: bool)
    ensures ok ==> 8 <= |telefono| <= 20
    ensures ok <==> 8 <= |telefono| <= 20 && forall c :: c in telefono ==> CaracterTelefono(c)
  {
    8 <= |telefono| <= 20 && forall i :: 0 <= i < |telefono| ==> CaracterTelefono(telefono[i])
  }

  /** Typical numbers pass, a letter or a short number fails. */
  lemma TelefonosDeEjemplo()
    ensures ValidarTelefono("+56 9 1234 5678")
    ensures ValidarTelefono("(02) 2345-6789")
    ensures !ValidarTelefono("+56 9 1234 567a")
    ensures !ValidarTelefono("1234567")
  {
    assert "+56 9 1234 567a"[14] == 'a';
  }

  // ---------------------------------------------------------------------
  // Text
  // ---------------------------------------------------------------------

  /** `truncarTexto`: unchanged when it fits; otherwise the first `longitud`
      characters (none when `longitud` is negative) followed by `...`. */
  function TruncarTexto(texto: string, longitud: int): (r: string)
    ensures |texto| <= longitud ==> r == texto
    ensures |texto| > longitud ==>
      |r| == (if longitud < 0 then 0 else longitud) + 3 && EndsWith(r, "...")
      && StartsWith(texto, r[..|r| - 3])
    ensures |r| <= |texto| || |texto| > longitud
  {
    if |texto| <= longitud then texto else Substring(texto, 0, longitud) + "..."
  }

  /** `capitalizar`: `''` stays `''`; otherwise the first character upper-cased
      and the rest lower-cased. The result differs from the input only in the
      case of ASCII letters. */
  function Capitalizar(texto: string): (r: string)
    ensures |r| == |texto|
    ensures |r| > 0 ==> !IsAsciiLower(r[0])
    ensures forall i :: 1 <= i < |r| ==> !IsAsciiUpper(r[i])
    ensures Lower(r) == Lower(texto)
  {
    if texto == "" then ""
    else
      var r := [UpperChar(texto[0])] + Lower(texto[1..]);
      assert forall i :: 0 <= i < |r| ==> LowerChar(r[i]) == LowerChar(texto[i]) by {
        forall i | 0 <= i < |r| ensures LowerChar(r[i]) == LowerChar(texto[i]) {
          if i > 0 { assert r[i] == LowerChar(texto[1..][i - 1]); }
        }
      }
      r
  }

  /** Capitalising twice is capitalising once. */
  lemma CapitalizarIdempotente(texto: string)
    ensures Capitalizar(Capitalizar(texto)) == Capitalizar(texto)
  {
    var r := Capitalizar(texto);
    if r != "" {
      assert Lower(r[1..]) == r[1..];
    }
  }

  // ---------------------------------------------------------------------
  // Initials
  // ---------------------------------------------------------------------

  /** `palabra[0]` inside a string concatenation: a missing character reads as
      the text `undefined`. */
  function PrimeraLetra(palabra: string): string
  {
    if |palabra| > 0 then [palabra[0]] else "undefined"
  }

  /** `obtenerIniciales`: one word gives its first two characters, several
      give the first character of the first and of the last word; upper-cased.
      Both are stated on the trimmed name without reference to the split. */
  function ObtenerIniciales(nombre: string): (r: string)
    ensures var t := Trim(nombre);
      (forall i :: 0 <= i < |t| ==> !IsWhitespace(t[i])) ==> r == Upper(Substring(t, 0, 2))
    ensures var t := Trim(nombre);
      (exists i :: 0 <= i < |t| && IsWhitespace(t[i])) ==>
        LastRunStart(t) < |t| && r == [UpperChar(t[0]), UpperChar(t[LastRunStart(t)])]
  {
    var t := Trim(nombre);
    InicialesCorrectas(t);
    InicialesDe(t)
  }

  /** The initials of an already trimmed name. */
  function InicialesDe(t: string): string
  {
    InicialesDePalabras(SplitWhitespace(t))
  }

  /** The initials of a non-empty list of words. */
  function InicialesDePalabras(palabras: seq<string>): string
    requires |palabras| >= 1
  {
    if |palabras| == 1 then Upper(Substring(palabras[0], 0, 2))
    else Upper(PrimeraLetra(palabras[0]) + PrimeraLetra(palabras[|palabras| - 1]))
  }

  lemma InicialesCorrectas(t: string)
    requires |t| > 0 ==> !IsWhitespace(t[0]) && !IsWhitespace(t[|t| - 1])
    ensures (forall i :: 0 <= i < |t| ==> !IsWhitespace(t[i])) ==> InicialesDe(t) == Upper(Substring(t, 0, 2))
    ensures (exists i :: 0 <= i < |t| && IsWhitespace(t[i])) ==>
      LastRunStart(t) < |t| && InicialesDe(t) == [UpperChar(t[0]), UpperChar(t[LastRunStart(t)])]
  {
    SplitWhitespaceSingle(t);
    if |SplitWhitespace(t)| != 1 {
      InicialesVariasPalabras(t);
    }
  }

  /** With several words, the initials are the first character of the name
      and the first character of its trailing run. */
  lemma InicialesVariasPalabras(t: string)
    requires |t| > 0 && !IsWhitespace(t[0]) && !IsWhitespace(t[|t| - 1])
    requires |SplitWhitespace(t)| != 1
    ensures LastRunStart(t) < |t|
    ensures InicialesDe(t) == [UpperChar(t[0]), UpperChar(t[LastRunStart(t)])]
  {
    SplitWhitespaceEnds(t);
    PrimerasDe(SplitWhitespace(t), t[0], t[LastRunStart(t)]);
  }

  /** Several words, the first starting with `a` and the last with `b`, give
      the initials `a` and `b` upper-cased. */
  lemma PrimerasDe(p: seq<string>, a: char, b: char)
    requires |p| > 1 && |p[0]| > 0 && p[0][0] == a && |p[|p| - 1]| > 0 && p[|p| - 1][0] == b
    ensures InicialesDePalabras(p) == [UpperChar(a), UpperChar(b)]
  {
    assert PrimeraLetra(p[0]) + PrimeraLetra(p[|p| - 1]) == [a, b];
  }

  // ---------------------------------------------------------------------
  // Hex rendering of a digest
  // ---------------------------------------------------------------------

  newtype Byte = x: int | 0 <= x < 256

  /** A SHA-256 digest (FIPS 180-4): 32 bytes. */
  type Digest = d: seq<Byte> | |d| == 32 witness seq(32, _ => 0 as Byte)

  const HexDigits: string := "0123456789abcdef"

  function HexDigit(d: int): (c: char)
    requires 0 <= d < 16
    ensures IsHexChar(c)
  {
    HexDigits[d]
  }

  /** A lower-case hex digit, one of `HexDigits`. */
  predicate IsHexChar(c: char) {
    '0' <= c <= '9' || 'a' <= c <= 'f'
  }

  /** `b.toString(16)`: base 16 without leading zeros. */
  function ToString16(b: Byte): (s: string)
    ensures 1 <= |s| <= 2
  {
    if b < 16 then [HexDigit(b as int)] else [HexDigit(b as int / 16), HexDigit(b as int % 16)]
  }

  /** `padStart(2, '0')`. */
  function PadStart2(s: string): (r: string)
    ensures |r| == if |s| >= 2 then |s| else 2
  {
    if |s| >= 2 then s else seq(2 - |s|, _ => '0') + s
  }

  /** Two hex digits per byte: the padding makes every byte exactly its high
      and low nibble. */
  function ByteHex(b: Byte): (s: string)
    ensures s == [HexDigit(b as int / 16), HexDigit(b as int % 16)]
  {
    PadStart2(ToString16(b))
  }

  /** `hashArray.map(...).join('')`. */
  function HexEncode(bs: seq<Byte>): (s: string)
    ensures |s| == 2 * |bs|
    ensures forall i :: 0 <= i < |s| ==> IsHexChar(s[i])
  {
    if |bs| == 0 then "" else ByteHex(bs[0]) + HexEncode(bs[1..])
  }

  /** The value of a lower-case hex digit. */
  function HexValue(c: char): (d: int)
    requires IsHexChar(c)
    ensures 0 <= d < 16
  {
    if '0' <= c <= '9' then c as int - '0' as int else c as int - 'a' as int + 10
  }

  /** `HexValue` inverts `HexDigit`. */
  lemma HexValueOfDigit(d: int)
    requires 0 <= d < 16
    ensures HexValue(HexDigit(d)) == d
  {
  }

  /** Reading a hex string two digits at a time (a trailing odd digit is
      ignored). */
  function HexDecode(s: string): (bs: seq<Byte>)
    requires forall i :: 0 <= i < |s| ==> IsHexChar(s[i])
    ensures 2 * |bs| <= |s| <= 2 * |bs| + 1
  {
    if |s| < 2 then []
    else [(HexValue(s[0]) * 16 + HexValue(s[1])) as Byte] + HexDecode(s[2..])
  }

  /** The two digits of one byte read back as that byte. */
  lemma ByteHexRoundTrip(b: Byte)
    ensures var h := ByteHex(b); HexValue(h[0]) * 16 + HexValue(h[1]) == b as int
  {
    HexValueOfDigit(b as int / 16);
    HexValueOfDigit(b as int % 16);
  }

  /** Hex decoding inverts hex encoding, so distinct digests give distinct strings. */
  lemma {:induction false} HexRoundTrip(bs: seq<Byte>)
    ensures HexDecode(HexEncode(bs)) == bs
  {
    if |bs| > 0 {
      var s := HexEncode(bs);
      HexEncodeHead(bs);
      ByteHexRoundTrip(bs[0]);
      HexRoundTrip(bs[1..]);
      HexDecodeStep(s, bs[0], bs[1..]);
      assert bs == [bs[0]] + bs[1..];
    }
  }

  /** The first two characters of an encoding are those of its first byte. */
  lemma HexEncodeHead(bs: seq<Byte>)
    requires |bs| > 0
    ensures var s := HexEncode(bs); var h := ByteHex(bs[0]);
      |s| >= 2 && s[0] == h[0] && s[1] == h[1] && s[2..] == HexEncode(bs[1..])
  {
    var s := HexEncode(bs);
    var h := ByteHex(bs[0]);
    assert s == h + HexEncode(bs[1..]);
    assert s[0] == h[0] && s[1] == h[1];
  }

  /** One step of decoding: the byte of the first two digits, then the rest. */
  lemma HexDecodeStep(s: string, b: Byte, resto: seq<Byte>)
    requires |s| >= 2
    requires forall i :: 0 <= i < |s| ==> IsHexChar(s[i])
    requires HexValue(s[0]) * 16 + HexValue(s[1]) == b as int
    requires HexDecode(s[2..]) == resto
    ensures HexDecode(s) == [b] + resto
  {
  }

  /** `generarHash` once the digest is computed: 64 lower-case hex characters
      from which the digest can be read back. */
  function GenerarHash(digest: Digest): (h: string)
    ensures |h| == 64
    ensures forall i :: 0 <= i < |h| ==> IsHexChar(h[i])
    ensures HexDecode(h) == digest
  {
    HexRoundTrip(digest);
    HexEncode(digest)
  }
}

=== FILE: whatsapp.dfy ===
/** The WhatsApp endpoint (src/app/api/notificaciones/whatsapp/route.ts):
    the Twilio request it builds, the POST validation chain and the GET
    configuration flag. The Twilio reply is an input. */
module WhatsApp {
  import opened Base
  import opened Text
  import opened Tablas

  const Prefijo: string := "whatsapp:"

  /** `to.startsWith('whatsapp:') ? to : 'whatsapp:' + to`. */
  function ToWhatsApp(to: string): (r: string)
    ensures StartsWith(r, Prefijo)
    ensures StartsWith(to, Prefijo) ==> r == to
    ensures !StartsWith(to, Prefijo) ==> r == Prefijo + to
  {
    if StartsWith(to, Prefijo) then to else Prefijo + to
  }

  /** Normalising twice is normalising once. */
  lemma ToWhatsAppIdempotente(to: string)
    ensures ToWhatsApp(ToWhatsApp(to)) == ToWhatsApp(to)
  {
  }

  /** The three Twilio settings, as read from the environment. */
  datatype Twilio = Twilio(accountSid: Option<string>, authToken: Option<string>, whatsappFrom: Option<string>)

  /** Every setting present and non-empty. */
  predicate Configurada(cfg: Twilio) {
    NonEmpty(cfg.accountSid).Some? && NonEmpty(cfg.authToken).Some? && NonEmpty(cfg.whatsappFrom).Some?
  }

  /** The message request sent to Twilio. */
  datatype Peticion = Peticion(accountSid: string, authToken: string, from: string, to: string, body: string)

  /** `enviarWhatsAppTwilio` up to the request: without credentials nothing
      is sent (the function throws first); otherwise the request addresses
      the normalised number. */
  function PeticionTwilio(cfg: Twilio, to: string, message: string): (p: Option<Peticion>)
    ensures p.Some? <==> Configurada(cfg)
    ensures p.Some? ==>
      (p.value.to == ToWhatsApp(to) && p.value.body == message
       && p.value.from == cfg.whatsappFrom.value && StartsWith(p.value.to, Prefijo))
  {
    if Configurada(cfg) then
      Some(Peticion(cfg.accountSid.value, cfg.authToken.value, cfg.whatsappFrom.value, ToWhatsApp(to), message))
    else None
  }

  /** What Twilio answers to a request. */
  datatype RespuestaTwilio = TwilioOk(sid: Option<string>, estado: string) | TwilioError(mensaje: string)

  /** The body of the POST: every field optional. */
  datatype Mensaje = Mensaje(to: Option<string>, message: Option<string>, clienteId: Option<string>)

  /** The WhatsApp columns of the named client, when the lookup found one row. */
  datatype ClienteWhatsApp = ClienteWhatsApp(notificarWhatsapp: Option<bool>, whatsappContacto: Option<string>)

  /** The audit row inserted after a successful send. */
  datatype RegistroEnvio = RegistroEnvio(actorId: string, accion: string, entidad: string, entidadId: Option<string>)

  /** The POST's answer: the HTTP status, the request it sent (if any) and
      the audit row it inserted (if any). */
  datatype Respuesta = Respuesta(status: int, enviada: Option<Peticion>, auditoria: Option<RegistroEnvio>)

  /** The client check: a named client must accept WhatsApp and, when it has
      a registered number, that number must be `to`. No client id passes. */
  predicate ClienteAcepta(clienteId: Option<string>, cliente: Option<ClienteWhatsApp>, to: string) {
    NonEmpty(clienteId).None? ||
    (cliente.Some? && cliente.value.notificarWhatsapp == Some(true)
     && (NonEmpty(cliente.value.whatsappContacto).None? || cliente.value.whatsappContacto.value == to))
  }

  /** `POST`. `usuario` is the authenticated user (none on an auth error),
      `perfil` the role read for it, `peticion` the parsed JSON body (none
      when it does not parse, which throws and answers 500), `cliente` the
      client row when `clienteId` is given, `twilio` Twilio's reply should a
      request be sent. The audit insert's own error is not looked at. */
  function Post(usuario: Option<string>, perfil: Option<Rol>, peticion: Option<Mensaje>,
                cliente: Option<ClienteWhatsApp>, cfg: Twilio, twilio: RespuestaTwilio): (r: Respuesta)
    ensures r.status == 401 <==> usuario.None?
    ensures r.status == 403 <==> usuario.Some? && perfil != Some(Revisor)
    ensures usuario.Some? && perfil == Some(Revisor) && peticion.None? ==> r == Respuesta(500, None, None)
    ensures usuario.Some? && perfil == Some(Revisor) && peticion.Some?
      && (NonEmpty(peticion.value.to).None? || NonEmpty(peticion.value.message).None?)
      ==> r.status == 400
    ensures r.enviada.Some? <==>
      usuario.Some? && perfil == Some(Revisor) && peticion.Some?
      && NonEmpty(peticion.value.to).Some? && NonEmpty(peticion.value.message).Some?
      && ClienteAcepta(peticion.value.clienteId, cliente, peticion.value.to.value) && Configurada(cfg)
    ensures r.enviada.Some? ==> r.enviada == PeticionTwilio(cfg, peticion.value.to.value, peticion.value.message.value)
    ensures r.status == 200 <==> r.enviada.Some? && twilio.TwilioOk?
    ensures r.auditoria.Some? <==> r.status == 200
    ensures r.auditoria.Some? ==> r.auditoria.value == RegistroEnvio(usuario.value, "ENVIAR_WHATSAPP", "notificaciones", NonEmpty(twilio.sid))
    ensures r.status in {200, 400, 401, 403, 500}
    ensures usuario.Some? && perfil == Some(Revisor) && peticion.Some? ==>
      (r.status == 400 <==>
        NonEmpty(peticion.value.to).None? || NonEmpty(peticion.value.message).None?
        || !ClienteAcepta(peticion.value.clienteId, cliente, peticion.value.to.value))
    ensures (usuario.Some? && perfil == Some(Revisor) && peticion.Some?
             && NonEmpty(peticion.value.to).Some? && NonEmpty(peticion.value.message).Some?
             && ClienteAcepta(peticion.value.clienteId, cliente, peticion.value.to.value))
      ==> (r.status == 500 <==> !Configurada(cfg) || twilio.TwilioError?)
  {
    if usuario.None? then Respuesta(401, None, None)
    else if perfil != Some(Revisor) then Respuesta(403, None, None)
    else if peticion.None? then Respuesta(500, None, None)        // `request.json()` throws
    else
      var body := peticion.value;
      if NonEmpty(body.to).None? || NonEmpty(body.message).None? then Respuesta(400, None, None)
      else
        var to, message := body.to.value, body.message.value;
        if NonEmpty(body.clienteId).Some? && !(cliente.Some? && cliente.value.notificarWhatsapp == Some(true)) then
          Respuesta(400, None, None)
        else if NonEmpty(body.clienteId).Some? && NonEmpty(cliente.value.whatsappContacto).Some?
                && cliente.value.whatsappContacto.value != to then
          Respuesta(400, None, None)
        else
          var envio := PeticionTwilio(cfg, to, message);
          if envio.None? then Respuesta(500, None, None)        // missing credentials throw
          else if twilio.TwilioError? then Respuesta(500, envio, None)
          else Respuesta(200, envio, Some(RegistroEnvio(usuario.value, "ENVIAR_WHATSAPP", "notificaciones", NonEmpty(twilio.sid))))
  }

  /** A client that has not opted in, or whose registered number differs
      from `to`, is refused with 400 and nothing is sent; a client with no
      registered number is not checked against `to`. */
  lemma ClienteRechazado(usuario: string, body: Mensaje, cliente: Option<ClienteWhatsApp>, cfg: Twilio, twilio: RespuestaTwilio)
    requires NonEmpty(body.to).Some? && NonEmpty(body.message).Some? && NonEmpty(body.clienteId).Some?
    requires !ClienteAcepta(body.clienteId, cliente, body.to.value)
    ensures Post(Some(usuario), Some(Revisor), Some(body), cliente, cfg, twilio) == Respuesta(400, None, None)
  {
  }

  /** `GET`: `configured` holds exactly when all three settings are present. */
  function Get(cfg: Twilio): (configured: bool)
    ensures configured <==> PeticionTwilio(cfg, "", "").Some?
  {
    Configurada(cfg)
  }
}
